=== FILE: README.md ===
# rust-barcode-generator in Dafny

A model of the logic at the centre of rust-barcode-generator. That is a
desktop barcode generator with a React/TypeScript front end and a Rust
back end, in two copies: `src/generator/`, which the application builds, and
an older `src/lib/`. The model covers the parts that decide values rather
than draw pixels. Each part is written as pure functions over immutable
datatypes, with contracts and lemmas stating what the code promises:

- **Payload validation.** The front end has a table of per-format rules, and
  `validateBarcodeData` turns (data, format) into an ordered list of
  messages. The back end's `validator.rs` has per-format checks that
  nothing calls; its only public check looks at the texts alone.
- **Configuration.** The front end's state updates in `Home.tsx` and the
  default configuration and format list of `interfaces.ts`. The back end's
  format-name mapping, colour and configuration conversions, dimensions
  record and builders: a mutable one, and the older persistent one.
- **Templates.** The `Template` constructors, the JSON-file template store,
  and the two front-end screens that list, save, load and delete templates.
  Those screens are state machines driven by the replies of the back end.
- **Image arithmetic.** The millimetre/pixel calculator and paper sizes; the
  text-band layout and height accounting of the generators; the export grid
  (columns, centring margins, cells, fitting, borders); the cursor-driven
  paging of the PNG exporter; the single-sheet PDF exporter.
- **Bulk generation.** Each imported row mapped to a configuration and
  generated in order, the first failure ending the run.

## Conventions

- **Front-end strings** are Dafny strings of scalar values, measured through
  their well-formed UTF-16 encoding (`Strings.Utf16`). So `length`, comparison
  and the regular expressions of the rule table work on code units. A
  JavaScript string holding a lone surrogate cannot be expressed (see
  "Left out").
- **Rust strings** are Dafny strings of scalar values. `len()` is their
  UTF-8 byte length (`Strings.Utf8Len`).
- **`f32` and TypeScript numbers** are `real`. Casts to integers are written
  out in `Ints`: they truncate toward zero and saturate, as Rust's `as`
  does. Rounding is `f32::round`.
- **Integer panics.** Rust's `u32` arithmetic panics in a debug build. Each
  such panic, and each `unwrap` on an empty list, is an explicit error value
  (`TextLayout.Panic`, `Grid.ExportPanic`, `GenError`). The exceptions are
  listed under "Left out".
- **Outside calls are parameters.** These are the zxing encoder, the
  image editor's resizes, fonts and glyph widths, file writes, the Tauri
  command replies, `confirm()`, `Date.now()` and fresh UUIDs. Each model
  holds for every value of them.
- **Modules follow the source files.**
  - `validation_rules`, `utils`, `interfaces`, `home`, `template_manager` and
    `templates_page` follow the front-end files of the same names.
  - `generator_config`, `lib_config`, `validator`, `rust_templates`,
    `database`, `calculator`, `paper`, `generator`, `lib_generator`,
    `png_exporter`, `pdf_exporter`, `lib_pdf_exporter`, `bulk_generator` and
    `lib_bulk_generator` follow the Rust files.
  - `text_layout` and `grid` hold the arithmetic that several Rust files
    share.
  - `batches` holds the first-failure loop of both bulk generators.
  - `cross_checks` relates the front-end rules to the back-end checks.

## Where the code and its description differ

The model follows the code in each case:

- **Square formats.** Changing the format in `Home.tsx` changes only the
  format. No square format forces equal sides, and no dimension is mirrored
  into the other (`Home.FormatChangeKeepsDimensions`,
  `Home.HandleDimensionsChange`).
- **Overlapping generations.** Generation requests are not numbered or
  discarded when stale. The last reply to arrive sets the preview, and the
  busy flag is cleared by whichever request finishes first
  (`Home.LastCompletionWins`, `Home.FlagClearedEarly`).
- **The generate button** is rendered only while auto-generation is off.
  `Home.Click` models the enabled state, not the rendering.
- **Codabar length limits.** The front end allows 20 code units. The back
  end's unused check (private, never called) would allow 16 bytes, so no
  back-end path enforces a Codabar limit
  (`CrossChecks.CodabarLimitsDisagree`). Codabar's pattern also admits
  whitespace, which its displayed alphabet does not
  (`ValidationRules.CodabarAdmitsWhitespace`).
- **The returned buffer** of `generate_barcode_png_with_dpi` is the image
  after the width resize only. A height percentage other than 100 replaces
  the millimetre target entirely (`Generator.GeneratedSizes`).
- **The PDF export** is a single PNG sheet with no pagination. Barcodes past
  the page fall off it.

## Model

| member | source | states |
|---|---|---|
| Formats.NameInjective | frontend/src/lib/interfaces.ts:61-86 | the enum's string values are pairwise distinct, so a format is recovered from its name |
| Formats.AllFormatsDistinct | frontend/src/lib/interfaces.ts:61-86 | the enum declares 24 members, each once, in the order the ordinal records |
| Formats.PositionsEnumerated | frontend/src/lib/interfaces.ts:88-94 | there are exactly five text positions and their string values tell them apart |
| Interfaces.CreateBarcodeFormatWrapper | frontend/src/lib/interfaces.ts:96-98 | the wrapper carries the format's name, and two formats give equal wrappers only when they are equal |
| Interfaces.GetAvailableBarcodeFormats | frontend/src/lib/interfaces.ts:100-122 | the offered list is the first nineteen formats in declaration order, without repeats, leaving out DXFilmEdge, LinearCodes, MatrixCodes, Any and None |
| ValidationRules.FindIndex | frontend/src/lib/utils.ts:6 | `findIndex` yields -1 or an index whose rule has the format, and no earlier index has it |
| ValidationRules.Find | frontend/src/lib/utils.ts:6 | `find` yields a rule of the table for the format, and yields none exactly when no rule has that format |
| ValidationRules.FindFirst | frontend/src/lib/utils.ts:6 | `find` returns the rule at the first matching index |
| ValidationRules.RulesFollowDeclaration | frontend/src/lib/validationRules.ts:13-174 | the table has 20 rules, one for each of the first twenty formats in declaration order, so their formats are pairwise distinct and `find` is unambiguous |
| ValidationRules.RuleFor | frontend/src/lib/validationRules.ts:13-174 | a format has a rule exactly when it is among the first twenty, and the rule is the table entry naming it |
| ValidationRules.RuleAt | frontend/src/lib/validationRules.ts:13-174 | looking up the format of any table entry gives back that entry |
| ValidationRules.RuleBoundsOrdered | frontend/src/lib/validationRules.ts:13-174 | every rule has 1 <= minLength <= maxLength |
| ValidationRules.SquareFormats | frontend/src/lib/validationRules.ts:30-157 | the dimension class is square exactly for QRCode, DataMatrix, Aztec, MaxiCode and MicroQRCode |
| ValidationRules.NoRuleAcceptsEmpty | frontend/src/lib/validationRules.ts:19-171 | no rule's pattern accepts the empty string |
| ValidationRules.DigitsPattern | frontend/src/lib/validationRules.ts:43 | `^[0-9]{n}$` accepts a string exactly when it is n ASCII digits |
| ValidationRules.OneOrMoreDigitsPattern | frontend/src/lib/validationRules.ts:139 | `^[0-9]+$` accepts a string exactly when it is one or more ASCII digits |
| ValidationRules.Latin1Pattern | frontend/src/lib/validationRules.ts:35 | `^[\x00-\xFF]+$` accepts a string exactly when it is non-empty and every character is at most U+00FF |
| ValidationRules.FixedLengthDigitFormats | frontend/src/lib/validationRules.ts:38-173 | EAN13, EAN8, UPCA, UPCE, DataBar, DataBarLimited and DXFilmEdge have min = max = N and accept exactly the strings of N ASCII digits |
| ValidationRules.DigitRuleShape | frontend/src/lib/validationRules.ts:38-173 | each of those seven rules is the N-digit rule with the "0-9" alphabet |
| ValidationRules.Latin1Formats | frontend/src/lib/validationRules.ts:30-165 | QRCode, DataMatrix, PDF417, Aztec, MaxiCode, MicroQRCode and RMQRCode accept a string exactly when it is non-empty and every code unit is at most 0xFF |
| ValidationRules.Latin1RuleShape | frontend/src/lib/validationRules.ts:30-165 | each of those seven rules uses the `[\x00-\xFF]+` pattern |
| ValidationRules.SharedCode39Alphabet | frontend/src/lib/validationRules.ts:22-125 | Code39, Code93 and DataBarExpanded share one alphabet: digits, upper-case letters, white space and `- . $ / + %` |
| ValidationRules.CodabarAdmitsWhitespace | frontend/src/lib/validationRules.ts:94-101 | Codabar's pattern accepts a payload with a space although its displayed alphabet lists none |
| ValidationRules.ItfRule | frontend/src/lib/validationRules.ts:134-141 | ITF takes 2 to 14 characters and its pattern accepts exactly non-empty digit strings |
| ValidationRules.OfferedFormatsHaveRules | frontend/src/lib/validationRules.ts:13-174 | every format the editor offers has a rule |
| Utils.CharsetFailure | frontend/src/lib/utils.ts:18-24 | a rejected payload is reported with the allowed characters exactly when the rule lists some, otherwise as "invalid characters" |
| Utils.RuleErrors | frontend/src/lib/utils.ts:9-26 | each failure is reported exactly when its check fails, in the order min length, max length, characters, and nothing else is reported |
| Utils.ValidationErrors | frontend/src/lib/utils.ts:5-26 | a format without a rule reports nothing; otherwise the failures are those of its rule on the payload's UTF-16 length and the pattern's verdict |
| Utils.ValidateBarcodeData | frontend/src/lib/utils.ts:5-27 | one message per failure, in report order |
| Utils.ValidIff | frontend/src/lib/utils.ts:5-27 | no message exactly when the format has no rule, or the length lies within the bounds and the pattern accepts the payload |
| Utils.EmptyDataFails | frontend/src/lib/utils.ts:11-24 | empty data fails every ruled format exactly twice: too short, then rejected by the pattern |
| Utils.WrongLengthDigits | frontend/src/lib/utils.ts:11-24 | a digit string of the wrong length for a fixed-length digit format fails on length and on the pattern, and on nothing else |
| Utils.Ean13TwelveDigits | frontend/src/lib/utils.ts:11-24 | "123456789012" as EAN13 reports "requires at least 13" and the digit alphabet |
| Utils.DefaultConfigValidates | frontend/src/lib/interfaces.ts:10-32 | the editor's default configuration is Code128 and its data passes Code128's check |
| Utils.DigitsPassCode128 | frontend/src/lib/validationRules.ts:14-21 | a string of 1 to 99 digits passes Code128's pattern, its length in code units being its length |
| Validator.ValidateBarcodeConfig | src/generator/validator.rs:13-19 | fails, with "No texts provided", exactly when there are no texts |
| Validator.LengthCheck | src/generator/validator.rs:21-31 | a byte-length bound on one format fails exactly when the format matches and the UTF-8 length exceeds the bound |
| Validator.ValidateCodabar | src/generator/validator.rs:21-31 | fails exactly for Codabar data of more than 16 UTF-8 bytes |
| Validator.ValidateDataBar | src/generator/validator.rs:33-43 | fails exactly for DataBar data of more than 99 UTF-8 bytes |
| Validator.AnyAbove255 | src/generator/validator.rs:49 | true exactly when some character is above U+00FF |
| Validator.ValidateDataBarExpanded | src/generator/validator.rs:45-56 | fails exactly for DataBarExpanded data holding a character above U+00FF |
| Validator.ValidateCode39 | src/generator/validator.rs:58-68 | fails exactly for Code39 data of more than 99 UTF-8 bytes |
| Validator.ValidateUpce | src/generator/validator.rs:70-78 | fails exactly for UPCE data of more than 8 UTF-8 bytes |
| Validator.ChecksAreFormatSpecific | src/generator/validator.rs:21-78 | each format check passes every configuration of another format |
| Validator.TwoByteCharsCountTwice | src/generator/validator.rs:60 | the limits count bytes: a string of two-byte characters has twice its length in bytes |
| Validator.AsciiLengthCheck | src/generator/validator.rs:23 | for ASCII data the byte limits are character limits |
| CrossChecks.UpceLimitsAgree | src/generator/validator.rs:70-78 | a UPCE payload the editor accepts passes the backend's UPCE check |
| CrossChecks.CodabarLimitsDisagree | src/generator/validator.rs:21-31 | a Codabar payload of 17 to 20 digits passes the editor's check (at most 20) and fails the backend's unused check (at most 16 bytes; private, never called) |
| CrossChecks.DigitsAreAscii | frontend/src/lib/validationRules.ts:43 | a digit string has as many code units and as many UTF-8 bytes as characters, and all its code units are digits |
| Interfaces.NameInjectiveAll | frontend/src/lib/interfaces.ts:61-86 | a format's display name identifies it among all formats |
| ValidationRules.CodabarSample | frontend/src/lib/validationRules.ts:94-101 | the Codabar pattern accepts a value with a space although the space is outside the Codabar alphabet |
| Strings.Utf16Char | frontend/src/lib/utils.ts:11 | a character below U+10000 is one code unit, any other a surrogate pair |
| Strings.Utf16OfBmp | frontend/src/lib/utils.ts:11 | for text in the Basic Multilingual Plane, `.length` is the number of characters and the code units are the characters |
| Strings.Utf16Injective | frontend/src/lib/utils.ts:18 | distinct strings have distinct UTF-16 encodings |
| Strings.StringLessOrder | frontend/src/pages/Templates.tsx:73 | the default `sort` order on strings is irreflexive, transitive and total |
| Strings.Utf8Width | src/generator/validator.rs:23 | a character takes 1 to 4 UTF-8 bytes, 1 exactly when it is ASCII |
| Strings.Utf8Len | src/generator/validator.rs:23 | `len()` lies between the number of characters and four times it |
| Strings.Utf8LenAscii | src/generator/validator.rs:23 | `len()` equals the number of characters exactly when every character is ASCII |
| Strings.TrimStart | frontend/src/pages/Home.tsx:102 | drops exactly the leading white space: a suffix, all dropped characters white space, the first kept one not |
| Strings.TrimEnd | frontend/src/pages/Home.tsx:102 | drops exactly the trailing white space: a prefix, all dropped characters white space, the last kept one not |
| Strings.Trim | frontend/src/pages/Home.tsx:102 | the trimmed string neither starts nor ends with white space |
| Strings.TrimEmptyIffBlank | frontend/src/pages/Home.tsx:102 | `trim()` is empty exactly when the string is all white space |
| Strings.Decimal | frontend/src/lib/utils.ts:12 | the rendering of a number is a canonical numeral, digits only with no leading zero, and its digits read left to right denote that number |
| Strings.DecimalInjective | frontend/src/components/TemplateManager.tsx:66 | two numbers print the same exactly when they are equal, so distinct timestamps give distinct template ids |
| Strings.DecimalOfValue | frontend/src/lib/utils.ts:12-15 | printing inverts reading: every canonical numeral is the rendering of the number it denotes |
| Home.Get | frontend/src/pages/Home.tsx:31-33 | reading a field yields a value tagged with that field |
| Home.HandleConfigChange | frontend/src/pages/Home.tsx:31-33 | the named field reads back the new value and every other field is unchanged |
| Home.ConfigChangeLaws | frontend/src/pages/Home.tsx:31-33 | writing back what was read changes nothing, a second write to a field wins, writes to different fields commute |
| Home.HandleFormatChange | frontend/src/pages/Home.tsx:35-40 | only the format changes, to the wrapper of the chosen format |
| Home.FormatChangeKeepsDimensions | frontend/src/pages/Home.tsx:35-40 | a format switch keeps texts and dimensions, so a non-square size stays non-square on a square symbology |
| Home.SetText | frontend/src/pages/Home.tsx:46 | the named text field reads back the value; the others are unchanged |
| Home.MapAt | frontend/src/pages/Home.tsx:45-47 | the list keeps its length; only the element at the index changes, by the field update |
| Home.HandleTextChange | frontend/src/pages/Home.tsx:42-49 | one field of one text changes and nothing else; an index outside the list changes nothing |
| Home.HandleColorChange | frontend/src/pages/Home.tsx:51-61 | one channel of one text's colour changes; the other channels, the other fields and the other texts are unchanged |
| Home.HandleDimensionsChange | frontend/src/pages/Home.tsx:63-68 | that dimension takes the value; the other three, its pair included, stay as they were |
| Home.AddText | frontend/src/pages/Home.tsx:70-82 | one "New Text" text is appended and the earlier texts are untouched |
| Home.FilterIndexRemoves | frontend/src/pages/Home.tsx:88 | the filter drops exactly the position at the index when it lies in the list, and keeps everything otherwise |
| Home.RemoveText | frontend/src/pages/Home.tsx:84-91 | with more than one text the text at the index goes and the rest keep their order; with one text nothing happens, so a removal never empties the list |
| Home.Generate | frontend/src/pages/Home.tsx:101-106 | a call is added exactly when the trimmed data is not empty; the new call carries the current configuration and sets the flag; earlier calls, the configuration, the toggle and the preview are kept; blank data changes nothing |
| Home.OnEdit | frontend/src/pages/Home.tsx:93-98 | after an edit a generation starts exactly when auto-generate is on, the edit replaced the configuration and the new data is not blank, and it uses the edited configuration |
| Home.ToggleAuto | frontend/src/pages/Home.tsx:147 | turning auto-generate on starts a generation exactly when the data is not blank, with the current configuration and the flag set; turning it off starts none |
| Home.MountStartsGeneration | frontend/src/pages/Home.tsx:6-98 | auto-generate starts on and the initial data is "123456789", so right after mounting one generation is pending with the initial configuration, the flag is set and the button is disabled |
| Home.Click | frontend/src/pages/Home.tsx:368-375 | a click starts a call with the current configuration exactly when the button is enabled, and otherwise changes nothing |
| Home.ButtonEnabledIff | frontend/src/pages/Home.tsx:371 | the button is enabled exactly when no generation is flagged and the data is not all white space |
| Home.Complete | frontend/src/pages/Home.tsx:115-120 | a reply clears the flag whatever is still pending; a success shows its image, a failure keeps the preview |
| Home.LastCompletionWins | frontend/src/pages/Home.tsx:106-115 | when an older call finishes after a newer one, its image replaces the newer one's |
| Home.FlagClearedEarly | frontend/src/pages/Home.tsx:118-120 | the flag drops at the first of two replies, re-enabling the button while a call is still running |
| TemplateManager.FilterByFormat | frontend/src/components/TemplateManager.tsx:30-35 | the filtered list is no longer than the list and holds only templates of the format |
| TemplateManager.FilterMembership | frontend/src/components/TemplateManager.tsx:31-33 | a template survives the filter exactly when it is in the list and has the format |
| TemplateManager.FilterAppend | frontend/src/components/TemplateManager.tsx:31-33 | the filter keeps the original order: filtering a concatenation concatenates the filtered parts |
| TemplateManager.FilterKeepsAll | frontend/src/components/TemplateManager.tsx:31-33 | a list whose templates all have the format passes unchanged |
| TemplateManager.LoadTemplates | frontend/src/components/TemplateManager.tsx:37-53 | a successful reply with data replaces the list and clears the error; any other reply or an exception sets the error and keeps the list |
| TemplateManager.FormatChanged | frontend/src/components/TemplateManager.tsx:26-35 | a format change fetches the list again; after a successful reply the panel shows exactly the fetched templates of the new format, and otherwise the old list filtered by the new format, with an error |
| TemplateManager.Mount | frontend/src/components/TemplateManager.tsx:22-28 | mounting fetches the list twice, once per loading effect; the later successful reply decides the list, and with no success the list is kept and an error shown |
| TemplateManager.NewTemplate | frontend/src/components/TemplateManager.tsx:65-70 | the saved template holds the trimmed name and description, the current configuration, and the timestamp's decimal rendering as id |
| TemplateManager.Submit | frontend/src/components/TemplateManager.tsx:61-93 | on success the list is reloaded, the parent notified when it listens, the fields cleared and the dialog closed; on failure only the error is set |
| TemplateManager.SaveTemplate | frontend/src/components/TemplateManager.tsx:55-94 | a blank name sets "Template name is required" and makes no call; any other name submits the new template |
| TemplateManager.LoadTemplate | frontend/src/components/TemplateManager.tsx:96-99 | the template's configuration goes to the editor and the load dialog closes, nothing else changes |
| TemplateManager.DeleteTemplate | frontend/src/components/TemplateManager.tsx:101-126 | without confirmation nothing happens; on success the list is reloaded and then the parent notified; on failure only the error is set |
| TemplateManager.SaveThenReload | frontend/src/components/TemplateManager.tsx:72-80 | after a successful save and reload the panel shows exactly the reloaded templates of the current format, and the reload precedes the notification |
| TemplatesPage.FilterShowsExactly | frontend/src/pages/Templates.tsx:17-26 | selecting a format shows exactly the templates of that format, and never more than 'all' shows |
| TemplatesPage.Insert | frontend/src/pages/Templates.tsx:69-73 | adding a name to a sorted set keeps it strictly sorted and adds exactly that name |
| TemplatesPage.FormatNames | frontend/src/pages/Templates.tsx:70-72 | one format name per template, in list order |
| TemplatesPage.SortDistinct | frontend/src/pages/Templates.tsx:69-73 | the `Set` read out through `sort()` is strictly sorted |
| TemplatesPage.SortDistinctMembers | frontend/src/pages/Templates.tsx:69-73 | the sorted list holds each name of the input once and nothing else |
| TemplatesPage.GetAvailableFormats | frontend/src/pages/Templates.tsx:68-74 | the offered formats are strictly sorted, so none repeats |
| TemplatesPage.AvailableFormatsExact | frontend/src/pages/Templates.tsx:68-74 | a name is offered exactly when some template has that format |
| TemplatesPage.SortedUnique | frontend/src/pages/Templates.tsx:73 | a strictly sorted list is determined by its members |
| TemplatesPage.AvailableFormatsOrderFree | frontend/src/pages/Templates.tsx:68-74 | reordering the templates does not change the offered formats |
| TemplatesPage.LoadTemplates | frontend/src/pages/Templates.tsx:28-44 | a successful reply with data replaces the list and clears the error; any other reply or an exception sets the error and keeps the list |
| TemplatesPage.DeleteTemplate | frontend/src/pages/Templates.tsx:46-66 | without confirmation nothing happens; a success reloads the list; a failure only sets the error |
| TemplatesPage.Select | frontend/src/pages/Templates.tsx:98-100 | changing the selection changes the view only: list, error and calls are unchanged |
| RustTemplates.WithId | src/generator/templates.rs:24-31 | every field is as given |
| RustTemplates.New | src/generator/templates.rs:15-22 | `new` is `with_id` with a freshly drawn identifier |
| RustTemplates.FromConfig | src/generator/templates.rs:33-35 | the configuration is replaced; name, description and identifier are kept |
| RustTemplates.GenerateNewId | src/generator/templates.rs:37-39 | only the identifier changes, to the fresh one |
| RustTemplates.TemplateLaws | src/generator/templates.rs:14-40 | a template is rebuilt from its fields; replacing the configuration and renewing the identifier commute; `from_config` after `new` is `new` of the other configuration; replacing back restores the template |
| Database.Load | src/generator/database.rs:24-32 | succeeds exactly for a readable file, with its map; an absent file and an unreadable one are distinct errors |
| Database.LoadTemplates | src/generator/database.rs:34-42 | an absent file reads as the empty map, a stored one as its map, an unreadable one fails |
| Database.SaveTemplates | src/generator/database.rs:18-22 | succeeds exactly when the write completes, and then stores exactly the map; a write that cannot create the file leaves it as it was; one cut short after `fs::write` truncated the file leaves it unreadable |
| Database.SaveTemplate | src/generator/database.rs:75-82 | the stored map gains the template at its id; an absent or unreadable file counts as empty; a write that cannot create the file changes nothing, one cut short leaves the file unreadable |
| Database.LoadTemplate | src/generator/database.rs:84-90 | fails exactly for an unreadable file; otherwise the template stored at the id, if any |
| Database.DeleteTemplate | src/generator/database.rs:92-96 | an unreadable file is an error and nothing is written; otherwise the entry is removed, an absent one being no error, with the same three write outcomes as saving |
| Database.ListTemplates | src/generator/database.rs:98-103 | every stored template exactly once, in some order of distinct keys; an unreadable file fails, an absent one lists nothing |
| Database.DeleteFile | src/generator/database.rs:48-53 | after success the file does not exist; an absent file is no error; a failed removal keeps the file |
| Database.CutShortLosesStore | src/generator/database.rs:18-22 | a save cut short after the truncation makes the next load fail, whatever the file held before |
| Database.OpenFailedKeepsStore | src/generator/database.rs:18-22 | a save that cannot create the file leaves every read as it was |
| Database.SaveThenLoad | src/generator/database.rs:75-90 | a saved template reads back whatever the file held; other ids of a stored map read as before |
| Database.DeleteThenLoad | src/generator/database.rs:84-96 | a deleted template is gone, other entries stay, and deleting an absent id leaves the map as it was |
| Database.SaveThenDelete | src/generator/database.rs:75-96 | saving and then deleting a new template restores the store |
| GeneratorConfig.RgbOfWrapper | src/generator/barcode_config.rs:180-184 | the pixel's channels are r, g, b in that order |
| GeneratorConfig.WrapperOfRgb | src/generator/barcode_config.rs:186-194 | the wrapper's r, g, b are channels 0, 1, 2 |
| GeneratorConfig.RgbRoundTrip | src/generator/barcode_config.rs:180-194 | the two colour conversions are inverse to each other |
| GeneratorConfig.FormatOfWrapper | src/generator/barcode_config.rs:65-81 | the ten known names select the format of that name; any other string falls back to Code128 |
| GeneratorConfig.WrapperOfFormat | src/generator/barcode_config.rs:83-115 | every format, pseudo-formats included, is written under its own name, so distinct formats give distinct wrappers |
| GeneratorConfig.KnownNamesAreFirstTen | src/generator/barcode_config.rs:67-79 | a format's name is a known name exactly for the first ten formats |
| GeneratorConfig.FormatRoundTrip | src/generator/barcode_config.rs:65-115 | format to wrapper to format is the identity exactly on the first ten formats; the other fourteen come back as Code128 |
| GeneratorConfig.WrapperRoundTrip | src/generator/barcode_config.rs:65-115 | wrapper to format to wrapper is the identity exactly on the ten known names; any other comes back as "Code128" |
| GeneratorConfig.Resize | src/generator/barcode_config.rs:135-160 | the resized field reads back the value; the other three are unchanged |
| GeneratorConfig.ResizeLaws | src/generator/barcode_config.rs:135-160 | a second resize of a field wins, resizes of different fields commute, writing back a field's value changes nothing |
| GeneratorConfig.TextToInternal | src/generator/barcode_config.rs:42-49 | only the colour changes type; every other field is carried over |
| GeneratorConfig.ToInternal | src/generator/barcode_config.rs:35-57 | the format name is resolved, each text converted in place, everything else carried over |
| GeneratorConfig.ConversionLosesOnlyFormat | src/generator/barcode_config.rs:35-115 | converting to the internal form and back restores the configuration exactly when its format name is known; nothing but the format is ever lost |
| GeneratorConfig.NewBuilder | src/generator/barcode_config.rs:209-227 | the builder starts at Code128, no texts, scale 10, quiet zones on, the default dimensions 100 %, 100 %, 48.5 mm, 16.9 mm, empty data |
| GeneratorConfig.SetFormat | src/generator/barcode_config.rs:229-232 | only the format changes, stored under its name; a first-ten format reads back as itself |
| GeneratorConfig.SetScale | src/generator/barcode_config.rs:234-237 | only the scale changes |
| GeneratorConfig.BuilderText | src/generator/barcode_config.rs:246-253 | the pushed text has font "DejaVuSans", margin 5 and the given text, colour, size and position |
| GeneratorConfig.AddText | src/generator/barcode_config.rs:239-255 | one text is appended at the end; earlier texts and every other field are kept |
| GeneratorConfig.ResizePercentage | src/generator/barcode_config.rs:257-265 | only that percentage of the dimensions changes |
| GeneratorConfig.BuilderSettersCommute | src/generator/barcode_config.rs:229-269 | setters on different parts commute, and two text additions appear in their call order |
| LibConfig.NewLibBuilder | src/lib/barcode_config.rs:83-97 | the builder starts at Code128, no texts, scale 10, quiet zones on and the default dimensions |
| LibConfig.LibSetFormat | src/lib/barcode_config.rs:99-106 | a new builder differing only in the format |
| LibConfig.LibSetScale | src/lib/barcode_config.rs:108-115 | a new builder differing only in the scale |
| LibConfig.LibAddText | src/lib/barcode_config.rs:117-139 | the copied list gets one more text at the end, with margin 5 and font "DejaVuSans"; nothing else changes |
| LibConfig.LibResizePercentage | src/lib/barcode_config.rs:141-157 | only that percentage of the dimensions changes |
| LibConfig.ChainEffect | src/lib/barcode_config.rs:99-161 | after any chain of calls the texts are the earlier ones followed by the added ones in call order, the format is the last one set, and the quiet-zone flag is untouched |
| Calculator.MmToPx | src/generator/calculator.rs:9-13 | a negative product gives 0; otherwise the result is within half a pixel of millimetres / 25.4 * dpi |
| Calculator.PxToMm | src/generator/calculator.rs:16-19 | millimetres times dpi equal pixels times 25.4 |
| Calculator.InchesToPx | src/generator/calculator.rs:22-24 | a negative product gives 0; otherwise the result is within half a pixel of inches * dpi |
| Calculator.PxToInches | src/generator/calculator.rs:27-29 | inches times dpi equal the pixels |
| Calculator.A4Px | src/generator/calculator.rs:32-37 | each side is within half a pixel of 210 mm and 297 mm at the given resolution, below the saturation point; a negative resolution gives (0, 0); the width never exceeds the height |
| Calculator.RoundWhole | src/generator/calculator.rs:12 | rounding a whole number of pixels gives it back |
| Calculator.PxMmRoundTrip | src/generator/calculator.rs:9-19 | pixels to millimetres and back are the same pixels |
| Calculator.PxInchesRoundTrip | src/generator/calculator.rs:22-29 | pixels to inches and back are the same pixels |
| Calculator.MmAreScaledInches | src/generator/calculator.rs:9-24 | converting millimetres is converting millimetres / 25.4 inches |
| Calculator.RoundMonotone | src/generator/calculator.rs:12 | rounding keeps the order of its arguments |
| Calculator.MmToPxMonotone | src/generator/calculator.rs:9-13 | at a positive resolution a longer length never needs fewer pixels |
| Calculator.TestedValues | src/generator/calculator.rs:44-63 | 25.4 mm at 300 dpi is 300 px, 10 mm at 72 dpi is 28 px, 300 px at 300 dpi is 25.4 mm, and A4 at 300 dpi is 2480 x 3508 |
| Paper.PaperDimensionsPx | src/generator/exporting/paper.rs:15-19 | A4 is 2480 x 3508 pixels whatever the resolution, narrower than high |
| Paper.PaperDimensionsMm | src/generator/exporting/paper.rs:7-14 | the millimetre size is the pixel size read back at the given resolution |
| Paper.PaperAgreesWithCalculator | src/generator/exporting/paper.rs:7-19 | the fixed pixel size is the calculator's A4 at 300 dpi, and the millimetre size converts back to it at any resolution |
| Paper.A4At300 | src/generator/exporting/paper.rs:7-14 | at 300 dpi the page is 210 mm by about 297 mm |
| Ints.RealToU32 | src/lib/image_editor.rs:21 | a float cast to `u32` truncates toward zero, gives 0 for anything at or below zero and saturates at `u32::MAX` |
| Ints.RoundToU32 | src/generator/calculator.rs:12 | rounding then casting lands within half a unit of the input, 0 below zero, `u32::MAX` past the range |
| Ints.AsI32 | src/generator/generator.rs:179 | `u32 as i32` keeps values below 2^31 and wraps the rest to negatives |
| Ints.TruncDiv | src/generator/generator.rs:179 | signed division truncates toward zero, so a negative dividend gives a quotient at or above the Euclidean one and never positive |
| TextLayout.CenterX | src/generator/generator.rs:179 | the centred text start is never negative; when the text fits, the space left of it is half the spare width rounded down, and a wider text starts at 0; the subtraction overflowing `i32` is the only failure |
| TextLayout.Layout | src/generator/generator.rs:173-214 | position `None` leaves the image as it came; every other position keeps the width and adds a band of `text_size + 10` rows, with the barcode under the band and the text at row 5 for the upper positions, the barcode on top and the text 5 rows below it for the lower ones, left at 10 or centred |
| TextLayout.LayoutSucceeds | src/generator/generator.rs:173-209 | the text step fails exactly when one of its additions or the centring subtraction overflows |
| TextLayout.TextBandDisjoint | src/generator/generator.rs:181-209 | the pasted barcode lies inside the grown canvas and the text starts inside the canvas but outside the barcode's rows |
| TextLayout.ApplyTextsSize | src/generator/generator.rs:125-127 | after the text loop the width is unchanged and the height has grown by `text_size + 10` for each visible text |
| TextLayout.ApplyTextsSucceeds | src/generator/generator.rs:125-127 | the text loop cannot fail when the final height fits a `u32`, the width fits an `i32` and no text width is negative |
| Generator.TotalTextHeightMm | src/generator/generator.rs:48-61 | the text allowance is never negative |
| Generator.TotalTextHeightSingle | src/generator/generator.rs:48-61 | one text adds `text_size + margin` millimetres when its position is not `None` and nothing otherwise; with the next row this fixes the allowance of every list |
| Generator.TotalTextHeightAppend | src/generator/generator.rs:48-61 | the allowance of a list is the sum of the allowances of its parts, so the order of the texts does not change it |
| Generator.HiddenTextsTakeNoRoom | src/generator/generator.rs:52-57 | texts with position `None` add nothing to the allowance |
| Generator.EffectiveHeightMm | src/generator/generator.rs:78-84 | without texts the symbol gets the configured height; with texts it gets what the texts leave of it, but at least 1 mm |
| Generator.TargetPx | src/generator/generator.rs:88-94 | the pixel target is the millimetre width and effective height converted at the DPI, each raised to at least 1 |
| Generator.Boxes | src/generator/generator.rs:125-127 | each text is laid out with its own size, position and measured width, in list order |
| Generator.AddTextsIsLayoutFold | src/generator/generator.rs:125-127 | with every font present, the generator's text loop succeeds exactly when the shared layout fold does, with the same result |
| Generator.MissingFontFails | src/generator/generator.rs:156-164 | a text whose font file is missing fails the generation, even when its position draws nothing |
| Generator.FontsPresent | src/generator/generator.rs:156-164 | a text loop that succeeded found the font of every text |
| Generator.GeneratePngWithDpi | src/generator/generator.rs:63-139 | an encoder error is reported as such; a result carries the input data and file name, a buffer that is the encoded image after the width resize only, and exists only when the file was saved |
| Generator.GeneratedSizes | src/generator/generator.rs:113-138 | the saved image has the resized base's width and its height plus one band per visible text; the base is the millimetre target exactly when the height percentage is 100, and a height resize of the width-resized image otherwise |
| Generator.GeneratePng | src/generator/generator.rs:39-46 | the plain PNG generation is the DPI one at 300 DPI |
| Generator.GenerateSvg | src/generator/generator.rs:22-37 | SVG generation succeeds exactly when the encoder and the write do, reports the encoder's error, and returns the data and file name with an empty buffer |
| LibGenerator.WidthPct | src/lib/image_editor.rs:25-29 | the width percentage resize keeps the height, is the identity at 100 and never widens the image for a percentage up to 100 |
| LibGenerator.HeightPct | src/lib/image_editor.rs:19-23 | the height percentage resize keeps the width, is the identity at 100 and never heightens the image for a percentage up to 100 |
| LibGenerator.ScaledSide | src/lib/image_editor.rs:21-27 | a side scaled by 100 percent comes back unchanged, and by a percentage between 0 and 100 never grows |
| LibGenerator.LibResized | src/lib/generator.rs:51-62 | a height percentage other than 100 resizes the encoded image and so discards the width resize; otherwise the width resize applies alone, or nothing |
| LibGenerator.LibGeneratePng | src/lib/generator.rs:33-70 | the older generation encodes without quiet zones, reports the encoder's error, and succeeds only when the file was saved, with the size the text loop produces from the resized image |
| LibGenerator.QuietZonesIgnored | src/lib/generator.rs:39-45 | the configured quiet-zone flag makes no difference to the older generation |
| LibGenerator.LibGeneratedSize | src/lib/generator.rs:51-68 | the saved image has the resized width and height plus one band per visible text, and with a height percentage other than 100 its width is the encoded width |
| LibGenerator.LibGenerateSvg | src/lib/generator.rs:20-31 | the older SVG generation succeeds exactly when the encoder and the write do, and reports the encoder's error |
| Grid.Columns | src/generator/exporting/png_exporter.rs:112-113 | the column count is at least 1, and the computation fails exactly on a zero cell width or margins wider than the page |
| Grid.ColumnsFill | src/generator/exporting/png_exporter.rs:112-113 | the columns are as many cells as fit between the margins with room for no more, or 1 when not even one fits |
| Grid.AutoMargins | src/generator/exporting/png_exporter.rs:62-79 | the automatic margins exist exactly when the cell height is positive and the columns fit the page width; otherwise a zero height divides by zero, too wide a product overflows and columns wider than the page underflow, in that order; each pair of margins fits in the page |
| Grid.AutoMarginsCentre | src/generator/exporting/png_exporter.rs:70-78 | the automatic margins centre the grid: columns plus both side margins, and whole rows plus both vertical margins, make up the page up to the pixel lost in halving, and the vertical margin is under a row |
| Grid.CellFacts | src/generator/exporting/png_exporter.rs:141-148 | barcode `i` goes to row-major position `i`: its column is below the column count, row times columns plus column gives back `i`, and its corner is the margin plus whole cells |
| Grid.CornersFitIff | src/generator/exporting/pdf_exporter.rs:85-92 | the last barcode's top edge fits a `u32` exactly when every barcode's does, so checking it decides the overflow panic |
| Grid.PlacementsFitBounds | src/generator/exporting/pdf_exporter.rs:85-149 | the overflow panic lies between two bounds: the positions fit only if the last barcode's top edge does, and they fit whenever the columns end and the row below the last barcode starts within `u32` |
| Grid.CellsDistinct | src/generator/exporting/png_exporter.rs:141-142 | two different barcodes never share a cell |
| Grid.Borders | src/generator/exporting/png_exporter.rs:168-201 | the top border is drawn exactly on the first row, the bottom always, the left exactly in the first column, the right exactly when the column is at most the last one, and nothing else |
| Grid.RightAlways | src/generator/exporting/png_exporter.rs:194-201 | the right-border test never fails inside a grid, so every barcode gets a right border |
| Grid.Div | src/generator/exporting/png_exporter.rs:154-155 | a float quotient of two unsigned sizes is exact for a positive divisor, infinite for a positive dividend over zero, and not a number for zero over zero |
| Grid.FMin | src/generator/exporting/png_exporter.rs:156 | the float minimum ignores a not-a-number argument and otherwise gives the smaller of the two |
| Grid.FitInCell | src/generator/exporting/png_exporter.rs:154-159 | the aspect-preserving fit never exceeds the cell, so the centring subtractions cannot underflow, and a barcode with both sides non-zero fills its cell along at least one side |
| Grid.Place | src/generator/exporting/png_exporter.rs:139-213 | each barcode goes to the cell of its index, fitted inside it and pasted so that it lies within the cell, with the borders the grid flag asks for |
| Grid.PlaceAll | src/generator/exporting/pdf_exporter.rs:83-158 | the loop places every barcode of the list, barcode `i` at index `i` |
| Grid.CellWithinColumns | src/generator/exporting/png_exporter.rs:147 | no cell ends past the right edge of the last column |
| PngExporter.RowsThatFit | src/generator/exporting/png_exporter.rs:90-93 | the row count of a page stays within the `u32` range |
| PngExporter.RowsFit | src/generator/exporting/png_exporter.rs:90-93 | for a positive row height the rows are exactly the whole rows between the vertical margins: one more would cross the bottom margin |
| PngExporter.MaxBarcodes | src/generator/exporting/png_exporter.rs:81-95 | the page capacity is the rows that fit times the columns, and overflowing `u32` is the only failure |
| PngExporter.SetupFor | src/generator/exporting/png_exporter.rs:102-128 | an empty list panics; otherwise the first barcode sets the cell, the page has the paper's pixel size, the margins are the centring ones or 20 pixels, and the capacity is the page capacity for them |
| PngExporter.PageAt | src/generator/exporting/png_exporter.rs:137-225 | a page takes the next barcodes from the cursor in order, as many as remain up to its capacity; the new cursor is past them, and more remain exactly when it is not at the end |
| PngExporter.Placements | src/generator/exporting/png_exporter.rs:139-148 | the barcodes of a page go to the cells of their index on the page, in order |
| PngExporter.PlacePage | src/generator/exporting/png_exporter.rs:137-225 | the page loop, which breaks after the barcode at index `max_barcodes`, takes the page of capacity `max_barcodes + 1` |
| PngExporter.CreateExportImage | src/generator/exporting/png_exporter.rs:97-238 | a page call reports the setup's panic, panics on a cursor past the end, and otherwise returns the page of capacity `max_barcodes + 1` from the cursor |
| PngExporter.CreateExportPreview | src/generator/exporting/png_exporter.rs:33-39 | the preview fails exactly when the setup does, an empty list included; otherwise it is the page at cursor 0 with capacity `max_barcodes + 1`, which is the first page of the full export |
| PngExporter.PagesCover | src/generator/exporting/png_exporter.rs:41-60 | the chained pages use every barcode from the cursor on exactly once, in order; every page but the last is full and the last is non-empty, and there are as many pages as the remaining count divided by the capacity, rounded up |
| PngExporter.CreateFullExport | src/generator/exporting/png_exporter.rs:41-60 | the full export reports the setup's panic, and otherwise returns the chain of pages from cursor 0, which ends |
| PngExporter.OverfullPageLastCut | src/generator/exporting/png_exporter.rs:216-219 | a full page places one barcode more than the rows hold, and that barcode crosses the bottom margin, and the page's bottom edge under automatic margins |
| PngExporter.IntendedCapacity | src/generator/exporting/png_exporter.rs:216-219 | the intended page capacity is `max_barcodes`, but at least one |
| PngExporter.IntendedPageFits | src/generator/exporting/png_exporter.rs:216-219 | with the intended capacity every barcode of a page lies between the top and bottom margins |
| PngExporter.IntendedExportCovers | src/generator/exporting/png_exporter.rs:41-60 | with the intended capacity the pages still use every barcode exactly once, in order |
| PdfExporter.CreateBarcodeGridImage | src/generator/exporting/pdf_exporter.rs:49-167 | an empty list and a zero-width first barcode panic; with either kind of margins the sheet is drawn exactly when the margins can be computed and every `x`, `y` and paste offset fits a `u32`; a failed automatic-margin computation passes its panic on, and otherwise the panic is the overflow; a sheet has the paper's pixel size, the first barcode's cell, columns counted across the whole page width, centring or 20-pixel margins, light grey borders, and every barcode placed at its index |
| PdfExporter.CreatePdf | src/generator/exporting/pdf_exporter.rs:27-29 | the export is the grid image, whatever its name says |
| PdfExporter.SheetPlacesAll | src/generator/exporting/pdf_exporter.rs:83-158 | every barcode is on the sheet, fitted inside its own cell and distinct from every other cell; with the grid on each has bottom and right borders, a top one exactly on the first row and a left one exactly in the first column, and with the grid off none |
| PdfExporter.AutoSheetCentred | src/generator/exporting/pdf_exporter.rs:31-74 | with automatic margins the columns are centred across the page up to the pixel lost in halving, and no cell crosses the right margin |
| PdfExporter.ManualSheetOverflow | src/generator/exporting/pdf_exporter.rs:85-92 | with manual margins a last top edge past 2^32 - 1 gives the overflow panic, and a sheet whose columns and rows end within `u32` is drawn |
| PdfExporter.WideBarcodeUnderflows | src/generator/exporting/pdf_exporter.rs:30-69 | under automatic margins a first barcode wider than the page gets one column and the margin subtraction underflows |
| PdfExporter.AutoSheetDrawn | src/generator/exporting/pdf_exporter.rs:49-92 | under automatic margins two half-page barcodes on A4 give a sheet of two columns |
| PdfExporter.ManualMarginColumnCut | src/generator/exporting/pdf_exporter.rs:60-74 | as written, with 20-pixel margins and a 1240-pixel barcode on A4, the second cell ends at pixel 2500, past the page, although one barcode fits between the margins |
| PdfExporter.IntendedGridImage | src/generator/exporting/pdf_exporter.rs:59-74 | with the columns counted between the manual margins, the sheet keeps those margins and places every barcode at its index; automatic margins are unchanged |
| PdfExporter.IntendedSheetFits | src/generator/exporting/pdf_exporter.rs:60-92 | with the intended columns no cell crosses the right margin whenever one barcode fits between the side margins |
| LibPdfExporter.LibCreateBarcodeGridImage | src/lib/exporting/pdf_exporter.rs:23-128 | the older sheet is A4 at 300 DPI with 20-pixel margins and red borders, columns counted between the margins, and fails exactly on an empty list, a zero-width first barcode or a position past `u32` |
| LibPdfExporter.LibSheetOverflow | src/lib/exporting/pdf_exporter.rs:48-55 | a last top edge past 2^32 - 1 gives the overflow panic, and a sheet whose columns and rows end within `u32` is drawn |
| LibPdfExporter.LibCreatePdf | src/lib/exporting/pdf_exporter.rs:17-19 | the older export is its grid image |
| LibPdfExporter.LibIsIntendedGrid | src/lib/exporting/pdf_exporter.rs:23-119 | the older sheet is exactly the newer exporter's intended sheet for A4, manual margins and the grid on, drawn in red |
| LibPdfExporter.LibSheetFits | src/lib/exporting/pdf_exporter.rs:36-55 | no cell of the older sheet crosses the right margin whenever one barcode fits between the margins |
| Batches.CollectSpec | src/generator/bulk_generator.rs:38-77 | a run of fallible steps succeeds exactly when every step does, and then yields each step's value in order; otherwise it fails with the error of the first step that fails |
| Batches.CollectStep | src/generator/bulk_generator.rs:69-75 | one loop step either ends the run with its error or appends its value and moves on |
| BulkGenerator.OutputPath | src/generator/bulk_generator.rs:72 | the output file is the row's value inside `output/` with the `.png` suffix |
| BulkGenerator.OutputPathInjective | src/generator/bulk_generator.rs:72 | different values never share an output file |
| BulkGenerator.RowConfig | src/generator/bulk_generator.rs:39-68 | a row's configuration is Code39 with the row's non-empty texts, its scale and both percentages, quiet zones on, and the row's value as data |
| BulkGenerator.RowTextsShape | src/generator/bulk_generator.rs:41-59 | a row adds its upper text exactly when that is non-empty, always first, and its lower text exactly when that is non-empty, always last, both red at the row's font size |
| BulkGenerator.GenerateRow | src/generator/bulk_generator.rs:65-74 | a generated row carries its value and its output path, and exists only when that file was saved |
| BulkGenerator.GenerateAllSpec | src/generator/bulk_generator.rs:36-77 | the bulk run succeeds exactly when every row does and then gives one barcode per row, in order, each at its row's output path; otherwise it fails with the first failing row's error |
| BulkGenerator.GenerateBarcodesWithDpi | src/generator/bulk_generator.rs:29-78 | the loop with `?` on each row computes the first-failure run of the rows |
| BulkGenerator.GenerateBarcodes | src/generator/bulk_generator.rs:22-27 | the plain bulk run is the one at 300 DPI |
| LibBulkGenerator.LibRowConfig | src/lib/bulk_generator.rs:31-57 | the older row configuration keeps the builder's Code128 format and carries the row's non-empty texts, its scale and both percentages |
| LibBulkGenerator.TextsAgree | src/lib/bulk_generator.rs:33-51 | both copies add the same texts for a row, in the same order |
| LibBulkGenerator.RowConfigsAgree | src/lib/bulk_generator.rs:31-57 | the two copies configure a row alike except for the format, Code128 in the older copy and Code39 in the newer one |
| LibBulkGenerator.LibGenerateRow | src/lib/bulk_generator.rs:58-62 | an older row generation reports the encoder's error for Code128 and succeeds only when the row's file was saved |
| LibBulkGenerator.LibGenerateAllSpec | src/lib/bulk_generator.rs:30-64 | the older bulk run succeeds exactly when every row does, and otherwise fails with the first failing row's error |
| LibBulkGenerator.LibGenerateBarcodes | src/lib/bulk_generator.rs:27-65 | the older loop computes that first-failure run |

## Left out

- Pixels, PNG encoding and DPI metadata, font rasterising and drawing, the
  zxing encoder, and `println!`. These are foreign calls. Images are their
  sizes, and the encoder, resizes, fonts, glyph widths and file writes are
  parameters.
- `calculate_text_width` (the sum of glyph advances) is not modelled. The
  rendered width of a text is a parameter, already cast to `i32`.
- IEEE `f32` rounding is not modelled; arithmetic on reals is exact.
  - In `calculate_max_barcodes` the `f32` quotient is taken as exact for
    page-sized values (`PngExporter.RowsThatFit`).
  - The calculator's round trips hold in exact arithmetic only.
- Calculator.PxToMm, Calculator.PxToInches and Paper.PaperDimensionsMm
  require a non-zero dpi. The source divides by the dpi, and at 0 its
  `f32` result is infinity or NaN, which exact reals cannot express. No
  caller in the source passes 0. The lemmas about them
  (`Calculator.PxMmRoundTrip`, `Calculator.PxInchesRoundTrip`,
  `Paper.PaperAgreesWithCalculator`) carry the same requirement.
- Release-build `u32` wrap-around is not modelled. The model takes the
  debug build, where an overflow or underflow panics and becomes an error
  value.
- PngExporter.PlacePage: the `u32` sums `x`, `y`, `offset_x` and `offset_y`
  of the page loop (`png_exporter.rs:147-148`, `204-205`) are not checked
  for overflow. On a page the row is at most the number of rows that fit,
  so the sums stay near the paper's size unless a single barcode is close
  to 2^32 pixels wide or tall.
- `index as u32` and `barcodes.len() as u32` in the PNG exporter, and
  `index as u32` in both PDF exporters, are taken as exact, which holds for
  lists shorter than 2^32.
- JavaScript strings holding a lone surrogate are not modelled. Front-end
  strings are Dafny strings, whose UTF-16 encoding is always well formed.
- The Tauri command layer, asynchronous scheduling, React rendering, local
  storage and the CSV importers are not modelled.
  - Each remote call is one atomic step whose reply is an input.
  - Of the React effects, the ones that start work are modelled: the
    generation effect (`Home.Effect`, also on mount as `Home.Mounted`), and
    the template panel's loads on mount and on a format change
    (`TemplateManager.Mount`, `TemplateManager.FormatChanged`). The filter
    effect is the function `TemplateManager.Filtered`, evaluated on demand.
  - The two loads started on mount run concurrently in the page. The model
    takes their replies in effect order.
  - The CSV reading of `generate_barcodes_from_csv` in the older bulk
    generator is not modelled.
- `src/generator/layout.rs` is not part of this model beyond the three
  fields the PNG exporter reads.
- `BulkGenerator`'s `output_dir` is fixed at `"output"`, as `new()` sets it.
- The generate button's visibility (`Home.tsx:368-389`) is not modelled,
  only whether it is enabled.
- Text colours, fonts and margins are carried through unchanged. Nothing is
  drawn with them.

## Findings

| source | as written | input that shows it | evidently intended | confidence | as-written member | corrected member |
|---|---|---|---|---|---|---|
| src/generator/exporting/png_exporter.rs:216-219 | the page loop breaks after the barcode whose index equals `max_barcodes`, so a full page places `max_barcodes + 1` barcodes, the last one in the row below the rows that fit | A4 page (2480×3508 pixels), automatic margins, five barcodes, the first 1240×1754: two columns, two rows, `max_barcodes` 4; the fifth barcode is placed at y = 3508, below the page | a page holds at most `max_barcodes` barcodes, all between the margins | medium, not executed | PngExporter.OverfullPageLastCut | PngExporter.IntendedPageFits |
| src/generator/exporting/pdf_exporter.rs:60 | the columns divide the whole page width with a zero margin, while the manual margins are 20 pixels | A4 sheet, manual margins, two barcodes, the first 1240 pixels wide: two columns, and the second cell spans x = 1260 to 2500, past the 2480-pixel page | columns counted between the margins in use, as the older copy does with its fixed margin | medium, not executed | PdfExporter.ManualMarginColumnCut | PdfExporter.IntendedSheetFits |

=== FILE: batches.dfy ===
/** A loop of fallible steps with `?` on each: the results in order, or the
    first error. Both bulk generators run their rows this way. */
module Batches {
  import opened Wrappers

  /** The outcomes of the steps, folded left to right; the first error ends
      the fold. */
  function Collect<T, E>(rs: seq<Result<T, E>>): Result<seq<T>, E>
    decreases |rs|
  {
    if |rs| == 0 then Ok([])
    else
      var x :- rs[0];
      var rest :- Collect(rs[1..]);
      Ok([x] + rest)
  }

  /** A run succeeds exactly when every step does, and then yields each
      step's value in order; otherwise its error is that of the first step
      that fails. */
  lemma {:induction false} CollectSpec<T, E>(rs: seq<Result<T, E>>)
    ensures Collect(rs).Ok? <==> forall i :: 0 <= i < |rs| ==> rs[i].Ok?
    ensures Collect(rs).Ok? ==>
      |Collect(rs).value| == |rs| && forall i :: 0 <= i < |rs| ==> Collect(rs).value[i] == rs[i].value
    ensures Collect(rs).Err? ==>
      exists k :: 0 <= k < |rs| && rs[k] == Err(Collect(rs).error) && forall i :: 0 <= i < k ==> rs[i].Ok?
    decreases |rs|
  {
    if |rs| > 0 {
      var tail := rs[1..];
      CollectSpec(tail);
      assert forall i :: 1 <= i < |rs| ==> tail[i - 1] == rs[i];
      if rs[0].Ok? && Collect(tail).Err? {
        var k :| 0 <= k < |tail| && tail[k] == Err(Collect(tail).error) && forall i :: 0 <= i < k ==> tail[i].Ok?;
        assert rs[k + 1] == Err(Collect(rs).error);
      }
      if rs[0].Ok? && Collect(tail).Ok? {
        var xs := Collect(rs).value;
        assert xs == [rs[0].value] + Collect(tail).value;
        assert forall i :: 1 <= i < |rs| ==> xs[i] == Collect(tail).value[i - 1];
      }
    }
  }

  /** Values already collected joined to the outcome of the remaining steps. */
  function Prepend<T, E>(done: seq<T>, rest: Result<seq<T>, E>): (r: Result<seq<T>, E>)
    ensures rest.Err? ==> r == rest
    ensures rest.Ok? ==> r.Ok? && |r.value| == |done| + |rest.value| && r.value[..|done|] == done && r.value[|done|..] == rest.value
  {
    match rest
    case Ok(xs) => Ok(done + xs)
    case Err(e) => Err(e)
  }

  /** One step of the fold from position `i`. */
  lemma CollectStep<T, E>(rs: seq<Result<T, E>>, i: nat, done: seq<T>)
    requires i < |rs|
    ensures rs[i].Err? ==> Prepend(done, Collect(rs[i..])) == Err(rs[i].error)
    ensures rs[i].Ok? ==> Prepend(done, Collect(rs[i..])) == Prepend(done + [rs[i].value], Collect(rs[i + 1..]))
  {
    assert rs[i..][0] == rs[i];
    assert rs[i..][1..] == rs[i + 1..];
    if rs[i].Ok? {
      match Collect(rs[i + 1..]) {
        case Ok(xs) => assert done + ([rs[i].value] + xs) == (done + [rs[i].value]) + xs;
        case Err(_) =>
      }
    }
  }
}

=== FILE: bulk_generator.dfy ===
/** `BulkGenerator` of src/generator/bulk_generator.rs: one configuration
    per imported row, built through the configuration builder, and one PNG
    generation per row, in order, stopping at the first failure. The
    generator's outside world (encoder, resizes, fonts, text widths and
    whether a file can be written) is a `Backend` of parameters. */
module BulkGenerator {
  import opened Ints
  import opened Formats
  import opened Wrappers
  import opened GeneratorConfig
  import opened TextLayout
  import opened Generator
  import opened Batches

  /** `BarcodeImportRowCSV`, one row of an imported table. */
  datatype ImportRow = ImportRow(value: string, upperCenterText: string, lowerCenterText: string,
                                 scale: i32, heightPercentage: real, widthPercentage: real, fontSize: u32)

  /** What the generator calls out to. `saved` says whether the file at a
      path can be written. */
  datatype Backend = Backend(encode: Encoder, widthPct: (Size, real) -> Size, heightPct: (Size, real) -> Size,
                             fonts: set<string>, textWidth: TextStyleInternal -> i32, saved: string -> bool)

  /** The colour of both texts of a row. */
  const TextRed := Rgb(255, 0, 0)

  /** `format!("{}/{}.png", output_dir, value)` with `output_dir` "output". */
  function OutputPath(value: string): (p: string)
    ensures |p| == |value| + 11
    ensures p[..7] == "output/" && p[7..7 + |value|] == value && p[7 + |value|..] == ".png"
  {
    "output/" + value + ".png"
  }

  /** Distinct values give distinct output files. */
  lemma OutputPathInjective(a: string, b: string)
    requires OutputPath(a) == OutputPath(b)
    ensures a == b
  {
    assert a == OutputPath(a)[7..7 + |a|];
  }

  /** The texts a row adds: the upper one when not empty, then the lower
      one when not empty. */
  function RowTexts(row: ImportRow): seq<TextStyleConfig> {
    (if row.upperCenterText != "" then [BuilderText(row.upperCenterText, TextRed, row.fontSize, UpperCenter)] else [])
    + (if row.lowerCenterText != "" then [BuilderText(row.lowerCenterText, TextRed, row.fontSize, LowerCenter)] else [])
  }

  /** The builder chain of one row: format Code39, the non-empty texts,
      scale, height and width percentages; then `data` is set to the value. */
  function RowConfig(row: ImportRow): (c: BarcodeConfig)
    ensures FormatOfWrapper(c.format) == Code39
    ensures c.texts == RowTexts(row)
    ensures c.scale == row.scale && c.quiet_zones
    ensures c.dimensions == DefaultDimensions.(height_percentage := row.heightPercentage,
                                               width_percentage := row.widthPercentage)
    ensures c.data == row.value
  {
    var b := SetFormat(NewBuilder(), Code39);
    var b := if row.upperCenterText != "" then AddText(b, row.upperCenterText, TextRed, row.fontSize, UpperCenter) else b;
    var b := if row.lowerCenterText != "" then AddText(b, row.lowerCenterText, TextRed, row.fontSize, LowerCenter) else b;
    var b := SetScale(b, row.scale);
    var b := ResizePercentage(b, HeightPercentage, row.heightPercentage);
    var b := ResizePercentage(b, WidthPercentage, row.widthPercentage);
    DimensionsExtensional(Build(b).dimensions,
                          DefaultDimensions.(height_percentage := row.heightPercentage, width_percentage := row.widthPercentage));
    Build(b).(data := row.value)
  }

  /** A row's texts: the upper text exactly when it is not empty, always
      first; the lower text exactly when it is not empty, always last; both
      red, at the row's font size, with the builder's font and margin. */
  lemma RowTextsShape(row: ImportRow)
    ensures var ts := RowTexts(row);
      |ts| == (if row.upperCenterText != "" then 1 else 0) + (if row.lowerCenterText != "" then 1 else 0)
      && (forall t :: t in ts ==> RgbOfWrapper(t.text_color) == TextRed && t.text_size == row.fontSize
                                  && t.font == "DejaVuSans" && t.margin == 5 && t.text != "")
      && (row.upperCenterText != "" ==> ts[0].text == row.upperCenterText && ts[0].text_position == UpperCenter)
      && (row.lowerCenterText != "" ==> ts[|ts| - 1].text == row.lowerCenterText && ts[|ts| - 1].text_position == LowerCenter)
      && (forall t :: t in ts ==> t.text_position == UpperCenter || t.text_position == LowerCenter)
  {
  }

  /** One row through `generate_barcode_png_with_dpi`. */
  function GenerateRow(row: ImportRow, dpi: real, be: Backend): (r: Result<Generated, GenError>)
    ensures r.Ok? ==> r.value.value == row.value && r.value.filePath == OutputPath(row.value)
    ensures r.Ok? ==> be.saved(OutputPath(row.value))
  {
    var c := ToInternal(RowConfig(row));
    var out :- GeneratePngWithDpi(row.value, c, OutputPath(row.value), dpi, be.encode, be.widthPct, be.heightPct,
                                  be.fonts, be.textWidth, be.saved(OutputPath(row.value)));
    Ok(out.generated)
  }

  /** Each row's generation, in row order. */
  function RowResults(rows: seq<ImportRow>, dpi: real, be: Backend): (rs: seq<Result<Generated, GenError>>)
    ensures |rs| == |rows|
    ensures forall i :: 0 <= i < |rows| ==> rs[i] == GenerateRow(rows[i], dpi, be)
  {
    seq(|rows|, i requires 0 <= i < |rows| => GenerateRow(rows[i], dpi, be))
  }

  /** The rows in order, the first failure ending the run. */
  function GenerateAll(rows: seq<ImportRow>, dpi: real, be: Backend): Result<seq<Generated>, GenError> {
    Collect(RowResults(rows, dpi, be))
  }

  /** The run succeeds exactly when every row does, and then gives one
      barcode per row in row order, each named after its row's value;
      otherwise its error is that of the first row that fails. */
  lemma GenerateAllSpec(rows: seq<ImportRow>, dpi: real, be: Backend)
    ensures GenerateAll(rows, dpi, be).Ok? <==> forall i :: 0 <= i < |rows| ==> GenerateRow(rows[i], dpi, be).Ok?
    ensures GenerateAll(rows, dpi, be).Ok? ==>
      |GenerateAll(rows, dpi, be).value| == |rows|
      && forall i :: 0 <= i < |rows| ==>
        GenerateAll(rows, dpi, be).value[i] == GenerateRow(rows[i], dpi, be).value
        && GenerateAll(rows, dpi, be).value[i].filePath == OutputPath(rows[i].value)
    ensures GenerateAll(rows, dpi, be).Err? ==>
      exists k :: 0 <= k < |rows| && GenerateRow(rows[k], dpi, be) == Err(GenerateAll(rows, dpi, be).error)
        && forall i :: 0 <= i < k ==> GenerateRow(rows[i], dpi, be).Ok?
  {
    CollectSpec(RowResults(rows, dpi, be));
  }

  /** `generate_barcodes_with_dpi`: the loop over the rows, with `?` on
      each generation. */
  method GenerateBarcodesWithDpi(rows: seq<ImportRow>, dpi: real, be: Backend) returns (r: Result<seq<Generated>, GenError>)
    ensures r == GenerateAll(rows, dpi, be)
  {
    ghost var rs := RowResults(rows, dpi, be);
    var generated: seq<Generated> := [];
    var i := 0;
    while i < |rows|
      invariant 0 <= i <= |rows|
      invariant Collect(rs) == Prepend(generated, Collect(rs[i..]))
    {
      var g := GenerateRow(rows[i], dpi, be);
      CollectStep(rs, i, generated);
      if g.Err? {
        return Err(g.error);
      }
      generated := generated + [g.value];
      i := i + 1;
    }
    assert rs[i..] == [];
    assert generated + [] == generated;
    r := Ok(generated);
  }

  /** `generate_barcodes`: the same at 300 DPI. */
  method GenerateBarcodes(rows: seq<ImportRow>, be: Backend) returns (r: Result<seq<Generated>, GenError>)
    ensures r == GenerateAll(rows, 300.0, be)
  {
    r := GenerateBarcodesWithDpi(rows, 300.0, be);
  }
}

=== FILE: calculator.dfy ===
/** `DimensionCalculator` (src/generator/calculator.rs): conversions between
    millimetres, inches and pixels at a resolution in dots per inch, over
    exact reals. */
module Calculator {
  import opened Ints

  const MmPerInch: real := 25.4

  /** `mm_to_px`: `((mm / 25.4) * dpi).round() as u32`. */
  function MmToPx(mm: real, dpi: real): (px: u32)
    ensures mm / MmPerInch * dpi < 0.0 ==> px == 0
    ensures 0.0 <= mm / MmPerInch * dpi < U32_MAX as real ==>
      mm / MmPerInch * dpi - 0.5 < px as real <= mm / MmPerInch * dpi + 0.5
  {
    RoundToU32(mm / MmPerInch * dpi)
  }

  /** `px_to_mm`: `(px as f32 / dpi) * 25.4`. */
  function PxToMm(px: u32, dpi: real): (mm: real)
    requires dpi != 0.0
    ensures mm * dpi == px as real * MmPerInch
  {
    px as real / dpi * MmPerInch
  }

  /** `inches_to_px`: `(inches * dpi).round() as u32`. */
  function InchesToPx(inches: real, dpi: real): (px: u32)
    ensures inches * dpi < 0.0 ==> px == 0
    ensures 0.0 <= inches * dpi < U32_MAX as real ==> inches * dpi - 0.5 < px as real <= inches * dpi + 0.5
  {
    RoundToU32(inches * dpi)
  }

  /** `px_to_inches`: `px as f32 / dpi`. */
  function PxToInches(px: u32, dpi: real): (inches: real)
    requires dpi != 0.0
    ensures inches * dpi == px as real
  {
    px as real / dpi
  }

  /** `get_a4_dimensions_px`: A4 is 210 mm by 297 mm. */
  function A4Px(dpi: real): (dims: (u32, u32))
    ensures dpi > 0.0 ==> dims.0 <= dims.1
    ensures dpi < 0.0 ==> dims == (0, 0)
    ensures 0.0 <= dpi && 297.0 / MmPerInch * dpi < U32_MAX as real ==>
      210.0 / MmPerInch * dpi - 0.5 < dims.0 as real <= 210.0 / MmPerInch * dpi + 0.5
      && 297.0 / MmPerInch * dpi - 0.5 < dims.1 as real <= 297.0 / MmPerInch * dpi + 0.5
  {
    MmToPxMonotone(210.0, 297.0, dpi);
    (MmToPx(210.0, dpi), MmToPx(297.0, dpi))
  }

  /** Rounding a whole number of pixels gives it back. */
  lemma RoundWhole(p: u32)
    ensures RoundToU32(p as real) == p
  {
    assert (p as real + 0.5).Floor == p;
  }

  /** In exact arithmetic, pixels converted to millimetres and back are the
      same pixels. */
  lemma PxMmRoundTrip(p: u32, dpi: real)
    requires dpi != 0.0
    ensures MmToPx(PxToMm(p, dpi), dpi) == p
  {
    var mm := PxToMm(p, dpi);
    assert mm / MmPerInch * dpi == p as real by {
      assert mm / MmPerInch * dpi == (mm * dpi) / MmPerInch;
    }
    RoundWhole(p);
  }

  /** Likewise for inches. */
  lemma PxInchesRoundTrip(p: u32, dpi: real)
    requires dpi != 0.0
    ensures InchesToPx(PxToInches(p, dpi), dpi) == p
  {
    RoundWhole(p);
  }

  /** Millimetres are inches divided by 25.4. */
  lemma MmAreScaledInches(mm: real, dpi: real)
    ensures MmToPx(mm, dpi) == InchesToPx(mm / MmPerInch, dpi)
  {
  }

  /** Rounding keeps the order of its arguments. */
  lemma RoundMonotone(x: real, y: real)
    requires x <= y
    ensures RoundToU32(x) <= RoundToU32(y)
  {
    if 0.0 <= x {
      assert (x + 0.5).Floor <= (y + 0.5).Floor;
    }
  }

  /** At a positive resolution a longer length never needs fewer pixels. */
  lemma MmToPxMonotone(a: real, b: real, dpi: real)
    requires a <= b
    ensures dpi > 0.0 ==> MmToPx(a, dpi) <= MmToPx(b, dpi)
  {
    if dpi > 0.0 {
      MmToPxScaled(a, b, dpi);
    }
  }

  lemma MmToPxScaled(a: real, b: real, dpi: real)
    requires a <= b && dpi > 0.0
    ensures MmToPx(a, dpi) <= MmToPx(b, dpi)
  {
    assert a / MmPerInch * dpi <= b / MmPerInch * dpi by {
      assert a / MmPerInch <= b / MmPerInch;
    }
    RoundMonotone(a / MmPerInch * dpi, b / MmPerInch * dpi);
  }

  /** The values the module's own tests expect. */
  lemma TestedValues()
    ensures MmToPx(25.4, 300.0) == 300
    ensures MmToPx(10.0, 72.0) == 28
    ensures PxToMm(300, 300.0) == 25.4
    ensures A4Px(300.0) == (2480, 3508)
  {
    assert 25.4 / MmPerInch * 300.0 == 300.0;
    RoundWhole(300);
    assert 28.0 <= 10.0 / MmPerInch * 72.0 + 0.5 < 29.0;
    assert 2480.0 <= 210.0 / MmPerInch * 300.0 + 0.5 < 2481.0;
    assert 3508.0 <= 297.0 / MmPerInch * 300.0 + 0.5 < 3509.0;
  }
}

=== FILE: cross_checks.dfy ===
/** How the frontend's payload rules (frontend/src/lib/validationRules.ts)
    relate to the backend's format checks (src/generator/validator.rs). */
module CrossChecks {
  import opened Strings
  import opened Formats
  import opened ValidationRules
  import opened GeneratorConfig
  import Utils
  import Validator

  /** A string of ASCII digits: one code unit and one byte per character. */
  lemma DigitsAreAscii(s: string)
    requires forall i :: 0 <= i < |s| ==> '0' <= s[i] <= '9'
    ensures JsLength(s) == |s| && Utf8Len(s) == |s|
    ensures forall i :: 0 <= i < |Utf16(s)| ==> IsDigit(Utf16(s)[i])
  {
    Utf16OfBmp(s);
    Utf8LenAscii(s);
  }

  /** UPC-E payloads the editor accepts pass the backend's UPC-E check: the
      frontend demands exactly eight digits, the backend at most eight bytes. */
  lemma UpceLimitsAgree(c: BarcodeConfigInternal)
    requires c.format == UPCE && Utils.ValidateBarcodeData(c.data, UPCE) == []
    ensures Validator.ValidateUpce(c).Ok?
  {
    Utils.ValidIff(c.data, UPCE);
    FixedLengthDigitFormats(UPCE, 8, c.data);
    DigitsAreAscii(c.data);
  }

  /** The two Codabar limits differ: the frontend admits up to 20 code
      units, the backend's unused check (private, never called) at most 16
      bytes, so a digit payload of 17 to 20 characters passes the editor and
      would fail that check. */
  lemma CodabarLimitsDisagree(c: BarcodeConfigInternal)
    requires c.format == Codabar && 17 <= |c.data| <= 20
    requires forall i :: 0 <= i < |c.data| ==> '0' <= c.data[i] <= '9'
    ensures Utils.ValidateBarcodeData(c.data, Codabar) == []
    ensures Validator.ValidateCodabar(c).Err?
  {
    RuleAt(10, CodabarRule);
    DigitsAreAscii(c.data);
    assert Test(OneOrMore(CodabarChars), c.data);
    Utils.ValidIff(c.data, Codabar);
  }
}

=== FILE: database.dfy ===
/** The JSON-file template store (src/generator/database.rs). The file is an
    abstract state: absent, holding a map from identifier to template, or
    present but unreadable (an I/O error or text that does not parse). Each
    write takes its outcome, and each removal its success, as a parameter. */
module Database {
  import opened Wrappers
  import opened RustTemplates

  type Store = map<string, Template>

  datatype Disk = Missing | Stored(templates: Store) | Corrupt

  datatype DbError = FileMissing | Unreadable | WriteFailed | RemoveFailed

  /** How `fs::write` ends: the file is created (truncated) and all of the
      JSON written; the file cannot be created, so it is untouched; or it is
      truncated and the write then fails, leaving an empty or partial JSON
      text that no longer parses. */
  datatype WriteOutcome = Written | OpenFailed | CutShort

  /** `exists()`. */
  predicate Exists(d: Disk) {
    !d.Missing?
  }

  /** `load()`: an absent file is an error, and so is one that cannot be
      read or parsed. */
  function Load(d: Disk): (r: Result<Store, DbError>)
    ensures d.Stored? <==> r.Ok?
    ensures r.Ok? ==> r.value == d.templates
    ensures d.Missing? ==> r == Err(FileMissing)
    ensures d.Corrupt? ==> r == Err(Unreadable)
  {
    match d
    case Missing => Err(FileMissing)
    case Stored(m) => Ok(m)
    case Corrupt => Err(Unreadable)
  }

  /** `load_or_default()`, which `load_templates()` is: an absent file reads
      as the empty map; otherwise as `load()`. */
  function LoadTemplates(d: Disk): (r: Result<Store, DbError>)
    ensures r.Ok? <==> !d.Corrupt?
    ensures d.Missing? ==> r == Ok(map[])
    ensures d.Stored? ==> r == Ok(d.templates)
    ensures d.Corrupt? ==> r == Err(Unreadable)
  {
    if !Exists(d) then Ok(map[]) else Load(d)
  }

  /** `save()` / `save_templates()`: the whole map is written. A write that
      fails before the file is created leaves it as it was; one that fails
      after the truncation leaves it unreadable. */
  function SaveTemplates(d: Disk, m: Store, w: WriteOutcome): (r: (Disk, Result<(), DbError>))
    ensures r.1.Ok? <==> w == Written
    ensures w == Written ==> r.0 == Stored(m)
    ensures w == OpenFailed ==> r == (d, Err(WriteFailed))
    ensures w == CutShort ==> r == (Corrupt, Err(WriteFailed))
  {
    match w
    case Written => (Stored(m), Ok(()))
    case OpenFailed => (d, Err(WriteFailed))
    case CutShort => (Corrupt, Err(WriteFailed))
  }

  /** `save_template(t)`: the stored map gets `t` at `t.id`. A file that
      cannot be loaded counts as empty (`unwrap_or_default`), so saving into
      an unreadable file replaces it with a one-entry map. */
  function SaveTemplate(d: Disk, t: Template, w: WriteOutcome): (r: (Disk, Result<(), DbError>))
    ensures w == OpenFailed ==> r == (d, Err(WriteFailed))
    ensures w == CutShort ==> r == (Corrupt, Err(WriteFailed))
    ensures w == Written ==> r.1 == Ok(()) && r.0.Stored?
    ensures w == Written && d.Stored? ==> r.0.templates == d.templates[t.id := t]
    ensures w == Written && !d.Stored? ==> r.0.templates == map[t.id := t]
  {
    var m := match LoadTemplates(d) case Ok(m) => m case Err(_) => map[];
    SaveTemplates(d, m[t.id := t], w)
  }

  /** `load_template(id)`. */
  function LoadTemplate(d: Disk, id: string): (r: Result<Option<Template>, DbError>)
    ensures d.Corrupt? <==> r.Err?
    ensures d.Missing? ==> r == Ok(Option.None)
    ensures d.Stored? ==> r == Ok(if id in d.templates then Some(d.templates[id]) else Option.None)
  {
    var m :- LoadTemplates(d);
    Ok(if id in m then Some(m[id]) else Option.None)
  }

  /** `delete_template(id)`: an unreadable file is an error and nothing is
      written; otherwise the entry is removed (an absent one is no error)
      and the map written back, with the outcomes of `save()`. */
  function DeleteTemplate(d: Disk, id: string, w: WriteOutcome): (r: (Disk, Result<(), DbError>))
    ensures d.Corrupt? ==> r == (d, Err(Unreadable))
    ensures !d.Corrupt? && w == OpenFailed ==> r == (d, Err(WriteFailed))
    ensures !d.Corrupt? && w == CutShort ==> r == (Corrupt, Err(WriteFailed))
    ensures !d.Corrupt? && w == Written ==> r.1 == Ok(()) && r.0.Stored?
    ensures d.Stored? && w == Written ==> r.0.templates == d.templates - {id}
    ensures d.Missing? && w == Written ==> r.0.templates == map[]
  {
    match LoadTemplates(d)
    case Err(e) => (d, Err(e))
    case Ok(m) => SaveTemplates(d, m - {id}, w)
  }

  /** `list_templates()`: every stored value once, in the map's iteration
      order, which is unspecified; `keys` records the order in which the
      entries were taken. */
  method ListTemplates(d: Disk) returns (r: Result<seq<Template>, DbError>, ghost keys: seq<string>)
    ensures d.Corrupt? <==> r.Err?
    ensures r.Err? ==> r == Err(Unreadable)
    ensures d.Missing? ==> r == Ok([])
    ensures d.Stored? ==> r.Ok? && |r.value| == |keys| == |d.templates|
    ensures d.Stored? ==> forall i :: 0 <= i < |keys| ==> keys[i] in d.templates && r.value[i] == d.templates[keys[i]]
    ensures d.Stored? ==> forall i, j :: 0 <= i < j < |keys| ==> keys[i] != keys[j]
    ensures d.Stored? ==> forall k :: k in d.templates ==> k in keys
  {
    keys := [];
    var loaded := LoadTemplates(d);
    if loaded.Err? {
      return Err(loaded.error), keys;
    }
    var m := loaded.value;
    var rest := m.Keys;
    var out: seq<Template> := [];
    while rest != {}
      invariant rest <= m.Keys
      invariant |out| == |keys|
      invariant forall i :: 0 <= i < |keys| ==> keys[i] in m && out[i] == m[keys[i]]
      invariant forall i, j :: 0 <= i < j < |keys| ==> keys[i] != keys[j]
      invariant forall k :: k in m ==> (k in rest <==> k !in keys)
      invariant |keys| + |rest| == |m|
      decreases |rest|
    {
      var k :| k in rest;
      out := out + [m[k]];
      keys := keys + [k];
      rest := rest - {k};
    }
    return Ok(out), keys;
  }

  /** `delete()`: removes the file when there is one; an absent file is no
      error. After success the file does not exist. */
  function DeleteFile(d: Disk, removeOk: bool): (r: (Disk, Result<(), DbError>))
    ensures r.1.Ok? ==> !Exists(r.0)
    ensures d.Missing? ==> r == (d, Ok(()))
    ensures Exists(d) && !removeOk ==> r == (d, Err(RemoveFailed))
  {
    if Exists(d) then
      if removeOk then (Missing, Ok(())) else (d, Err(RemoveFailed))
    else (d, Ok(()))
  }

  /** A saved template reads back, whatever the file held before. */
  lemma SaveThenLoad(d: Disk, t: Template, id: string)
    ensures LoadTemplate(SaveTemplate(d, t, Written).0, t.id) == Ok(Some(t))
    ensures id != t.id && d.Stored? ==> LoadTemplate(SaveTemplate(d, t, Written).0, id) == LoadTemplate(d, id)
  {
  }

  /** A write cut short after the truncation loses every template: the
      next load fails, even when the file held a map or did not exist. */
  lemma {:induction false} CutShortLosesStore(d: Disk, t: Template)
    ensures LoadTemplates(SaveTemplate(d, t, CutShort).0) == Err(Unreadable)
    ensures LoadTemplate(SaveTemplate(d, t, CutShort).0, t.id).Err?
  {
  }

  /** A write that cannot create the file leaves every read as it was. */
  lemma {:induction false} OpenFailedKeepsStore(d: Disk, t: Template, id: string)
    ensures LoadTemplate(SaveTemplate(d, t, OpenFailed).0, id) == LoadTemplate(d, id)
  {
  }

  /** A deleted template is gone, other entries stay, and deleting an
      absent identifier leaves the map as it was. */
  lemma DeleteThenLoad(d: Disk, id: string, other: string)
    requires d.Stored?
    ensures LoadTemplate(DeleteTemplate(d, id, Written).0, id) == Ok(Option.None)
    ensures other != id ==> LoadTemplate(DeleteTemplate(d, id, Written).0, other) == LoadTemplate(d, other)
    ensures id !in d.templates ==> DeleteTemplate(d, id, Written).0 == d
  {
    if id !in d.templates {
      assert d.templates - {id} == d.templates;
    }
  }

  /** Saving and then deleting the same template restores a store that did
      not hold its identifier. */
  lemma SaveThenDelete(d: Disk, t: Template)
    requires d.Stored? && t.id !in d.templates
    ensures DeleteTemplate(SaveTemplate(d, t, Written).0, t.id, Written).0 == d
  {
    assert d.templates[t.id := t] - {t.id} == d.templates;
  }
}

=== FILE: formats.dfy ===
/** The symbology enumeration (zxing's `BarcodeFormat`, mirrored member for
    member by the frontend's `BarcodeFormat` enum) and the text positions. */
module Formats {

  datatype BarcodeFormat =
    | Code128 | Code39 | QRCode | EAN13 | EAN8 | UPCA | UPCE | DataMatrix
    | PDF417 | Aztec | Codabar | Code93 | DataBar | DataBarExpanded
    | DataBarLimited | ITF | MaxiCode | MicroQRCode | RMQRCode | DXFilmEdge
    | LinearCodes | MatrixCodes | Any | None

  /** Every member, in declaration order. */
  const AllFormats: seq<BarcodeFormat> := [
    Code128, Code39, QRCode, EAN13, EAN8, UPCA, UPCE, DataMatrix,
    PDF417, Aztec, Codabar, Code93, DataBar, DataBarExpanded,
    DataBarLimited, ITF, MaxiCode, MicroQRCode, RMQRCode, DXFilmEdge,
    LinearCodes, MatrixCodes, Any, BarcodeFormat.None
  ]

  /** Position of a member in the declaration. */
  function Ordinal(f: BarcodeFormat): (n: nat)
    ensures n < |AllFormats| && AllFormats[n] == f
  {
    match f
    case Code128 => 0 case Code39 => 1 case QRCode => 2 case EAN13 => 3
    case EAN8 => 4 case UPCA => 5 case UPCE => 6 case DataMatrix => 7
    case PDF417 => 8 case Aztec => 9 case Codabar => 10 case Code93 => 11
    case DataBar => 12 case DataBarExpanded => 13 case DataBarLimited => 14
    case ITF => 15 case MaxiCode => 16 case MicroQRCode => 17
    case RMQRCode => 18 case DXFilmEdge => 19 case LinearCodes => 20
    case MatrixCodes => 21 case Any => 22 case None => 23
  }

  /** The declaration lists each member exactly once. */
  lemma AllFormatsDistinct()
    ensures forall i :: 0 <= i < |AllFormats| ==> Ordinal(AllFormats[i]) == i
    ensures forall i, j :: 0 <= i < j < |AllFormats| ==> AllFormats[i] != AllFormats[j]
  {
    forall i | 0 <= i < |AllFormats| ensures Ordinal(AllFormats[i]) == i {
    }
  }

  /** The member's name: the frontend enum's string value and the string the
      Rust side writes into a `BarcodeFormatWrapper`. */
  function Name(f: BarcodeFormat): string {
    match f
    case Code128 => "Code128" case Code39 => "Code39" case QRCode => "QRCode"
    case EAN13 => "EAN13" case EAN8 => "EAN8" case UPCA => "UPCA" case UPCE => "UPCE"
    case DataMatrix => "DataMatrix" case PDF417 => "PDF417" case Aztec => "Aztec"
    case Codabar => "Codabar" case Code93 => "Code93" case DataBar => "DataBar"
    case DataBarExpanded => "DataBarExpanded" case DataBarLimited => "DataBarLimited"
    case ITF => "ITF" case MaxiCode => "MaxiCode" case MicroQRCode => "MicroQRCode"
    case RMQRCode => "RMQRCode" case DXFilmEdge => "DXFilmEdge"
    case LinearCodes => "LinearCodes" case MatrixCodes => "MatrixCodes"
    case Any => "Any" case None => "None"
  }

  /** Distinct members have distinct names. */
  lemma NameInjective(f: BarcodeFormat, g: BarcodeFormat)
    ensures Name(f) == Name(g) <==> f == g
  {
  }

  /** Where text is drawn relative to the symbol. */
  datatype TextPosition = Upper | Lower | None | UpperCenter | LowerCenter

  const AllPositions: seq<TextPosition> :=
    [Upper, Lower, TextPosition.None, UpperCenter, LowerCenter]

  /** The frontend enum's string value (and serde's name) of a position. */
  function PositionName(p: TextPosition): string {
    match p
    case Upper => "Upper" case Lower => "Lower" case None => "None"
    case UpperCenter => "UpperCenter" case LowerCenter => "LowerCenter"
  }

  /** There are exactly five positions and their names tell them apart. */
  lemma PositionsEnumerated(p: TextPosition, q: TextPosition)
    ensures |AllPositions| == 5 && p in AllPositions
    ensures forall i, j :: 0 <= i < j < |AllPositions| ==> AllPositions[i] != AllPositions[j]
    ensures PositionName(p) == PositionName(q) <==> p == q
  {
  }
}

=== FILE: generator.dfy ===
/** `Generator::generate_barcode_png_with_dpi` (src/generator/generator.rs)
    as size arithmetic. The encoder, the image editor's resizes, font files,
    glyph widths and the file write are parameters: `encode` is zxing's
    writer (format, data, quiet zones, scale) giving the symbol's size or an
    error, `widthPct` and `heightPct` the editor's percentage resizes,
    `fonts` the font names present under ./assets, `textWidth` the rendered
    width of a text (already cast to `i32`), `saveOk` whether the PNG was
    written. */
module Generator {
  import opened Ints
  import opened Formats
  import opened Wrappers
  import opened GeneratorConfig
  import opened Calculator
  import opened TextLayout

  /** `calculate_total_text_height_mm`: `text_size + margin` for every text
      drawn at a position other than `None`. */
  function TotalTextHeightMm(texts: seq<TextStyleInternal>): (h: real)
    ensures h >= 0.0
    decreases |texts|
  {
    if |texts| == 0 then 0.0
    else
      (if texts[0].text_position != TextPosition.None then (texts[0].text_size + texts[0].margin) as real else 0.0)
      + TotalTextHeightMm(texts[1..])
  }

  /** The total is additive over a split list, so the order of the texts
      does not matter to it. */
  lemma {:induction false} TotalTextHeightAppend(a: seq<TextStyleInternal>, b: seq<TextStyleInternal>)
    ensures TotalTextHeightMm(a + b) == TotalTextHeightMm(a) + TotalTextHeightMm(b)
    decreases |a|
  {
    if |a| > 0 {
      assert (a + b)[1..] == a[1..] + b;
      TotalTextHeightAppend(a[1..], b);
    } else {
      assert a + b == b;
    }
  }

  /** One text adds `text_size + margin` millimetres when it is drawn and
      nothing when its position is `None`; with TotalTextHeightAppend this
      fixes the total of every list. */
  lemma {:induction false} TotalTextHeightSingle(t: TextStyleInternal)
    ensures TotalTextHeightMm([t]) ==
      if t.text_position != TextPosition.None then (t.text_size + t.margin) as real else 0.0
  {
    assert [t][1..] == [];
  }

  /** Texts without a position take no room. */
  lemma {:induction false} HiddenTextsTakeNoRoom(texts: seq<TextStyleInternal>)
    requires forall i :: 0 <= i < |texts| ==> texts[i].text_position == TextPosition.None
    ensures TotalTextHeightMm(texts) == 0.0
    decreases |texts|
  {
    if |texts| > 0 {
      HiddenTextsTakeNoRoom(texts[1..]);
    }
  }

  /** The height the symbol itself gets: the configured height when there
      is no text, otherwise what the texts leave of it, but never under 1 mm. */
  function EffectiveHeightMm(c: BarcodeConfigInternal): (h: real)
    ensures |c.texts| == 0 ==> h == c.dimensions.height_mm
    ensures |c.texts| > 0 ==> h >= 1.0 && h >= c.dimensions.height_mm - TotalTextHeightMm(c.texts)
    ensures |c.texts| > 0 ==> h == 1.0 || h == c.dimensions.height_mm - TotalTextHeightMm(c.texts)
  {
    if |c.texts| == 0 then c.dimensions.height_mm
    else
      var rest := c.dimensions.height_mm - TotalTextHeightMm(c.texts);
      if rest >= 1.0 then rest else 1.0
  }

  /** The pixel target: both sides converted at `dpi`, each at least 1. */
  function TargetPx(c: BarcodeConfigInternal, dpi: real): (t: Size)
    ensures t.width >= 1 && t.height >= 1
    ensures t.width == Max(MmToPx(c.dimensions.width_mm, dpi), 1)
    ensures t.height == Max(MmToPx(EffectiveHeightMm(c), dpi), 1)
  {
    Size(Max(MmToPx(c.dimensions.width_mm, dpi), 1), Max(MmToPx(EffectiveHeightMm(c), dpi), 1))
  }

  datatype GenError =
    | EncodeFailed(reason: string)
    | FontMissing(font: string)
    | LayoutPanic
    | SaveFailed

  /** zxing's image writer: format, data, quiet zones and scale give the
      symbol's pixel size or an error message. */
  type Encoder = (BarcodeFormat, string, bool, i32) -> Result<Size, string>

  /** `GeneratedBarcode`, with the buffer reduced to its size. */
  datatype Generated = Generated(filePath: string, value: string, buffer: Size)

  /** What a PNG generation gives: the returned record and the size of the
      image written to the file. */
  datatype PngOutput = PngOutput(generated: Generated, saved: Size)

  function Box(t: TextStyleInternal, textWidth: TextStyleInternal -> i32): TextBox {
    TextBox(t.text_size, t.text_position, textWidth(t))
  }

  function Boxes(texts: seq<TextStyleInternal>, textWidth: TextStyleInternal -> i32): (bs: seq<TextBox>)
    ensures |bs| == |texts|
    ensures forall i :: 0 <= i < |texts| ==> bs[i] == Box(texts[i], textWidth)
  {
    seq(|texts|, i requires 0 <= i < |texts| => Box(texts[i], textWidth))
  }

  /** The text loop. Each step first reads the text's font file, whatever
      the position, and then lays the text out. */
  function AddTexts(s: Size, texts: seq<TextStyleInternal>, fonts: set<string>,
                    textWidth: TextStyleInternal -> i32): Result<Size, GenError>
    decreases |texts|
  {
    if |texts| == 0 then Ok(s)
    else if texts[0].font !in fonts then Err(FontMissing(texts[0].font))
    else
      match Layout(s, texts[0].text_size, texts[0].text_position, textWidth(texts[0]))
      case Err(_) => Err(LayoutPanic)
      case Ok(p) => AddTexts(Grown(s, p), texts[1..], fonts, textWidth)
  }

  /** With every font present, the text loop is the shared layout fold. */
  lemma {:induction false} AddTextsIsLayoutFold(s: Size, texts: seq<TextStyleInternal>, fonts: set<string>,
                                                textWidth: TextStyleInternal -> i32)
    requires forall i :: 0 <= i < |texts| ==> texts[i].font in fonts
    ensures AddTexts(s, texts, fonts, textWidth).Ok? <==> ApplyTexts(s, Boxes(texts, textWidth)).Ok?
    ensures AddTexts(s, texts, fonts, textWidth).Ok? ==>
      AddTexts(s, texts, fonts, textWidth).value == ApplyTexts(s, Boxes(texts, textWidth)).value
    decreases |texts|
  {
    if |texts| > 0 {
      assert Boxes(texts, textWidth)[1..] == Boxes(texts[1..], textWidth);
      var r := Layout(s, texts[0].text_size, texts[0].text_position, textWidth(texts[0]));
      if r.Ok? {
        AddTextsIsLayoutFold(Grown(s, r.value), texts[1..], fonts, textWidth);
      }
    }
  }

  /** A missing font fails the whole generation, even for a text that is
      not drawn. */
  lemma {:induction false} MissingFontFails(s: Size, texts: seq<TextStyleInternal>, fonts: set<string>,
                                            textWidth: TextStyleInternal -> i32)
    requires |texts| > 0 && texts[0].font !in fonts
    ensures AddTexts(s, texts, fonts, textWidth) == Err(FontMissing(texts[0].font))
  {
  }

  /** The image before the texts: the width resize when the width
      percentage is not 100, then the resize to the pixel target, which a
      height percentage other than 100 replaces by a resize of the
      width-resized image. */
  function Resized(c: BarcodeConfigInternal, encoded: Size, dpi: real,
                   widthPct: (Size, real) -> Size, heightPct: (Size, real) -> Size): (r: (Size, Size))
    ensures r.0 == if c.dimensions.width_percentage != 100.0 then widthPct(encoded, c.dimensions.width_percentage) else encoded
    ensures c.dimensions.height_percentage == 100.0 ==> r.1 == TargetPx(c, dpi)
    ensures c.dimensions.height_percentage != 100.0 ==> r.1 == heightPct(r.0, c.dimensions.height_percentage)
  {
    var image := if c.dimensions.width_percentage != 100.0 then widthPct(encoded, c.dimensions.width_percentage) else encoded;
    var target := TargetPx(c, dpi);
    var final := if c.dimensions.height_percentage != 100.0 then heightPct(image, c.dimensions.height_percentage) else target;
    (image, final)
  }

  /** `generate_barcode_png_with_dpi`. */
  function GeneratePngWithDpi(data: string, c: BarcodeConfigInternal, filename: string, dpi: real,
                              encode: Encoder,
                              widthPct: (Size, real) -> Size, heightPct: (Size, real) -> Size,
                              fonts: set<string>, textWidth: TextStyleInternal -> i32,
                              saveOk: bool): (r: Result<PngOutput, GenError>)
    ensures var e := encode(c.format, data, c.quiet_zones, c.scale);
      e.Err? ==> r == Err(EncodeFailed(e.error))
    ensures r.Ok? ==> r.value.generated.value == data && r.value.generated.filePath == filename
    ensures r.Ok? ==> r.value.generated.buffer == Resized(c, encode(c.format, data, c.quiet_zones, c.scale).value, dpi, widthPct, heightPct).0
    ensures r.Ok? ==> saveOk
  {
    var size :- (match encode(c.format, data, c.quiet_zones, c.scale)
                 case Ok(s) => Ok(s) case Err(e) => Err(EncodeFailed(e)));
    var (image, resized) := Resized(c, size, dpi, widthPct, heightPct);
    var final :- AddTexts(resized, c.texts, fonts, textWidth);
    if !saveOk then Err(SaveFailed)
    else Ok(PngOutput(Generated(filename, data, image), final))
  }

  /** `generate_barcode_png`: the same at 300 dpi. */
  function GeneratePng(data: string, c: BarcodeConfigInternal, filename: string,
                       encode: Encoder,
                       widthPct: (Size, real) -> Size, heightPct: (Size, real) -> Size,
                       fonts: set<string>, textWidth: TextStyleInternal -> i32,
                       saveOk: bool): (r: Result<PngOutput, GenError>)
    ensures r == GeneratePngWithDpi(data, c, filename, 300.0, encode, widthPct, heightPct, fonts, textWidth, saveOk)
  {
    GeneratePngWithDpi(data, c, filename, 300.0, encode, widthPct, heightPct, fonts, textWidth, saveOk)
  }

  /** The saved image: with a height percentage of 100 it has the pixel
      target's width and the target's height plus one band per visible text;
      otherwise the millimetre target is not used at all. The returned buffer
      is the image before the texts and the millimetre resize. */
  lemma GeneratedSizes(data: string, c: BarcodeConfigInternal, filename: string, dpi: real,
                       encode: Encoder,
                       widthPct: (Size, real) -> Size, heightPct: (Size, real) -> Size,
                       fonts: set<string>, textWidth: TextStyleInternal -> i32)
    requires GeneratePngWithDpi(data, c, filename, dpi, encode, widthPct, heightPct, fonts, textWidth, true).Ok?
    ensures var g := GeneratePngWithDpi(data, c, filename, dpi, encode, widthPct, heightPct, fonts, textWidth, true).value;
      var base := Resized(c, encode(c.format, data, c.quiet_zones, c.scale).value, dpi, widthPct, heightPct).1;
      g.saved.width == base.width
      && g.saved.height == base.height + BandHeight(Boxes(c.texts, textWidth))
      && (c.dimensions.height_percentage == 100.0 ==> base == TargetPx(c, dpi))
  {
    var base := Resized(c, encode(c.format, data, c.quiet_zones, c.scale).value, dpi, widthPct, heightPct).1;
    FontsPresent(base, c.texts, fonts, textWidth);
    AddTextsIsLayoutFold(base, c.texts, fonts, textWidth);
    ApplyTextsSize(base, Boxes(c.texts, textWidth));
  }

  /** A text loop that succeeds found every font. */
  lemma {:induction false} FontsPresent(s: Size, texts: seq<TextStyleInternal>, fonts: set<string>,
                                        textWidth: TextStyleInternal -> i32)
    requires AddTexts(s, texts, fonts, textWidth).Ok?
    ensures forall i :: 0 <= i < |texts| ==> texts[i].font in fonts
    decreases |texts|
  {
    if |texts| > 0 {
      var p := Layout(s, texts[0].text_size, texts[0].text_position, textWidth(texts[0])).value;
      FontsPresent(Grown(s, p), texts[1..], fonts, textWidth);
      assert forall i :: 1 <= i < |texts| ==> texts[i] == texts[1..][i - 1];
    }
  }

  /** `generate_barcode_svg`: zxing's SVG text at scale 5, written to the
      file. The returned buffer is empty. */
  function GenerateSvg(data: string, c: BarcodeConfigInternal, filename: string,
                       svg: (BarcodeFormat, string) -> Result<string, string>,
                       writeOk: bool): (r: Result<Generated, GenError>)
    ensures svg(c.format, data).Err? ==> r == Err(EncodeFailed(svg(c.format, data).error))
    ensures r.Ok? <==> svg(c.format, data).Ok? && writeOk
    ensures r.Ok? ==> r.value == Generated(filename, data, Size(0, 0))
  {
    var _ :- (match svg(c.format, data) case Ok(t) => Ok(t) case Err(e) => Err(EncodeFailed(e)));
    if writeOk then Ok(Generated(filename, data, Size(0, 0))) else Err(SaveFailed)
  }
}

=== FILE: generator_config.dfy ===
/** The backend's configuration records (src/generator/barcode_config.rs):
    the serialisable configuration the frontend sends, the internal one the
    generator uses, the conversions between them, the dimension record and
    the mutable builder. `f32` fields are `real`. */
module GeneratorConfig {
  import opened Ints
  import opened Formats

  /** `image::Rgb<u8>`, a three-channel pixel. */
  datatype Rgb = Rgb(c0: u8, c1: u8, c2: u8)

  /** `RgbWrapper`, the serialisable colour. */
  datatype RgbWrapper = RgbWrapper(r: u8, g: u8, b: u8)

  /** `From<RgbWrapper> for Rgb<u8>`: channels in r, g, b order. */
  function RgbOfWrapper(w: RgbWrapper): (c: Rgb)
    ensures c.c0 == w.r && c.c1 == w.g && c.c2 == w.b
  {
    Rgb(w.r, w.g, w.b)
  }

  /** `From<Rgb<u8>> for RgbWrapper`. */
  function WrapperOfRgb(c: Rgb): (w: RgbWrapper)
    ensures w.r == c.c0 && w.g == c.c1 && w.b == c.c2
  {
    RgbWrapper(c.c0, c.c1, c.c2)
  }

  /** The two colour conversions are inverse to each other. */
  lemma RgbRoundTrip(w: RgbWrapper, c: Rgb)
    ensures WrapperOfRgb(RgbOfWrapper(w)) == w
    ensures RgbOfWrapper(WrapperOfRgb(c)) == c
  {
  }

  /** `BarcodeFormatWrapper { format: String }`. */
  datatype FormatWrapper = FormatWrapper(format: string)

  /** The ten names the backend recognises, in the order it tests them. */
  const KnownNames: seq<string> := [
    "Code128", "Code39", "QRCode", "EAN13", "EAN8",
    "UPCA", "UPCE", "DataMatrix", "PDF417", "Aztec"
  ]

  /** `From<BarcodeFormatWrapper> for BarcodeFormat`: the ten known names
      select their format; any other string, including the names of the
      other fourteen formats, falls back to Code128. */
  function FormatOfWrapper(w: FormatWrapper): (f: BarcodeFormat)
    ensures Ordinal(f) < 10
    ensures w.format in KnownNames ==> Name(f) == w.format
    ensures w.format !in KnownNames ==> f == Code128
  {
    match w.format
    case "Code128" => Code128
    case "Code39" => Code39
    case "QRCode" => QRCode
    case "EAN13" => EAN13
    case "EAN8" => EAN8
    case "UPCA" => UPCA
    case "UPCE" => UPCE
    case "DataMatrix" => DataMatrix
    case "PDF417" => PDF417
    case "Aztec" => Aztec
    case _ => Code128
  }

  /** `From<BarcodeFormat> for BarcodeFormatWrapper`: every format, the
      pseudo-formats included, is written under its own name, so distinct
      formats give distinct wrappers. */
  function WrapperOfFormat(f: BarcodeFormat): (w: FormatWrapper)
    ensures w.format == Name(f)
    ensures forall g :: FormatWrapper(Name(g)) == w <==> g == f
  {
    forall g ensures FormatWrapper(Name(g)) == FormatWrapper(Name(f)) <==> g == f {
      NameInjective(f, g);
    }
    FormatWrapper(Name(f))
  }

  /** A format's name is a known name exactly for the first ten formats. */
  lemma KnownNamesAreFirstTen(f: BarcodeFormat)
    ensures Name(f) in KnownNames <==> Ordinal(f) < 10
  {
    assert forall i :: 0 <= i < 10 ==> KnownNames[i] == Name(AllFormats[i]);
    if Ordinal(f) < 10 {
      assert Name(f) == KnownNames[Ordinal(f)];
    } else if Name(f) in KnownNames {
      var i :| 0 <= i < 10 && KnownNames[i] == Name(f);
      NameInjective(f, AllFormats[i]);
      AllFormatsDistinct();
      assert false;
    }
  }

  /** Format to wrapper to format is the identity exactly on the first ten
      formats; the other fourteen come back as Code128. */
  lemma FormatRoundTrip(f: BarcodeFormat)
    ensures FormatOfWrapper(WrapperOfFormat(f)) == f <==> Ordinal(f) < 10
    ensures Ordinal(f) >= 10 ==> FormatOfWrapper(WrapperOfFormat(f)) == Code128
  {
    KnownNamesAreFirstTen(f);
    if Ordinal(f) < 10 {
      NameInjective(f, FormatOfWrapper(WrapperOfFormat(f)));
    }
  }

  /** Wrapper to format to wrapper is the identity exactly on the ten known
      names; every other wrapper comes back as "Code128". */
  lemma WrapperRoundTrip(w: FormatWrapper)
    ensures WrapperOfFormat(FormatOfWrapper(w)) == w <==> w.format in KnownNames
    ensures w.format !in KnownNames ==> WrapperOfFormat(FormatOfWrapper(w)) == FormatWrapper("Code128")
  {
  }

  /** `BarcodeDimensions`: two percentages and two lengths in millimetres.
      The older copy in src/lib/barcode_config.rs is the same record. */
  datatype BarcodeDimensions = BarcodeDimensions(
    height_percentage: real,
    width_percentage: real,
    width_mm: real,
    height_mm: real)

  /** `BarcodeDimensions::new()`. */
  const DefaultDimensions: BarcodeDimensions := BarcodeDimensions(100.0, 100.0, 48.5, 16.9)

  /** The four fields of the record, for stating what a resize keeps. */
  datatype DimensionField = HeightPercentage | WidthPercentage | WidthMm | HeightMm

  function DimensionOf(d: BarcodeDimensions, k: DimensionField): real {
    match k
    case HeightPercentage => d.height_percentage
    case WidthPercentage => d.width_percentage
    case WidthMm => d.width_mm
    case HeightMm => d.height_mm
  }

  /** `resize_height_mm`, `resize_width_mm`, `resize_height_percentage` and
      `resize_width_percentage`: `Self { field: v, ..*self }`. */
  function Resize(d: BarcodeDimensions, k: DimensionField, v: real): (r: BarcodeDimensions)
    ensures DimensionOf(r, k) == v
    ensures forall j :: j != k ==> DimensionOf(r, j) == DimensionOf(d, j)
  {
    match k
    case HeightPercentage => d.(height_percentage := v)
    case WidthPercentage => d.(width_percentage := v)
    case WidthMm => d.(width_mm := v)
    case HeightMm => d.(height_mm := v)
  }

  /** A record is determined by its four fields. */
  lemma DimensionsExtensional(d: BarcodeDimensions, e: BarcodeDimensions)
    requires forall k :: DimensionOf(d, k) == DimensionOf(e, k)
    ensures d == e
  {
    assert DimensionOf(d, HeightPercentage) == DimensionOf(e, HeightPercentage);
    assert DimensionOf(d, WidthPercentage) == DimensionOf(e, WidthPercentage);
    assert DimensionOf(d, WidthMm) == DimensionOf(e, WidthMm);
    assert DimensionOf(d, HeightMm) == DimensionOf(e, HeightMm);
  }

  /** Resizes behave like independent fields: a field reads back what was
      written, a second write to it wins, writes to different fields
      commute, and writing back the value already there changes nothing. */
  lemma ResizeLaws(d: BarcodeDimensions, k: DimensionField, j: DimensionField, v: real, w: real)
    ensures Resize(Resize(d, k, v), k, w) == Resize(d, k, w)
    ensures k != j ==> Resize(Resize(d, k, v), j, w) == Resize(Resize(d, j, w), k, v)
    ensures Resize(d, k, DimensionOf(d, k)) == d
  {
    DimensionsExtensional(Resize(Resize(d, k, v), k, w), Resize(d, k, w));
    if k != j {
      DimensionsExtensional(Resize(Resize(d, k, v), j, w), Resize(Resize(d, j, w), k, v));
    }
    DimensionsExtensional(Resize(d, k, DimensionOf(d, k)), d);
  }

  /** `BarcodeTextStyleConfig`, the serialisable text. */
  datatype TextStyleConfig = TextStyleConfig(
    text: string,
    text_color: RgbWrapper,
    text_size: u32,
    text_position: TextPosition,
    font: string,
    margin: u32)

  /** `BarcodeTextStyleConfigInternal`. */
  datatype TextStyleInternal = TextStyleInternal(
    text: string,
    text_color: Rgb,
    text_size: u32,
    text_position: TextPosition,
    font: string,
    margin: u32)

  /** `BarcodeConfig`, the serialisable configuration. */
  datatype BarcodeConfig = BarcodeConfig(
    format: FormatWrapper,
    texts: seq<TextStyleConfig>,
    scale: i32,
    quiet_zones: bool,
    dimensions: BarcodeDimensions,
    data: string)

  /** `BarcodeConfigInternal`. */
  datatype BarcodeConfigInternal = BarcodeConfigInternal(
    format: BarcodeFormat,
    texts: seq<TextStyleInternal>,
    scale: i32,
    quiet_zones: bool,
    dimensions: BarcodeDimensions,
    data: string)

  /** The per-text closure of the conversion: only the colour changes type. */
  function TextToInternal(t: TextStyleConfig): (u: TextStyleInternal)
    ensures u.text == t.text && u.text_color == RgbOfWrapper(t.text_color)
    ensures u.text_size == t.text_size && u.text_position == t.text_position
    ensures u.font == t.font && u.margin == t.margin
  {
    TextStyleInternal(t.text, RgbOfWrapper(t.text_color), t.text_size, t.text_position, t.font, t.margin)
  }

  /** `From<BarcodeConfig> for BarcodeConfigInternal`: the format name is
      resolved, each text is converted in place, and everything else is
      carried over. */
  function ToInternal(c: BarcodeConfig): (r: BarcodeConfigInternal)
    ensures r.format == FormatOfWrapper(c.format)
    ensures |r.texts| == |c.texts|
    ensures forall i :: 0 <= i < |c.texts| ==> r.texts[i] == TextToInternal(c.texts[i])
    ensures r.scale == c.scale && r.quiet_zones == c.quiet_zones
    ensures r.dimensions == c.dimensions && r.data == c.data
  {
    BarcodeConfigInternal(
      FormatOfWrapper(c.format),
      seq(|c.texts|, i requires 0 <= i < |c.texts| => TextToInternal(c.texts[i])),
      c.scale, c.quiet_zones, c.dimensions, c.data)
  }

  /** The inverse direction, which the backend never needs: it writes the
      format under its name and the colours back as wrappers. */
  function FromInternal(c: BarcodeConfigInternal): BarcodeConfig {
    BarcodeConfig(
      WrapperOfFormat(c.format),
      seq(|c.texts|, i requires 0 <= i < |c.texts| =>
        var u := c.texts[i];
        TextStyleConfig(u.text, WrapperOfRgb(u.text_color), u.text_size, u.text_position, u.font, u.margin)),
      c.scale, c.quiet_zones, c.dimensions, c.data)
  }

  /** The conversion loses nothing but an unknown format name: going to the
      internal form and back restores the configuration exactly when its
      format name is one of the ten known ones. */
  lemma ConversionLosesOnlyFormat(c: BarcodeConfig)
    ensures FromInternal(ToInternal(c)) == c <==> c.format.format in KnownNames
    ensures FromInternal(ToInternal(c)).(format := c.format) == c
  {
    var back := FromInternal(ToInternal(c));
    assert back.texts == c.texts by {
      forall i | 0 <= i < |c.texts| ensures back.texts[i] == c.texts[i] {
        RgbRoundTrip(c.texts[i].text_color, Rgb(0, 0, 0));
      }
    }
    WrapperRoundTrip(c.format);
  }

  /** `BarcodeConfigBuilder`: each setter of the source takes `&mut self`
      and returns it for chaining; here each returns the updated builder. */
  datatype Builder = Builder(config: BarcodeConfig)

  /** `BarcodeConfigBuilder::new()`, holding `default_config()`. */
  function NewBuilder(): (b: Builder)
    ensures FormatOfWrapper(b.config.format) == Code128 && b.config.format.format == "Code128"
    ensures b.config.texts == [] && b.config.scale == 10 && b.config.quiet_zones
    ensures b.config.dimensions == DefaultDimensions && b.config.data == ""
  {
    Builder(BarcodeConfig(FormatWrapper("Code128"), [], 10, true, DefaultDimensions, ""))
  }

  /** `set_format`: the format is stored under its name; nothing else changes. */
  function SetFormat(b: Builder, f: BarcodeFormat): (r: Builder)
    ensures r.config == b.config.(format := WrapperOfFormat(f))
    ensures Ordinal(f) < 10 ==> FormatOfWrapper(r.config.format) == f
  {
    FormatRoundTrip(f);
    Builder(b.config.(format := WrapperOfFormat(f)))
  }

  function SetScale(b: Builder, scale: i32): (r: Builder)
    ensures r.config.scale == scale && r.config == b.config.(scale := r.config.scale)
  {
    Builder(b.config.(scale := scale))
  }

  /** The entry `add_text` pushes: font "DejaVuSans" and margin 5. */
  function BuilderText(text: string, color: Rgb, size: u32, position: TextPosition): (t: TextStyleConfig)
    ensures t.font == "DejaVuSans" && t.margin == 5
    ensures t.text == text && RgbOfWrapper(t.text_color) == color
    ensures t.text_size == size && t.text_position == position
  {
    TextStyleConfig(text, WrapperOfRgb(color), size, position, "DejaVuSans", 5)
  }

  /** `add_text`: one entry is appended at the end; earlier entries and every
      other field are kept. */
  function AddText(b: Builder, text: string, color: Rgb, size: u32, position: TextPosition): (r: Builder)
    ensures |r.config.texts| == |b.config.texts| + 1
    ensures r.config.texts[..|b.config.texts|] == b.config.texts
    ensures r.config.texts[|b.config.texts|] == BuilderText(text, color, size, position)
    ensures r.config == b.config.(texts := r.config.texts)
  {
    Builder(b.config.(texts := b.config.texts + [BuilderText(text, color, size, position)]))
  }

  /** `resize_height_percentage` / `resize_width_percentage` on the builder. */
  function ResizePercentage(b: Builder, k: DimensionField, v: real): (r: Builder)
    requires k == HeightPercentage || k == WidthPercentage
    ensures DimensionOf(r.config.dimensions, k) == v
    ensures forall j :: j != k ==> DimensionOf(r.config.dimensions, j) == DimensionOf(b.config.dimensions, j)
    ensures r.config == b.config.(dimensions := r.config.dimensions)
  {
    Builder(b.config.(dimensions := Resize(b.config.dimensions, k, v)))
  }

  /** `build()`: a copy of the configuration held. */
  function Build(b: Builder): BarcodeConfig {
    b.config
  }

  /** Setters on different parts of the builder commute, so a chain may be
      written in any order with the same result; text additions keep their
      call order. */
  lemma BuilderSettersCommute(b: Builder, f: BarcodeFormat, s: i32, t: string, color: Rgb,
                              size: u32, p: TextPosition, k: DimensionField, v: real,
                              t2: string, color2: Rgb, size2: u32, p2: TextPosition)
    requires k == HeightPercentage || k == WidthPercentage
    ensures SetScale(SetFormat(b, f), s) == SetFormat(SetScale(b, s), f)
    ensures AddText(SetFormat(b, f), t, color, size, p) == SetFormat(AddText(b, t, color, size, p), f)
    ensures ResizePercentage(SetScale(b, s), k, v) == SetScale(ResizePercentage(b, k, v), s)
    ensures Build(AddText(AddText(b, t, color, size, p), t2, color2, size2, p2)).texts
         == b.config.texts + [BuilderText(t, color, size, p), BuilderText(t2, color2, size2, p2)]
  {
  }
}

=== FILE: grid.dfy ===
/** The grid arithmetic the three exporters share
    (src/generator/exporting/png_exporter.rs,
    src/generator/exporting/pdf_exporter.rs, src/lib/exporting/pdf_exporter.rs):
    columns, centring margins, the cell of the i-th barcode, the scale that
    fits a barcode into its cell and the border sides drawn around it.
    Spacing and the minimum margin are 0 in every copy and are left out of
    the formulas. Unsigned operations that would panic are reported as
    `ExportPanic` values. */
module Grid {
  import opened Ints
  import opened Wrappers

  datatype ExportPanic =
    | EmptyInput        // `barcodes.first().unwrap()` on an empty list
    | DivideByZero      // integer division by a zero width or height
    | Underflow         // `u32` subtraction below zero
    | Overflow          // `u32` multiplication past 2^32 - 1
    | SliceOutOfRange   // `barcodes[cursor..]` with the cursor past the end

  datatype Side = Top | Bottom | Left | Right

  /** `(image_width - 2 * margin) / barcode_width`, at least 1. */
  function Columns(imageWidth: u32, margin: u32, barcodeWidth: u32): (r: Result<u32, ExportPanic>)
    ensures r.Err? <==> barcodeWidth == 0 || 2 * margin > imageWidth
    ensures r.Ok? ==> r.value >= 1
  {
    if 2 * margin > imageWidth then Err(Underflow)
    else if barcodeWidth == 0 then Err(DivideByZero)
    else
      var q := (imageWidth - 2 * margin) / barcodeWidth;
      Ok(if q >= 1 then q else 1)
  }

  /** The columns are as many as fit across the width between the margins,
      and one when not even one fits. */
  lemma ColumnsFill(imageWidth: u32, margin: u32, barcodeWidth: u32)
    requires Columns(imageWidth, margin, barcodeWidth).Ok?
    ensures var cols := Columns(imageWidth, margin, barcodeWidth).value;
      (barcodeWidth <= imageWidth - 2 * margin ==>
         cols * barcodeWidth <= imageWidth - 2 * margin < (cols + 1) * barcodeWidth)
      && (barcodeWidth > imageWidth - 2 * margin ==> cols == 1)
  {
    var free := imageWidth - 2 * margin;
    var q, m := free / barcodeWidth, free % barcodeWidth;
    assert free == q * barcodeWidth + m;
    assert (q + 1) * barcodeWidth == q * barcodeWidth + barcodeWidth;
    if barcodeWidth <= free {
      assert 0 * barcodeWidth < q * barcodeWidth;
      LessMul(0, q, barcodeWidth);
      assert Columns(imageWidth, margin, barcodeWidth).value == q;
    } else {
      assert q * barcodeWidth <= free < 1 * barcodeWidth;
      LessMul(q, 1, barcodeWidth);
    }
  }

  /** `calculate_auto_margins`: the space left beside `cols` columns and
      below as many whole rows as fit, halved. */
  function AutoMargins(barcodeWidth: u32, barcodeHeight: u32, imageWidth: u32, imageHeight: u32,
                       cols: u32): (r: Result<(u32, u32), ExportPanic>)
    ensures r.Ok? <==> barcodeHeight > 0 && barcodeWidth * cols <= imageWidth
    ensures barcodeHeight == 0 ==> r == Err(DivideByZero)
    ensures barcodeHeight > 0 && !FitsU32(barcodeWidth * cols) ==> r == Err(Overflow)
    ensures barcodeHeight > 0 && FitsU32(barcodeWidth * cols) && barcodeWidth * cols > imageWidth ==> r == Err(Underflow)
    ensures r.Ok? ==> 2 * r.value.0 <= imageWidth && 2 * r.value.1 <= imageHeight
  {
    if barcodeHeight == 0 then Err(DivideByZero)
    else if !FitsU32(barcodeWidth * cols) then Err(Overflow)
    else if barcodeWidth * cols > imageWidth then Err(Underflow)
    else
      var maxRows := imageHeight / barcodeHeight;
      MulMonotone(maxRows, imageHeight / barcodeHeight, barcodeHeight);
      assert barcodeHeight * maxRows <= imageHeight;
      Ok(((imageWidth - barcodeWidth * cols) / 2, (imageHeight - barcodeHeight * maxRows) / 2))
  }

  /** The automatic margins centre the grid: the columns plus both side
      margins make up the page width, and the whole rows that fit plus both
      vertical margins its height, each up to the pixel lost in halving; the
      vertical margin is under one row. */
  lemma AutoMarginsCentre(barcodeWidth: u32, barcodeHeight: u32, imageWidth: u32, imageHeight: u32, cols: u32)
    requires AutoMargins(barcodeWidth, barcodeHeight, imageWidth, imageHeight, cols).Ok?
    ensures var (mx, my) := AutoMargins(barcodeWidth, barcodeHeight, imageWidth, imageHeight, cols).value;
      imageWidth - 1 <= 2 * mx + barcodeWidth * cols <= imageWidth
      && imageHeight - 1 <= 2 * my + barcodeHeight * (imageHeight / barcodeHeight) <= imageHeight
      && 2 * my < barcodeHeight
  {
    var rows := imageHeight / barcodeHeight;
    DivMulAdd(rows, imageHeight % barcodeHeight, barcodeHeight);
    assert imageHeight - barcodeHeight * rows == imageHeight % barcodeHeight;
  }

  /** Where the `i`-th barcode of a grid goes: row-major order, `cols` per
      row, each cell the size of the first barcode. */
  datatype Cell = Cell(row: nat, col: nat, x: nat, y: nat)

  function CellOf(i: nat, cols: u32, mx: u32, my: u32, barcodeWidth: u32, barcodeHeight: u32): (c: Cell)
    requires cols >= 1
  {
    Cell(i / cols, i % cols, mx + (i % cols) * barcodeWidth, my + (i / cols) * barcodeHeight)
  }

  /** The cell of index `i` is its row-major position: `cols` cells per
      row, each the size of the first barcode. */
  lemma CellFacts(i: nat, cols: u32, mx: u32, my: u32, barcodeWidth: u32, barcodeHeight: u32)
    requires cols >= 1
    ensures var c := CellOf(i, cols, mx, my, barcodeWidth, barcodeHeight);
      c.col < cols && c.row * cols + c.col == i
      && c.x == mx + c.col * barcodeWidth && c.y == my + c.row * barcodeHeight
  {
  }

  /** Two different indices never share a cell. */
  lemma CellsDistinct(i: nat, j: nat, cols: u32, mx: u32, my: u32, w: u32, h: u32)
    requires cols >= 1 && i != j
    ensures var a := CellOf(i, cols, mx, my, w, h); var b := CellOf(j, cols, mx, my, w, h);
      (a.row, a.col) != (b.row, b.col)
  {
    CellFacts(i, cols, mx, my, w, h);
    CellFacts(j, cols, mx, my, w, h);
  }

  /** `y = margin_y + row * barcode_height` fits a `u32` for the last of
      `n` barcodes; a debug build panics on the first index where it does
      not. */
  predicate CornersFit(n: nat, cols: u32, my: u32, barcodeHeight: u32)
    requires cols >= 1
  {
    n == 0 || FitsU32(my + (n - 1) / cols * barcodeHeight)
  }

  /** The last barcode has the lowest row, so its corner fits exactly when
      every barcode's does. The `x` corner needs no check: it never passes
      the margin plus the columns that fit the page. */
  lemma CornersFitIff(n: nat, cols: u32, mx: u32, my: u32, barcodeWidth: u32, barcodeHeight: u32)
    requires cols >= 1
    ensures CornersFit(n, cols, my, barcodeHeight) <==>
      forall i :: 0 <= i < n ==> FitsU32(CellOf(i, cols, mx, my, barcodeWidth, barcodeHeight).y)
  {
    if CornersFit(n, cols, my, barcodeHeight) {
      forall i | 0 <= i < n
        ensures FitsU32(CellOf(i, cols, mx, my, barcodeWidth, barcodeHeight).y)
      {
        RowBelowLast(i, n, cols, barcodeHeight);
      }
    } else {
      assert !FitsU32(CellOf(n - 1, cols, mx, my, barcodeWidth, barcodeHeight).y);
    }
  }

  /** No barcode among `n` lies below the last one. */
  lemma RowBelowLast(i: nat, n: nat, cols: u32, barcodeHeight: u32)
    requires cols >= 1 && i < n
    ensures i / cols * barcodeHeight <= (n - 1) / cols * barcodeHeight
  {
    DivMonotone(i, n - 1, cols);
    MulMonotone(i / cols, (n - 1) / cols, barcodeHeight);
  }

  /** The border sides added, in call order: top and bottom on the first
      row, bottom on the others, left on the first column, and right
      whenever `col <= cols - 1`. */
  function Borders(row: nat, col: nat, cols: u32): (s: seq<Side>)
    requires cols >= 1
    ensures Top in s <==> row == 0
    ensures Bottom in s
    ensures Left in s <==> col == 0
    ensures Right in s <==> col <= cols - 1
    ensures |s| == (if row == 0 then 2 else 1) + (if col == 0 then 1 else 0) + (if col <= cols - 1 then 1 else 0)
  {
    (if row == 0 then [Top, Bottom] else [Bottom])
    + (if col == 0 then [Left] else [])
    + (if col <= cols - 1 then [Right] else [])
  }

  /** Inside a grid every barcode gets a right border, since its column is
      always below `cols`. */
  lemma RightAlways(i: nat, cols: u32, mx: u32, my: u32, w: u32, h: u32)
    requires cols >= 1
    ensures Right in Borders(CellOf(i, cols, mx, my, w, h).row, CellOf(i, cols, mx, my, w, h).col, cols)
  {
    CellFacts(i, cols, mx, my, w, h);
  }

  /** An `f32` that can also be infinite or not a number. */
  datatype Float = Fin(v: real) | PosInf | NaN

  /** `a as f32 / b as f32`. */
  function Div(a: u32, b: u32): (r: Float)
    ensures b == 0 && a == 0 ==> r == NaN
    ensures b == 0 && a > 0 ==> r == PosInf
    ensures b > 0 ==> r.Fin? && r.v * b as real == a as real && r.v >= 0.0
  {
    if b == 0 then (if a == 0 then NaN else PosInf) else Fin(a as real / b as real)
  }

  /** `f32::min`: a NaN argument yields the other argument. */
  function FMin(a: Float, b: Float): (r: Float)
    ensures a.NaN? ==> r == b
    ensures !a.NaN? && b.NaN? ==> r == a
    ensures a.Fin? && b.Fin? ==> r.Fin? && r.v <= a.v && r.v <= b.v && (r.v == a.v || r.v == b.v)
    ensures a == PosInf && !b.NaN? ==> r == b
    ensures a.Fin? && b == PosInf ==> r == a
  {
    if a.NaN? then b
    else if b.NaN? then a
    else if a.PosInf? then b
    else if b.PosInf? then a
    else Fin(Min2(a.v, b.v))
  }

  function Min2(a: real, b: real): real {
    if a <= b then a else b
  }

  /** `(n as f32 * s) as u32`: NaN casts to 0, infinity saturates. */
  function ScaleSide(n: u32, s: Float): u32 {
    match s
    case NaN => 0
    case PosInf => if n == 0 then 0 else U32_MAX
    case Fin(v) => RealToU32(n as real * v)
  }

  /** The barcode's own size scaled by the smaller of the two ratios that
      fit it into a cell of the first barcode's size. */
  function Fit(cellWidth: u32, cellHeight: u32, w: u32, h: u32): (r: (u32, u32)) {
    var scale := FMin(Div(cellWidth, w), Div(cellHeight, h));
    (ScaleSide(w, scale), ScaleSide(h, scale))
  }

  /** The fitted barcode never exceeds its cell (so the centring
      subtractions `cell - new` never underflow), and a barcode with both
      sides non-zero fills its cell along at least one side. */
  lemma FitInCell(cellWidth: u32, cellHeight: u32, w: u32, h: u32)
    requires cellWidth > 0
    ensures Fit(cellWidth, cellHeight, w, h).0 <= cellWidth
    ensures Fit(cellWidth, cellHeight, w, h).1 <= cellHeight
    ensures w > 0 && h > 0 && cellHeight > 0 ==>
      Fit(cellWidth, cellHeight, w, h).0 == cellWidth || Fit(cellWidth, cellHeight, w, h).1 == cellHeight
  {
    var sx := Div(cellWidth, w);
    var sy := Div(cellHeight, h);
    if w == 0 && h == 0 {
      assert FMin(sx, sy) == PosInf;
    } else if w == 0 {
      assert FMin(sx, sy) == sy;
      RealToU32Whole(0);
      ScaledExact(h, sy.v, cellHeight);
    } else if h == 0 {
      assert FMin(sx, sy) == sx;
      RealToU32Whole(0);
      ScaledExact(w, sx.v, cellWidth);
    } else {
      FitBothSides(cellWidth, cellHeight, w, h);
    }
  }

  lemma FitBothSides(cellWidth: u32, cellHeight: u32, w: u32, h: u32)
    requires cellWidth > 0 && w > 0 && h > 0
    ensures Fit(cellWidth, cellHeight, w, h).0 <= cellWidth
    ensures Fit(cellWidth, cellHeight, w, h).1 <= cellHeight
    ensures Fit(cellWidth, cellHeight, w, h).0 == cellWidth || Fit(cellWidth, cellHeight, w, h).1 == cellHeight
  {
    var sx := Div(cellWidth, w);
    var sy := Div(cellHeight, h);
    var s := FMin(sx, sy);
    SideBelow(w, s, sx.v, cellWidth);
    SideBelow(h, s, sy.v, cellHeight);
    if s.v == sx.v {
      SideExact(w, s, cellWidth);
    } else {
      SideExact(h, s, cellHeight);
    }
  }

  /** One side scaled by at most its own ratio stays within the cell. */
  lemma SideBelow(n: u32, s: Float, a: real, c: u32)
    requires n > 0 && s.Fin? && s.v <= a && a * n as real == c as real
    ensures ScaleSide(n, s) <= c
  {
    ScaledExact(n, a, c);
    ScaledMonotone(n, s.v, a);
  }

  /** Scaled by exactly its own ratio, it fills the cell. */
  lemma SideExact(n: u32, s: Float, c: u32)
    requires n > 0 && s.Fin? && s.v * n as real == c as real
    ensures ScaleSide(n, s) == c
  {
    ScaledExact(n, s.v, c);
  }

  /** `n * (c / n)` cast back is `c`. */
  lemma ScaledExact(n: u32, v: real, c: u32)
    requires n > 0 && v * n as real == c as real
    ensures RealToU32(n as real * v) == c
  {
    assert n as real * v == c as real;
    RealToU32Whole(c);
  }

  lemma ScaledMonotone(n: u32, a: real, b: real)
    requires a <= b
    ensures RealToU32(n as real * a) <= RealToU32(n as real * b)
  {
    var d := b - a;
    assert n as real * b == n as real * a + n as real * d;
    assert n as real * d >= 0.0;
    RealToU32Monotone(n as real * a, n as real * b);
  }

  /** A barcode placed in a cell: the cell, the fitted size, the centred
      paste position and the border sides drawn. */
  datatype Placed = Placed(cell: Cell, fitted: (u32, u32), offsetX: nat, offsetY: nat, borders: seq<Side>)

  /** The loop body of the grid: cell, fit, borders when enabled, and the
      offset that centres the fitted barcode in its cell. */
  function Place(i: nat, size: (u32, u32), cols: u32, mx: u32, my: u32, cellWidth: u32, cellHeight: u32,
                 withBorders: bool): (p: Placed)
    requires cols >= 1 && cellWidth > 0
    ensures p.cell == CellOf(i, cols, mx, my, cellWidth, cellHeight)
    ensures p.fitted.0 <= cellWidth && p.fitted.1 <= cellHeight
    ensures p.offsetX + p.fitted.0 <= p.cell.x + cellWidth && p.cell.x <= p.offsetX
    ensures p.offsetY + p.fitted.1 <= p.cell.y + cellHeight && p.cell.y <= p.offsetY
    ensures withBorders ==> p.borders == Borders(p.cell.row, p.cell.col, cols)
    ensures !withBorders ==> p.borders == []
  {
    var cell := CellOf(i, cols, mx, my, cellWidth, cellHeight);
    var fitted := Fit(cellWidth, cellHeight, size.0, size.1);
    FitInCell(cellWidth, cellHeight, size.0, size.1);
    Placed(cell, fitted,
           cell.x + (cellWidth - fitted.0) / 2, cell.y + (cellHeight - fitted.1) / 2,
           if withBorders then Borders(cell.row, cell.col, cols) else [])
  }

  /** The whole loop of a grid: barcode `i` of `sizes` placed at index `i`. */
  function PlaceAll(sizes: seq<(u32, u32)>, cols: u32, mx: u32, my: u32, cellWidth: u32, cellHeight: u32,
                    withBorders: bool): (ps: seq<Placed>)
    requires cols >= 1 && cellWidth > 0
    ensures |ps| == |sizes|
    ensures forall i :: 0 <= i < |sizes| ==>
      ps[i] == Place(i, sizes[i], cols, mx, my, cellWidth, cellHeight, withBorders)
  {
    seq(|sizes|, i requires 0 <= i < |sizes| => Place(i, sizes[i], cols, mx, my, cellWidth, cellHeight, withBorders))
  }

  /** The `u32` sums of the grid loop, `x`, `y`, `offset_x` and `offset_y`,
      fit for every barcode; a debug build panics on the first barcode
      where one does not. The offsets are the largest of the four. */
  predicate PlacementsFit(ps: seq<Placed>) {
    forall i :: 0 <= i < |ps| ==> FitsU32(ps[i].offsetX) && FitsU32(ps[i].offsetY)
  }

  /** The overflow panic lies between two bounds: placements fit only if
      the last barcode's top edge fits, and they do fit when the columns
      end and the row below the last one starts within `u32`. */
  lemma PlacementsFitBounds(sizes: seq<(u32, u32)>, cols: u32, mx: u32, my: u32, cellWidth: u32, cellHeight: u32,
                            withBorders: bool)
    requires cols >= 1 && cellWidth > 0
    ensures PlacementsFit(PlaceAll(sizes, cols, mx, my, cellWidth, cellHeight, withBorders)) ==>
      CornersFit(|sizes|, cols, my, cellHeight)
    ensures FitsU32(mx + cols * cellWidth) && FitsU32(my + ((|sizes| - 1) / cols + 1) * cellHeight) ==>
      PlacementsFit(PlaceAll(sizes, cols, mx, my, cellWidth, cellHeight, withBorders))
  {
    var ps := PlaceAll(sizes, cols, mx, my, cellWidth, cellHeight, withBorders);
    var n := |sizes|;
    if PlacementsFit(ps) && n > 0 {
      assert ps[n - 1].cell == CellOf(n - 1, cols, mx, my, cellWidth, cellHeight);
    }
    if FitsU32(mx + cols * cellWidth) && FitsU32(my + ((n - 1) / cols + 1) * cellHeight) {
      forall i | 0 <= i < n
        ensures FitsU32(ps[i].offsetX) && FitsU32(ps[i].offsetY)
      {
        PlaceWithin(i, n, sizes[i], cols, mx, my, cellWidth, cellHeight, withBorders);
      }
    }
  }

  /** A barcode among `n` is pasted no further right than the end of the
      columns and no lower than the row below the last barcode. */
  lemma PlaceWithin(i: nat, n: nat, size: (u32, u32), cols: u32, mx: u32, my: u32, cellWidth: u32, cellHeight: u32,
                    withBorders: bool)
    requires cols >= 1 && cellWidth > 0 && i < n
    ensures var p := Place(i, size, cols, mx, my, cellWidth, cellHeight, withBorders);
      p.offsetX <= mx + cols * cellWidth && p.offsetY <= my + ((n - 1) / cols + 1) * cellHeight
  {
    CellWithinColumns(i, cols, mx, my, cellWidth, cellHeight);
    DivMonotone(i, n - 1, cols);
    MulMonotone(i / cols + 1, (n - 1) / cols + 1, cellHeight);
    assert (i / cols + 1) * cellHeight == i / cols * cellHeight + cellHeight;
  }

  /** Every cell ends at or before the right edge of the last column. */
  lemma CellWithinColumns(i: nat, cols: u32, mx: u32, my: u32, w: u32, h: u32)
    requires cols >= 1
    ensures CellOf(i, cols, mx, my, w, h).x + w <= mx + cols * w
  {
    var c := CellOf(i, cols, mx, my, w, h);
    CellFacts(i, cols, mx, my, w, h);
    MulMonotone(c.col + 1, cols, w);
    assert (c.col + 1) * w == c.col * w + w;
  }
}

=== FILE: home.dfy ===
/** The editor page (frontend/src/pages/Home.tsx): single-field updates of
    the configuration, the text list, and the generation guard with its
    auto-generate effect. Each remote call is one atomic step whose reply is
    an input. */
module Home {
  import opened Strings
  import opened Formats
  import opened Wrappers
  import opened Interfaces

  // ---------------------------------------------------------------------
  // Top-level fields of the configuration
  // ---------------------------------------------------------------------

  datatype ConfigKey = FormatKey | TextsKey | ScaleKey | QuietZonesKey | DimensionsKey | DataKey

  /** A value for one top-level field, tagged with the field it belongs to. */
  datatype ConfigField =
    | FormatField(format: FormatWrapper)
    | TextsField(texts: seq<TextStyle>)
    | ScaleField(scale: int)
    | QuietZonesField(quiet_zones: bool)
    | DimensionsField(dimensions: Dimensions)
    | DataField(data: string)

  function KeyOf(v: ConfigField): ConfigKey {
    match v
    case FormatField(_) => FormatKey
    case TextsField(_) => TextsKey
    case ScaleField(_) => ScaleKey
    case QuietZonesField(_) => QuietZonesKey
    case DimensionsField(_) => DimensionsKey
    case DataField(_) => DataKey
  }

  /** Reads one field: `config[field]`. */
  function Get(c: BarcodeConfig, k: ConfigKey): (v: ConfigField)
    ensures KeyOf(v) == k
  {
    match k
    case FormatKey => FormatField(c.format)
    case TextsKey => TextsField(c.texts)
    case ScaleKey => ScaleField(c.scale)
    case QuietZonesKey => QuietZonesField(c.quiet_zones)
    case DimensionsKey => DimensionsField(c.dimensions)
    case DataKey => DataField(c.data)
  }

  /** A configuration is determined by its six fields. */
  lemma ConfigExtensional(c: BarcodeConfig, d: BarcodeConfig)
    requires forall k :: Get(c, k) == Get(d, k)
    ensures c == d
  {
    assert Get(c, FormatKey) == Get(d, FormatKey);
    assert Get(c, TextsKey) == Get(d, TextsKey);
    assert Get(c, ScaleKey) == Get(d, ScaleKey);
    assert Get(c, QuietZonesKey) == Get(d, QuietZonesKey);
    assert Get(c, DimensionsKey) == Get(d, DimensionsKey);
    assert Get(c, DataKey) == Get(d, DataKey);
  }

  /** `handleConfigChange(field, value)`: `{ ...prev, [field]: value }`. The
      named field reads back the new value; every other field is unchanged. */
  function HandleConfigChange(c: BarcodeConfig, v: ConfigField): (r: BarcodeConfig)
    ensures Get(r, KeyOf(v)) == v
    ensures forall k :: k != KeyOf(v) ==> Get(r, k) == Get(c, k)
  {
    match v
    case FormatField(x) => c.(format := x)
    case TextsField(x) => c.(texts := x)
    case ScaleField(x) => c.(scale := x)
    case QuietZonesField(x) => c.(quiet_zones := x)
    case DimensionsField(x) => c.(dimensions := x)
    case DataField(x) => c.(data := x)
  }

  /** Writing back what was read changes nothing; a second write to the same
      field wins; writes to different fields commute. */
  lemma ConfigChangeLaws(c: BarcodeConfig, k: ConfigKey, v: ConfigField, w: ConfigField)
    ensures HandleConfigChange(c, Get(c, k)) == c
    ensures KeyOf(v) == KeyOf(w) ==>
      HandleConfigChange(HandleConfigChange(c, v), w) == HandleConfigChange(c, w)
    ensures KeyOf(v) != KeyOf(w) ==>
      HandleConfigChange(HandleConfigChange(c, v), w) == HandleConfigChange(HandleConfigChange(c, w), v)
  {
    ConfigExtensional(HandleConfigChange(c, Get(c, k)), c);
    if KeyOf(v) == KeyOf(w) {
      ConfigExtensional(HandleConfigChange(HandleConfigChange(c, v), w), HandleConfigChange(c, w));
    } else {
      ConfigExtensional(HandleConfigChange(HandleConfigChange(c, v), w),
                        HandleConfigChange(HandleConfigChange(c, w), v));
    }
  }

  /** `handleFormatChange(f)`: only the format changes, to the wrapper of `f`.
      Dimensions and texts are left as they were, so switching to a square
      symbology adjusts nothing. */
  function HandleFormatChange(c: BarcodeConfig, f: BarcodeFormat): (r: BarcodeConfig)
    ensures Get(r, FormatKey) == FormatField(CreateBarcodeFormatWrapper(f))
    ensures forall k :: k != FormatKey ==> Get(r, k) == Get(c, k)
  {
    HandleConfigChange(c, FormatField(CreateBarcodeFormatWrapper(f)))
  }

  /** Switching the format neither mirrors one dimension into the other nor
      resets them: a 50 x 25 mm configuration stays 50 x 25 mm on QRCode. */
  lemma FormatChangeKeepsDimensions(c: BarcodeConfig, f: BarcodeFormat)
    ensures HandleFormatChange(c, f).dimensions == c.dimensions
    ensures HandleFormatChange(c, f).texts == c.texts
    ensures c.dimensions.width_mm != c.dimensions.height_mm ==>
      HandleFormatChange(c, f).dimensions.width_mm != HandleFormatChange(c, f).dimensions.height_mm
  {
    assert Get(HandleFormatChange(c, f), DimensionsKey) == Get(c, DimensionsKey);
    assert Get(HandleFormatChange(c, f), TextsKey) == Get(c, TextsKey);
  }

  // ---------------------------------------------------------------------
  // Fields of one text
  // ---------------------------------------------------------------------

  datatype TextKey = TextKey | ColorKey | SizeKey | PositionKey | FontKey | MarginKey | IdKey

  datatype TextField =
    | TextValue(text: string)
    | ColorValue(color: RgbColor)
    | SizeValue(size: int)
    | PositionValue(position: TextPosition)
    | FontValue(font: string)
    | MarginValue(margin: int)
    | IdValue(id: int)

  function TextKeyOf(v: TextField): TextKey {
    match v
    case TextValue(_) => TextKey
    case ColorValue(_) => ColorKey
    case SizeValue(_) => SizeKey
    case PositionValue(_) => PositionKey
    case FontValue(_) => FontKey
    case MarginValue(_) => MarginKey
    case IdValue(_) => IdKey
  }

  /** Reads one field of a text; an absent `id` reads as absent. */
  function GetText(t: TextStyle, k: TextKey): Option<TextField> {
    match k
    case TextKey => Some(TextValue(t.text))
    case ColorKey => Some(ColorValue(t.text_color))
    case SizeKey => Some(SizeValue(t.text_size))
    case PositionKey => Some(PositionValue(t.text_position))
    case FontKey => Some(FontValue(t.font))
    case MarginKey => Some(MarginValue(t.margin))
    case IdKey => if t.id.Some? then Some(IdValue(t.id.value)) else Option.None
  }

  /** `{ ...text, [field]: value }` */
  function SetText(t: TextStyle, v: TextField): (r: TextStyle)
    ensures GetText(r, TextKeyOf(v)) == Some(v)
    ensures forall k :: k != TextKeyOf(v) ==> GetText(r, k) == GetText(t, k)
  {
    match v
    case TextValue(x) => t.(text := x)
    case ColorValue(x) => t.(text_color := x)
    case SizeValue(x) => t.(text_size := x)
    case PositionValue(x) => t.(text_position := x)
    case FontValue(x) => t.(font := x)
    case MarginValue(x) => t.(margin := x)
    case IdValue(x) => t.(id := Some(x))
  }

  /** `texts.map((t, i) => i === index ? g(t) : t)` for the update `v`. */
  function MapAt(texts: seq<TextStyle>, index: int, v: TextField): (r: seq<TextStyle>)
    ensures |r| == |texts|
    ensures forall i :: 0 <= i < |texts| && i != index ==> r[i] == texts[i]
    ensures 0 <= index < |texts| ==> r[index] == SetText(texts[index], v)
  {
    seq(|texts|, i requires 0 <= i < |texts| => if i == index then SetText(texts[i], v) else texts[i])
  }

  /** `handleTextChange(index, field, value)`: the list keeps its length,
      element `index` changes in field `field` only, and every other element
      and every other config field is unchanged. An index outside the list
      changes nothing. */
  function HandleTextChange(c: BarcodeConfig, index: int, v: TextField): (r: BarcodeConfig)
    ensures forall k :: k != TextsKey ==> Get(r, k) == Get(c, k)
    ensures |r.texts| == |c.texts|
    ensures forall i :: 0 <= i < |c.texts| && i != index ==> r.texts[i] == c.texts[i]
    ensures 0 <= index < |c.texts| ==> GetText(r.texts[index], TextKeyOf(v)) == Some(v)
    ensures 0 <= index < |c.texts| ==>
      forall k :: k != TextKeyOf(v) ==> GetText(r.texts[index], k) == GetText(c.texts[index], k)
    ensures !(0 <= index < |c.texts|) ==> r == c
  {
    var r := HandleConfigChange(c, TextsField(MapAt(c.texts, index, v)));
    if !(0 <= index < |c.texts|) then
      assert r.texts == c.texts;
      ConfigExtensional(r, c);
      r
    else r
  }

  datatype Channel = R | G | B

  function SetChannel(color: RgbColor, ch: Channel, x: int): RgbColor {
    match ch
    case R => color.(r := x)
    case G => color.(g := x)
    case B => color.(b := x)
  }

  function GetChannel(color: RgbColor, ch: Channel): int {
    match ch
    case R => color.r
    case G => color.g
    case B => color.b
  }

  /** `handleColorChange(index, channel, value)`: only that channel of that
      text's colour changes. */
  function HandleColorChange(c: BarcodeConfig, index: int, ch: Channel, x: int): (r: BarcodeConfig)
    ensures forall k :: k != TextsKey ==> Get(r, k) == Get(c, k)
    ensures |r.texts| == |c.texts|
    ensures forall i :: 0 <= i < |c.texts| && i != index ==> r.texts[i] == c.texts[i]
    ensures 0 <= index < |c.texts| ==>
      GetChannel(r.texts[index].text_color, ch) == x
      && (forall other :: other != ch ==>
            GetChannel(r.texts[index].text_color, other) == GetChannel(c.texts[index].text_color, other))
      && (forall k :: k != ColorKey ==> GetText(r.texts[index], k) == GetText(c.texts[index], k))
  {
    var texts := seq(|c.texts|, i requires 0 <= i < |c.texts| =>
      if i == index then c.texts[i].(text_color := SetChannel(c.texts[i].text_color, ch, x))
      else c.texts[i]);
    HandleConfigChange(c, TextsField(texts))
  }

  datatype DimensionKey = HeightPercentage | WidthPercentage | WidthMm | HeightMm

  function Dimension(d: Dimensions, k: DimensionKey): real {
    match k
    case HeightPercentage => d.height_percentage
    case WidthPercentage => d.width_percentage
    case WidthMm => d.width_mm
    case HeightMm => d.height_mm
  }

  /** `handleDimensionsChange(field, value)`: that dimension takes the value;
      the other three, the paired one included, stay as they were. */
  function HandleDimensionsChange(c: BarcodeConfig, k: DimensionKey, x: real): (r: BarcodeConfig)
    ensures forall key :: key != DimensionsKey ==> Get(r, key) == Get(c, key)
    ensures Dimension(r.dimensions, k) == x
    ensures forall other :: other != k ==> Dimension(r.dimensions, other) == Dimension(c.dimensions, other)
  {
    var d := c.dimensions;
    var d' := match k
      case HeightPercentage => d.(height_percentage := x)
      case WidthPercentage => d.(width_percentage := x)
      case WidthMm => d.(width_mm := x)
      case HeightMm => d.(height_mm := x);
    HandleConfigChange(c, DimensionsField(d'))
  }

  /** The text `addText` appends. */
  const NewText: TextStyle := TextStyle("New Text", Black, 12, Lower, "Arial", 5, Option.None)

  /** `addText`: one text appended, the earlier ones untouched. */
  function AddText(c: BarcodeConfig): (r: BarcodeConfig)
    ensures forall k :: k != TextsKey ==> Get(r, k) == Get(c, k)
    ensures |r.texts| == |c.texts| + 1
    ensures r.texts[..|c.texts|] == c.texts
    ensures r.texts[|c.texts|] == NewText
  {
    HandleConfigChange(c, TextsField(c.texts + [NewText]))
  }

  /** `texts.filter((_, i) => i !== index)`, scanning from position `from`. */
  function FilterIndex(texts: seq<TextStyle>, index: int, from: nat): seq<TextStyle>
    requires from <= |texts|
    decreases |texts| - from
  {
    if from == |texts| then []
    else if from == index then FilterIndex(texts, index, from + 1)
    else [texts[from]] + FilterIndex(texts, index, from + 1)
  }

  /** The filter drops exactly position `index` when it lies in the list and
      keeps everything otherwise. */
  lemma {:induction false} FilterIndexRemoves(texts: seq<TextStyle>, index: int, from: nat)
    requires from <= |texts|
    ensures FilterIndex(texts, index, from)
         == if from <= index < |texts| then texts[from..index] + texts[index + 1..] else texts[from..]
    decreases |texts| - from
  {
    if from < |texts| {
      FilterIndexRemoves(texts, index, from + 1);
      if from == index {
        assert texts[from..index] == [];
      } else if from < index < |texts| {
        assert texts[from..index] == [texts[from]] + texts[from + 1..index];
      } else {
        assert texts[from..] == [texts[from]] + texts[from + 1..];
      }
    }
  }

  /** `removeText(index)`: with more than one text, the text at `index` is
      removed and the rest keep their order; with one text (or none) nothing
      happens, so the list is never emptied by a removal. */
  function RemoveText(c: BarcodeConfig, index: int): (r: BarcodeConfig)
    ensures forall k :: k != TextsKey ==> Get(r, k) == Get(c, k)
    ensures |c.texts| <= 1 ==> r == c
    ensures |c.texts| > 1 && 0 <= index < |c.texts| ==>
      r.texts == c.texts[..index] + c.texts[index + 1..] && |r.texts| == |c.texts| - 1
    ensures |c.texts| > 1 && !(0 <= index < |c.texts|) ==> r.texts == c.texts
    ensures |c.texts| >= 1 ==> |r.texts| >= 1
  {
    if |c.texts| > 1 then
      FilterIndexRemoves(c.texts, index, 0);
      assert c.texts[0..] == c.texts;
      HandleConfigChange(c, TextsField(FilterIndex(c.texts, index, 0)))
    else c
  }

  // ---------------------------------------------------------------------
  // Generation
  // ---------------------------------------------------------------------

  /** What the preview shows: nothing yet, or the PNG of the last success. */
  datatype Preview = NoPreview | Png(bytes: seq<int>)

  /** The page's state. `pending` holds the configuration each unfinished
      `generate_barcode` call was made with, oldest first. */
  datatype HomeState = HomeState(
    config: BarcodeConfig,
    autoGenerate: bool,
    isGenerating: bool,
    preview: Preview,
    pending: seq<BarcodeConfig>)

  /** The configuration the page starts with (the same as the default one,
      except that the text carries no `id`). */
  const InitialConfig: BarcodeConfig := BarcodeConfig(
    CreateBarcodeFormatWrapper(Code128),
    [TextStyle("123456789", Black, 12, Lower, "Arial", 5, Option.None)],
    2, true, Dimensions(100.0, 100.0, 50.0, 25.0), "123456789")

  /** The state hooks start in, before any effect has run: auto-generate
      on, nothing generating, no preview. */
  const Initial: HomeState := HomeState(InitialConfig, true, false, NoPreview, [])

  /** `config.data.trim()` is truthy. */
  predicate HasData(c: BarcodeConfig) {
    |Trim(c.data)| > 0
  }

  /** `generateBarcode()` up to the remote call: blank data returns at once,
      otherwise the call starts with the current configuration. */
  function Generate(st: HomeState): (r: HomeState)
    ensures HasData(st.config) <==> |r.pending| == |st.pending| + 1
    ensures HasData(st.config) ==> r.pending[|st.pending|] == st.config && r.isGenerating
    ensures |st.pending| <= |r.pending| && r.pending[..|st.pending|] == st.pending
    ensures r.config == st.config && r.autoGenerate == st.autoGenerate && r.preview == st.preview
    ensures !HasData(st.config) ==> r.pending == st.pending && r.isGenerating == st.isGenerating
  {
    if !HasData(st.config) then st
    else st.(isGenerating := true, pending := st.pending + [st.config])
  }

  /** The effect on `[config, autoGenerate]`. */
  function Effect(st: HomeState): HomeState {
    if st.autoGenerate && HasData(st.config) then Generate(st) else st
  }

  /** The page after mounting: the effect on `[config, autoGenerate]` runs
      once on the initial state. */
  const Mounted: HomeState := Effect(Initial)

  /** Auto-generate starts on and the initial data is not blank, so the
      page's first state already has one generation pending, with the
      initial configuration, and the button disabled. */
  lemma MountStartsGeneration()
    ensures Mounted.pending == [InitialConfig] && Mounted.isGenerating
    ensures Mounted.config == InitialConfig && Mounted.autoGenerate && Mounted.preview == NoPreview
    ensures !ButtonEnabled(Mounted)
  {
    assert HasData(InitialConfig) by {
      var d := InitialConfig.data;
      assert d[0] == '1';
      assert !IsBlank(d);
      TrimEmptyIffBlank(d);
    }
    assert Mounted == Initial.(isGenerating := true, pending := [InitialConfig]);
  }

  /** An edit through one of the handlers. */
  datatype Edit =
    | ConfigChange(v: ConfigField)
    | FormatChange(f: BarcodeFormat)
    | TextChange(index: int, tv: TextField)
    | ColorChange(cindex: int, ch: Channel, x: int)
    | DimensionsChange(k: DimensionKey, d: real)
    | AddTextEdit
    | RemoveTextEdit(rindex: int)

  function Apply(c: BarcodeConfig, e: Edit): BarcodeConfig {
    match e
    case ConfigChange(v) => HandleConfigChange(c, v)
    case FormatChange(f) => HandleFormatChange(c, f)
    case TextChange(i, v) => HandleTextChange(c, i, v)
    case ColorChange(i, ch, x) => HandleColorChange(c, i, ch, x)
    case DimensionsChange(k, x) => HandleDimensionsChange(c, k, x)
    case AddTextEdit => AddText(c)
    case RemoveTextEdit(i) => RemoveText(c, i)
  }

  /** Every handler installs a fresh object, which re-runs the effect; the
      one exception is `removeText` on a single text, which does not call
      `setConfig` at all. */
  predicate SetsConfig(c: BarcodeConfig, e: Edit) {
    !(e.RemoveTextEdit? && |c.texts| <= 1)
  }

  /** An edit, followed by the effect when the configuration was replaced.
      A generation starts exactly when auto-generate is on, the edit
      replaced the configuration, and the new data is not blank; it then
      uses the edited configuration. */
  function OnEdit(st: HomeState, e: Edit): (r: HomeState)
    ensures r.config == Apply(st.config, e)
    ensures r.autoGenerate == st.autoGenerate && r.preview == st.preview
    ensures var fires := st.autoGenerate && SetsConfig(st.config, e) && HasData(Apply(st.config, e));
      (fires ==> r.pending == st.pending + [Apply(st.config, e)] && r.isGenerating)
      && (!fires ==> r.pending == st.pending && r.isGenerating == st.isGenerating)
  {
    var st' := st.(config := Apply(st.config, e));
    if SetsConfig(st.config, e) then Effect(st') else st'
  }

  /** The auto-generate toggle, followed by the effect. */
  function ToggleAuto(st: HomeState): (r: HomeState)
    ensures r.autoGenerate == !st.autoGenerate && r.config == st.config
    ensures (!st.autoGenerate && HasData(st.config)) <==> |r.pending| == |st.pending| + 1
    ensures |r.pending| == |st.pending| ==> r.pending == st.pending
    ensures |r.pending| == |st.pending| + 1 ==> r.pending[|st.pending|] == st.config && r.isGenerating
  {
    Effect(st.(autoGenerate := !st.autoGenerate))
  }

  /** The button's `disabled={isGenerating || !config.data.trim()}`. */
  predicate ButtonEnabled(st: HomeState) {
    !st.isGenerating && HasData(st.config)
  }

  /** A click on the generate button; a disabled button ignores it. */
  function Click(st: HomeState): (r: HomeState)
    ensures ButtonEnabled(st) <==> |r.pending| == |st.pending| + 1
    ensures ButtonEnabled(st) ==> r.pending[|st.pending|] == st.config && r.isGenerating
    ensures !ButtonEnabled(st) ==> r == st
  {
    if ButtonEnabled(st) then Generate(st) else st
  }

  /** The button is enabled exactly when no generation is flagged and the
      data holds something other than white space. */
  lemma ButtonEnabledIff(st: HomeState)
    ensures ButtonEnabled(st) <==> !st.isGenerating && !IsBlank(st.config.data)
  {
    TrimEmptyIffBlank(st.config.data);
  }

  /** The reply to one `generate_barcode` call. */
  datatype Reply = Succeeded(png: seq<int>) | Failed

  /** Completion of the call at position `k` of `pending`: a success shows
      its image, a failure keeps the preview; either way `isGenerating` is
      cleared, whatever else is still pending. */
  function Complete(st: HomeState, k: nat, reply: Reply): (r: HomeState)
    requires k < |st.pending|
    ensures r.config == st.config && r.autoGenerate == st.autoGenerate
    ensures !r.isGenerating
    ensures r.pending == st.pending[..k] + st.pending[k + 1..]
    ensures reply.Succeeded? ==> r.preview == Png(reply.png)
    ensures reply.Failed? ==> r.preview == st.preview
  {
    st.(isGenerating := false,
        preview := if reply.Succeeded? then Png(reply.png) else st.preview,
        pending := st.pending[..k] + st.pending[k + 1..])
  }

  /** No ordering between calls: when an older call finishes after a newer
      one, its image replaces the newer one's. */
  lemma LastCompletionWins(st: HomeState, older: seq<int>, newer: seq<int>)
    requires |st.pending| == 2
    ensures var afterNewer := Complete(st, 1, Succeeded(newer));
      Complete(afterNewer, 0, Succeeded(older)).preview == Png(older)
  {
  }

  /** The flag drops at the first completion even though another call is
      still running, which re-enables the button. */
  lemma FlagClearedEarly(st: HomeState, reply: Reply)
    requires |st.pending| == 2 && HasData(st.config)
    ensures var r := Complete(st, 0, reply);
      |r.pending| == 1 && ButtonEnabled(r)
  {
  }
}

=== FILE: interfaces.dfy ===
/** The frontend's configuration records (frontend/src/lib/interfaces.ts).
    Numbers that the UI only ever fills from `parseInt` are `int`; the
    dimension fields are `real`. */
module Interfaces {
  import opened Formats
  import opened Wrappers

  /** `{ format: string }`: the symbology travels as its name. */
  datatype FormatWrapper = FormatWrapper(format: string)

  datatype RgbColor = RgbColor(r: int, g: int, b: int)

  /** One decoration text. `id` is optional because the editor page builds
      its texts without one. */
  datatype TextStyle = TextStyle(
    text: string,
    text_color: RgbColor,
    text_size: int,
    text_position: TextPosition,
    font: string,
    margin: int,
    id: Option<int>)

  datatype Dimensions = Dimensions(
    height_percentage: real,
    width_percentage: real,
    width_mm: real,
    height_mm: real)

  datatype BarcodeConfig = BarcodeConfig(
    format: FormatWrapper,
    texts: seq<TextStyle>,
    scale: int,
    quiet_zones: bool,
    dimensions: Dimensions,
    data: string)

  datatype Template = Template(config: BarcodeConfig, name: string, description: string, id: string)

  const Black: RgbColor := RgbColor(0, 0, 0)

  /** `createBarcodeFormatWrapper`: the wrapper carries the format's name, so
      two formats give the same wrapper only if they are the same format. */
  function CreateBarcodeFormatWrapper(f: BarcodeFormat): (w: FormatWrapper)
    ensures w.format == Name(f)
    ensures forall g :: FormatWrapper(Name(g)) == w <==> g == f
  {
    NameInjectiveAll(f);
    FormatWrapper(Name(f))
  }

  lemma NameInjectiveAll(f: BarcodeFormat)
    ensures forall g :: Name(g) == Name(f) <==> g == f
  {
    forall g ensures Name(g) == Name(f) <==> g == f {
      NameInjective(f, g);
    }
  }

  /** `createDefaultBarcodeConfig`; `now` stands for `Date.now()`. */
  function CreateDefaultBarcodeConfig(now: int): BarcodeConfig {
    BarcodeConfig(
      CreateBarcodeFormatWrapper(Code128),
      [TextStyle("123456789", Black, 12, Lower, "Arial", 5, Some(now))],
      2, true, Dimensions(100.0, 100.0, 50.0, 25.0), "123456789")
  }

  /** `getAvailableBarcodeFormats`: the first nineteen members in declaration
      order, which leaves out DXFilmEdge and the four pseudo-formats. */
  function GetAvailableBarcodeFormats(): (fs: seq<BarcodeFormat>)
    ensures fs == AllFormats[..19]
    ensures forall i, j :: 0 <= i < j < |fs| ==> fs[i] != fs[j]
    ensures DXFilmEdge !in fs && LinearCodes !in fs && MatrixCodes !in fs
    ensures Any !in fs && BarcodeFormat.None !in fs
  {
    AllFormatsDistinct();
    [ Code128, Code39, QRCode, EAN13, EAN8, UPCA, UPCE, DataMatrix, PDF417,
      Aztec, Codabar, Code93, DataBar, DataBarExpanded, DataBarLimited, ITF,
      MaxiCode, MicroQRCode, RMQRCode ]
  }
}

=== FILE: ints.dfy ===
/** The fixed-width integer types of the Rust side, as subset types of `int`.
    Arithmetic on them is unbounded; where the source's width matters the
    model spells out the overflow check or the saturation explicitly. */
module Ints {
  type u8 = x: int | 0 <= x < 0x100
  type u32 = x: int | 0 <= x < 0x1_0000_0000
  type i32 = x: int | -0x8000_0000 <= x < 0x8000_0000

  const U32_MAX: u32 := 0xFFFF_FFFF

  function Max(a: int, b: int): (m: int)
    ensures m >= a && m >= b && (m == a || m == b)
  {
    if a >= b then a else b
  }

  function Min(a: int, b: int): (m: int)
    ensures m <= a && m <= b && (m == a || m == b)
  {
    if a <= b then a else b
  }

  /** Rust's `/` on signed integers: the quotient is truncated toward zero
      (Dafny's own `/` is Euclidean). */
  function TruncDiv(a: int, b: int): (q: int)
    requires b > 0
    ensures a >= 0 ==> q == a / b
    ensures a < 0 ==> q == -((-a) / b)
    ensures a < 0 ==> q <= 0
  {
    if a >= 0 then a / b else -((-a) / b)
  }

  /** A `real` converted with `as u32`: truncation toward zero, saturating
      at 0 below and at `U32_MAX` above. */
  function RealToU32(x: real): (r: u32)
    ensures x <= 0.0 ==> r == 0
    ensures 0.0 <= x < 0x1_0000_0000 as real ==> r as real <= x < r as real + 1.0
    ensures x >= 0x1_0000_0000 as real ==> r == U32_MAX
  {
    if x <= 0.0 then 0 else Min(x.Floor, U32_MAX)
  }

  /** The cast gives a whole number in range back, and never exceeds a
      bound its argument stays under. */
  lemma RealToU32Whole(n: u32)
    ensures RealToU32(n as real) == n
  {
  }

  lemma RealToU32Below(x: real, n: u32)
    requires x <= n as real
    ensures RealToU32(x) <= n
  {
  }

  lemma RealToU32Monotone(x: real, y: real)
    requires x <= y
    ensures RealToU32(x) <= RealToU32(y)
  {
    if 0.0 < x {
      assert x.Floor <= y.Floor;
    }
  }

  /** `f32::round` followed by `as u32`: halves round away from zero, a
      negative result saturates to 0 and one past the range to `U32_MAX`. */
  function RoundToU32(x: real): (r: u32)
    ensures x < 0.0 ==> r == 0
    ensures 0.0 <= x && x + 0.5 < 0x1_0000_0000 as real ==> x - 0.5 < r as real <= x + 0.5
    ensures x + 0.5 >= 0x1_0000_0000 as real ==> r == U32_MAX
  {
    if x < 0.0 then 0 else Min((x + 0.5).Floor, U32_MAX)
  }

  /** `u32 as i32`: the bits are reinterpreted, so values from 2^31 on
      become negative. */
  function AsI32(x: u32): (r: i32)
    ensures x < 0x8000_0000 ==> r == x
    ensures x >= 0x8000_0000 ==> r == x - 0x1_0000_0000
  {
    if x < 0x8000_0000 then x else x - 0x1_0000_0000
  }

  /** Whether a result fits a `u32`: Rust's `+` and `-` on `u32` panic in a
      debug build when it does not. */
  predicate FitsU32(x: int) {
    0 <= x < 0x1_0000_0000
  }

  predicate FitsI32(x: int) {
    -0x8000_0000 <= x < 0x8000_0000
  }

  /** Integer facts the grid arithmetic needs. */
  lemma MulBetween(k: int, c: int)
    requires c > 0 && -c < k * c < c
    ensures k == 0
  {
  }

  /** Division by `c` undoes `q * c + r` for a remainder below `c`. */
  lemma DivMulAdd(q: nat, r: nat, c: nat)
    requires 0 <= r < c
    ensures (q * c + r) / c == q && (q * c + r) % c == r
  {
    var x := q * c + r;
    var d := x / c;
    var m := x % c;
    assert d * c + m == x;
    assert (d - q) * c == r - m;
    MulBetween(d - q, c);
  }

  lemma DivAddOne(a: nat, c: nat)
    requires c >= 1
    ensures (a + c) / c == a / c + 1
  {
    DivMulAdd(a / c + 1, a % c, c);
    assert a + c == (a / c + 1) * c + a % c;
  }

  lemma LessMul(a: nat, b: nat, c: nat)
    requires a * c < b * c
    ensures a < b
  {
  }

  lemma MulMonotone(a: nat, b: nat, k: nat)
    requires a <= b
    ensures a * k <= b * k
  {
  }

  lemma DivMonotone(a: nat, b: nat, c: nat)
    requires a <= b && c >= 1
    ensures a / c <= b / c
  {
    if a / c > b / c {
      MulMonotone(b / c + 1, a / c, c);
    }
  }
}

=== FILE: lib_bulk_generator.dfy ===
/** The older `BulkGenerator` of src/lib/bulk_generator.rs: the same row
    mapping through the persistent builder of the older configuration,
    except that the format is never set, and nothing is returned but
    success or the first failure. Reading the table from a file is left
    out. */
module LibBulkGenerator {
  import opened Ints
  import opened Formats
  import opened Wrappers
  import opened GeneratorConfig
  import opened LibConfig
  import opened TextLayout
  import opened Generator
  import opened LibGenerator
  import opened Batches
  import opened BulkGenerator

  /** What the older generator calls out to. */
  datatype LibBackend = LibBackend(encode: Encoder, textWidth: LibText -> i32, saved: string -> bool)

  /** The texts a row adds in the older copy: the upper one when not
      empty, then the lower one when not empty. */
  function LibRowTexts(row: ImportRow): seq<LibText> {
    (if row.upperCenterText != "" then [LibText(row.upperCenterText, TextRed, row.fontSize, UpperCenter, "DejaVuSans", 5)] else [])
    + (if row.lowerCenterText != "" then [LibText(row.lowerCenterText, TextRed, row.fontSize, LowerCenter, "DejaVuSans", 5)] else [])
  }

  /** The builder chain of one row: the non-empty texts, scale, height and
      width percentages; the format stays the builder's default. */
  function LibRowConfig(row: ImportRow): (c: LibBarcodeConfig)
    ensures c.format == Code128 && c.quiet_zones
    ensures c.texts == LibRowTexts(row)
    ensures c.scale == row.scale
    ensures c.dimensions == DefaultDimensions.(height_percentage := row.heightPercentage,
                                               width_percentage := row.widthPercentage)
  {
    var b := NewLibBuilder();
    var b := if row.upperCenterText != "" then LibAddText(b, row.upperCenterText, TextRed, row.fontSize, UpperCenter) else b;
    var b := if row.lowerCenterText != "" then LibAddText(b, row.lowerCenterText, TextRed, row.fontSize, LowerCenter) else b;
    var b := LibSetScale(b, row.scale);
    var b := LibResizePercentage(b, HeightPercentage, row.heightPercentage);
    var b := LibResizePercentage(b, WidthPercentage, row.widthPercentage);
    DimensionsExtensional(LibBuild(b).dimensions,
                          DefaultDimensions.(height_percentage := row.heightPercentage, width_percentage := row.widthPercentage));
    LibBuild(b)
  }

  /** A text of the newer configuration in the older one's shape. */
  function AsLibText(t: TextStyleInternal): LibText {
    LibText(t.text, t.text_color, t.text_size, t.text_position, t.font, t.margin)
  }

  /** The two copies add the same texts for a row, in the same order. */
  lemma TextsAgree(row: ImportRow)
    ensures |LibRowTexts(row)| == |RowTexts(row)|
    ensures forall i :: 0 <= i < |RowTexts(row)| ==> LibRowTexts(row)[i] == AsLibText(TextToInternal(RowTexts(row)[i]))
  {
    RgbRoundTrip(WrapperOfRgb(TextRed), TextRed);
  }

  /** The two copies map a row to the same configuration but for the
      format (Code128 here, Code39 in the newer copy) and the data field the
      older configuration lacks: the same texts in the same order, the same
      scale, dimensions and quiet-zone flag. */
  lemma RowConfigsAgree(row: ImportRow)
    ensures var older := LibRowConfig(row); var newer := ToInternal(RowConfig(row));
      older.format == Code128 && newer.format == Code39
      && |older.texts| == |newer.texts|
      && (forall i :: 0 <= i < |older.texts| ==> older.texts[i] == AsLibText(newer.texts[i]))
      && older.scale == newer.scale && older.dimensions == newer.dimensions && older.quiet_zones == newer.quiet_zones
  {
    TextsAgree(row);
  }

  /** One row through the older `generate_barcode_png`. */
  function LibGenerateRow(row: ImportRow, be: LibBackend): (r: Result<Size, GenError>)
    ensures r.Ok? ==> be.saved(OutputPath(row.value))
    ensures be.encode(Code128, row.value, false, row.scale).Err? ==>
      r == Err(EncodeFailed(be.encode(Code128, row.value, false, row.scale).error))
  {
    LibGeneratePng(row.value, LibRowConfig(row), OutputPath(row.value), be.encode, be.textWidth, be.saved(OutputPath(row.value)))
  }

  function LibRowResults(rows: seq<ImportRow>, be: LibBackend): (rs: seq<Result<Size, GenError>>)
    ensures |rs| == |rows|
    ensures forall i :: 0 <= i < |rows| ==> rs[i] == LibGenerateRow(rows[i], be)
  {
    seq(|rows|, i requires 0 <= i < |rows| => LibGenerateRow(rows[i], be))
  }

  /** The rows in order, the first failure ending the run; success carries
      nothing. */
  function LibGenerateAll(rows: seq<ImportRow>, be: LibBackend): Result<(), GenError> {
    var _ :- Collect(LibRowResults(rows, be));
    Ok(())
  }

  /** The run succeeds exactly when every row does; otherwise its error is
      that of the first row that fails. */
  lemma LibGenerateAllSpec(rows: seq<ImportRow>, be: LibBackend)
    ensures LibGenerateAll(rows, be).Ok? <==> forall i :: 0 <= i < |rows| ==> LibGenerateRow(rows[i], be).Ok?
    ensures LibGenerateAll(rows, be).Err? ==>
      exists k :: 0 <= k < |rows| && LibGenerateRow(rows[k], be) == Err(LibGenerateAll(rows, be).error)
        && forall i :: 0 <= i < k ==> LibGenerateRow(rows[i], be).Ok?
  {
    CollectSpec(LibRowResults(rows, be));
  }

  /** `generate_barcodes` of the older copy. */
  method LibGenerateBarcodes(rows: seq<ImportRow>, be: LibBackend) returns (r: Result<(), GenError>)
    ensures r == LibGenerateAll(rows, be)
  {
    ghost var rs := LibRowResults(rows, be);
    ghost var done: seq<Size> := [];
    var i := 0;
    while i < |rows|
      invariant 0 <= i <= |rows|
      invariant Collect(rs) == Prepend(done, Collect(rs[i..]))
    {
      var g := LibGenerateRow(rows[i], be);
      CollectStep(rs, i, done);
      if g.Err? {
        return Err(g.error);
      }
      done := done + [g.value];
      i := i + 1;
    }
    assert rs[i..] == [];
    r := Ok(());
  }
}

=== FILE: lib_config.dfy ===
/** The older configuration of src/lib/barcode_config.rs: no data field, the
    format held directly, colours as pixels, and a persistent builder whose
    methods take `&self` and return a new builder. The dimension record is
    the same as the generator's and is shared with it. */
module LibConfig {
  import opened Ints
  import opened Formats
  import opened GeneratorConfig

  /** `BarcodeTextStyleConfig` of the older copy. */
  datatype LibText = LibText(
    text: string,
    text_color: Rgb,
    text_size: u32,
    text_position: TextPosition,
    font: string,
    margin: u32)

  /** `BarcodeConfig` of the older copy. */
  datatype LibBarcodeConfig = LibBarcodeConfig(
    format: BarcodeFormat,
    texts: seq<LibText>,
    scale: i32,
    quiet_zones: bool,
    dimensions: BarcodeDimensions)

  datatype LibBuilder = LibBuilder(config: LibBarcodeConfig)

  /** `BarcodeConfigBuilder::new()` with `default_config()`. */
  function NewLibBuilder(): (b: LibBuilder)
    ensures b.config.format == Code128 && b.config.texts == []
    ensures b.config.scale == 10 && b.config.quiet_zones
    ensures b.config.dimensions == DefaultDimensions
  {
    LibBuilder(LibBarcodeConfig(Code128, [], 10, true, DefaultDimensions))
  }

  /** `set_format`: a new builder whose configuration differs only in the
      format. The receiver is a value and stays as it was. */
  function LibSetFormat(b: LibBuilder, f: BarcodeFormat): (r: LibBuilder)
    ensures r.config.format == f && r.config == b.config.(format := r.config.format)
  {
    LibBuilder(b.config.(format := f))
  }

  function LibSetScale(b: LibBuilder, scale: i32): (r: LibBuilder)
    ensures r.config.scale == scale && r.config == b.config.(scale := r.config.scale)
  {
    LibBuilder(b.config.(scale := scale))
  }

  /** `add_text`: the clone of the list gets one more entry at the end,
      with margin 5 and font "DejaVuSans". */
  function LibAddText(b: LibBuilder, text: string, color: Rgb, size: u32, position: TextPosition): (r: LibBuilder)
    ensures |r.config.texts| == |b.config.texts| + 1
    ensures r.config.texts[..|b.config.texts|] == b.config.texts
    ensures var t := r.config.texts[|b.config.texts|];
      t.text == text && t.text_color == color && t.text_size == size
      && t.text_position == position && t.margin == 5 && t.font == "DejaVuSans"
    ensures r.config == b.config.(texts := r.config.texts)
  {
    LibBuilder(b.config.(texts := b.config.texts + [LibText(text, color, size, position, "DejaVuSans", 5)]))
  }

  /** `resize_height_percentage` / `resize_width_percentage`. */
  function LibResizePercentage(b: LibBuilder, k: DimensionField, v: real): (r: LibBuilder)
    requires k == HeightPercentage || k == WidthPercentage
    ensures DimensionOf(r.config.dimensions, k) == v
    ensures forall j :: j != k ==> DimensionOf(r.config.dimensions, j) == DimensionOf(b.config.dimensions, j)
    ensures r.config == b.config.(dimensions := r.config.dimensions)
  {
    LibBuilder(b.config.(dimensions := Resize(b.config.dimensions, k, v)))
  }

  /** `build()`: the configuration held, unchanged. */
  function LibBuild(b: LibBuilder): LibBarcodeConfig {
    b.config
  }

  /** One builder call, for describing chains. */
  datatype Step =
    | SetFormatStep(format: BarcodeFormat)
    | SetScaleStep(scale: i32)
    | AddTextStep(text: string, color: Rgb, size: u32, position: TextPosition)
    | ResizeStep(height: bool, percentage: real)

  function Apply(b: LibBuilder, s: Step): LibBuilder {
    match s
    case SetFormatStep(f) => LibSetFormat(b, f)
    case SetScaleStep(n) => LibSetScale(b, n)
    case AddTextStep(t, c, z, p) => LibAddText(b, t, c, z, p)
    case ResizeStep(h, v) => LibResizePercentage(b, if h then HeightPercentage else WidthPercentage, v)
  }

  /** A chain of calls, first to last. */
  function Chain(b: LibBuilder, steps: seq<Step>): LibBuilder
    decreases |steps|
  {
    if |steps| == 0 then b else Chain(Apply(b, steps[0]), steps[1..])
  }

  /** The entries the text steps of a chain add, in call order. */
  function AddedTexts(steps: seq<Step>): seq<LibText>
    decreases |steps|
  {
    if |steps| == 0 then []
    else
      (if steps[0].AddTextStep? then
         [LibText(steps[0].text, steps[0].color, steps[0].size, steps[0].position, "DejaVuSans", 5)]
       else [])
      + AddedTexts(steps[1..])
  }

  /** The last format a chain sets, if any. */
  function LastFormat(steps: seq<Step>, current: BarcodeFormat): BarcodeFormat
    decreases |steps|
  {
    if |steps| == 0 then current
    else LastFormat(steps[1..], if steps[0].SetFormatStep? then steps[0].format else current)
  }

  /** After a chain, the texts are the earlier ones followed by those the
      chain added in call order, the format is the last one set, and the
      quiet-zone flag is untouched (no call changes it). */
  lemma {:induction false} ChainEffect(b: LibBuilder, steps: seq<Step>)
    ensures LibBuild(Chain(b, steps)).texts == b.config.texts + AddedTexts(steps)
    ensures LibBuild(Chain(b, steps)).format == LastFormat(steps, b.config.format)
    ensures LibBuild(Chain(b, steps)).quiet_zones == b.config.quiet_zones
    decreases |steps|
  {
    if |steps| > 0 {
      ChainEffect(Apply(b, steps[0]), steps[1..]);
      if steps[0].AddTextStep? {
        assert Apply(b, steps[0]).config.texts == b.config.texts + AddedTexts(steps[..1]);
      }
    }
  }
}

=== FILE: lib_generator.dfy ===
/** The older `Generator` of src/lib/generator.rs with the editor of
    src/lib/image_editor.rs. It differs from the generator copy in four
    ways: quiet zones are always off, there is no millimetre target, both
    percentage resizes start from the encoded image, and the font is built
    into the program, so loading it cannot fail. */
module LibGenerator {
  import opened Ints
  import opened Formats
  import opened Wrappers
  import opened GeneratorConfig
  import opened LibConfig
  import opened TextLayout
  import opened Generator

  /** `resize_width_percentage`: `(width as f32 * (p / 100.0)) as u32`,
      height kept. One hundred percent is the identity and no percentage up
      to 100 makes the image wider. */
  function WidthPct(s: Size, p: real): (r: Size)
    ensures r.height == s.height
    ensures p == 100.0 ==> r == s
    ensures 0.0 <= p <= 100.0 ==> r.width <= s.width
    ensures s.width as real * (p / 100.0) <= 0.0 ==> r.width == 0
  {
    ScaledSide(s.width, p);
    Size(RealToU32(s.width as real * (p / 100.0)), s.height)
  }

  /** `resize_height_percentage`: the same on the height. */
  function HeightPct(s: Size, p: real): (r: Size)
    ensures r.width == s.width
    ensures p == 100.0 ==> r == s
    ensures 0.0 <= p <= 100.0 ==> r.height <= s.height
    ensures s.height as real * (p / 100.0) <= 0.0 ==> r.height == 0
  {
    ScaledSide(s.height, p);
    Size(s.width, RealToU32(s.height as real * (p / 100.0)))
  }

  /** One side scaled by a percentage and cast back. */
  lemma ScaledSide(n: u32, p: real)
    ensures p == 100.0 ==> RealToU32(n as real * (p / 100.0)) == n
    ensures 0.0 <= p <= 100.0 ==> RealToU32(n as real * (p / 100.0)) <= n
  {
    if p == 100.0 {
      assert n as real * (p / 100.0) == n as real;
      RealToU32Whole(n);
    }
    if 0.0 <= p <= 100.0 {
      FractionBelowOne(p);
      ScaleBelow(n, p / 100.0);
    }
  }

  lemma FractionBelowOne(p: real)
    requires 0.0 <= p <= 100.0
    ensures 0.0 <= p / 100.0 <= 1.0
  {
  }

  /** A side scaled by a fraction of one never grows. */
  lemma ScaleBelow(n: u32, q: real)
    requires 0.0 <= q <= 1.0
    ensures RealToU32(n as real * q) <= n
  {
    var x := n as real;
    assert 0.0 <= x;
    var d := 1.0 - q;
    assert 0.0 <= d;
    assert 0.0 <= x * d;
    assert x * q == x - x * d;
    RealToU32Below(x * q, n);
  }

  /** The image before the texts: the height resize, when the height
      percentage is not 100, is taken from the encoded image and so replaces
      the width resize. */
  function LibResized(c: LibBarcodeConfig, encoded: Size): (r: Size)
    ensures c.dimensions.height_percentage != 100.0 ==> r == HeightPct(encoded, c.dimensions.height_percentage)
    ensures c.dimensions.height_percentage == 100.0 && c.dimensions.width_percentage != 100.0 ==>
      r == WidthPct(encoded, c.dimensions.width_percentage)
    ensures c.dimensions.height_percentage == 100.0 && c.dimensions.width_percentage == 100.0 ==> r == encoded
  {
    var image := if c.dimensions.width_percentage != 100.0 then WidthPct(encoded, c.dimensions.width_percentage) else encoded;
    if c.dimensions.height_percentage != 100.0 then HeightPct(encoded, c.dimensions.height_percentage) else image
  }

  function LibBoxes(texts: seq<LibText>, textWidth: LibText -> i32): (bs: seq<TextBox>)
    ensures |bs| == |texts|
    ensures forall i :: 0 <= i < |texts| ==> bs[i] == TextBox(texts[i].text_size, texts[i].text_position, textWidth(texts[i]))
  {
    seq(|texts|, i requires 0 <= i < |texts| => TextBox(texts[i].text_size, texts[i].text_position, textWidth(texts[i])))
  }

  /** `generate_barcode_png` of the older copy; the result is the size of
      the image written to the file. */
  function LibGeneratePng(data: string, c: LibBarcodeConfig, filename: string,
                          encode: Encoder, textWidth: LibText -> i32, saveOk: bool): (r: Result<Size, GenError>)
    ensures var e := encode(c.format, data, false, c.scale);
      e.Err? ==> r == Err(EncodeFailed(e.error))
    ensures r.Ok? ==> saveOk
    ensures r.Ok? ==> ApplyTexts(LibResized(c, encode(c.format, data, false, c.scale).value), LibBoxes(c.texts, textWidth)) == Ok(r.value)
  {
    var size :- (match encode(c.format, data, false, c.scale) case Ok(s) => Ok(s) case Err(e) => Err(EncodeFailed(e)));
    var final :- (match ApplyTexts(LibResized(c, size), LibBoxes(c.texts, textWidth))
                  case Ok(s) => Ok(s) case Err(_) => Err(LayoutPanic));
    if saveOk then Ok(final) else Err(SaveFailed)
  }

  /** The configured quiet-zone flag has no effect. */
  lemma QuietZonesIgnored(data: string, c: LibBarcodeConfig, filename: string,
                          encode: Encoder, textWidth: LibText -> i32, saveOk: bool)
    ensures LibGeneratePng(data, c, filename, encode, textWidth, saveOk)
         == LibGeneratePng(data, c.(quiet_zones := !c.quiet_zones), filename, encode, textWidth, saveOk)
  {
  }

  /** The saved image keeps the resized width and adds one band per visible
      text. With a height percentage other than 100 the width percentage is
      lost: the saved width is the encoded width, whatever the width
      percentage says. */
  lemma LibGeneratedSize(data: string, c: LibBarcodeConfig, filename: string,
                         encode: Encoder, textWidth: LibText -> i32)
    requires LibGeneratePng(data, c, filename, encode, textWidth, true).Ok?
    ensures var e := encode(c.format, data, false, c.scale).value;
      var out := LibGeneratePng(data, c, filename, encode, textWidth, true).value;
      out.width == LibResized(c, e).width
      && out.height == LibResized(c, e).height + BandHeight(LibBoxes(c.texts, textWidth))
      && (c.dimensions.height_percentage != 100.0 ==> out.width == e.width)
  {
    var e := encode(c.format, data, false, c.scale).value;
    ApplyTextsSize(LibResized(c, e), LibBoxes(c.texts, textWidth));
  }

  /** `generate_barcode_svg` of the older copy. */
  function LibGenerateSvg(data: string, c: LibBarcodeConfig, filename: string,
                          svg: (BarcodeFormat, string) -> Result<string, string>,
                          writeOk: bool): (r: Result<(), GenError>)
    ensures r.Ok? <==> svg(c.format, data).Ok? && writeOk
    ensures svg(c.format, data).Err? ==> r == Err(EncodeFailed(svg(c.format, data).error))
  {
    var _ :- (match svg(c.format, data) case Ok(t) => Ok(t) case Err(e) => Err(EncodeFailed(e)));
    if writeOk then Ok(()) else Err(SaveFailed)
  }
}

=== FILE: lib_pdf_exporter.dfy ===
/** The older `PdfExporter` of src/lib/exporting/pdf_exporter.rs: an A4
    sheet at 300 DPI with a fixed 20-pixel margin, columns counted between
    the margins, and red borders on every barcode. */
module LibPdfExporter {
  import opened Ints
  import opened Wrappers
  import opened Paper
  import opened Generator
  import opened Grid
  import opened PdfExporter

  /** The border colour of this copy. */
  const Red := Rgb(255, 0, 0)

  /** `create_barcode_grid_image` of the older copy. */
  function LibCreateBarcodeGridImage(barcodes: seq<Generated>): (r: Result<Sheet, ExportPanic>)
    ensures |barcodes| == 0 ==> r == Err(EmptyInput)
    ensures |barcodes| > 0 ==> (r.Ok? <==> (barcodes[0].buffer.width > 0
      && PlacementsFit(PlaceAll(Sizes(barcodes), Columns(2480, 20, barcodes[0].buffer.width).value, 20, 20,
                                barcodes[0].buffer.width, barcodes[0].buffer.height, true))))
    ensures |barcodes| > 0 && barcodes[0].buffer.width == 0 ==> r == Err(DivideByZero)
    ensures |barcodes| > 0 && barcodes[0].buffer.width > 0 && r.Err? ==> r == Err(Overflow)
    ensures r.Ok? ==> ((r.value.width, r.value.height) == (2480, 3508)
      && r.value.marginX == 20 && r.value.marginY == 20
      && r.value.borderColor == Red
      && r.value.cellWidth == barcodes[0].buffer.width && r.value.cellHeight == barcodes[0].buffer.height
      && Columns(2480, 20, r.value.cellWidth) == Ok(r.value.cols))
  {
    if |barcodes| == 0 then Err(EmptyInput)
    else
      var bw := barcodes[0].buffer.width;
      var bh := barcodes[0].buffer.height;
      var cols :- Columns(2480, 20, bw);
      var placed := PlaceAll(Sizes(barcodes), cols, 20, 20, bw, bh, true);
      if !PlacementsFit(placed) then Err(Overflow)
      else Ok(Sheet(2480, 3508, cols, 20, 20, bw, bh, Red, placed))
  }

  /** The older sheet panics on a `u32` overflow as soon as the last
      barcode's top edge passes 2^32 - 1, and is drawn whenever the columns
      and the row below the last barcode end within `u32`. */
  lemma LibSheetOverflow(barcodes: seq<Generated>)
    requires |barcodes| > 0 && barcodes[0].buffer.width > 0
    ensures var bw := barcodes[0].buffer.width; var bh := barcodes[0].buffer.height;
      var cols := Columns(2480, 20, bw).value;
      (!CornersFit(|barcodes|, cols, 20, bh) ==> LibCreateBarcodeGridImage(barcodes) == Err(Overflow))
      && (FitsU32(20 + cols * bw) && FitsU32(20 + ((|barcodes| - 1) / cols + 1) * bh) ==>
            LibCreateBarcodeGridImage(barcodes).Ok?)
  {
    var bw := barcodes[0].buffer.width;
    PlacementsFitBounds(Sizes(barcodes), Columns(2480, 20, bw).value, 20, 20, bw, barcodes[0].buffer.height, true);
  }

  /** `create_pdf` of the older copy returns the grid image unchanged. */
  function LibCreatePdf(barcodes: seq<Generated>): (r: Result<Sheet, ExportPanic>)
    ensures r == LibCreateBarcodeGridImage(barcodes)
  {
    LibCreateBarcodeGridImage(barcodes)
  }

  /** The older copy is the newer exporter with the columns counted as
      evidently meant, fixed margins and the grid on, drawn in red: its
      sheet is the page size of A4, and every barcode goes exactly where
      that exporter puts it. */
  lemma LibIsIntendedGrid(barcodes: seq<Generated>)
    ensures var c := PdfExportConfig(true, false, A4);
      LibCreateBarcodeGridImage(barcodes).Ok? <==> IntendedGridImage(barcodes, c).Ok?
    ensures var c := PdfExportConfig(true, false, A4);
      LibCreateBarcodeGridImage(barcodes).Ok? ==>
        LibCreateBarcodeGridImage(barcodes).value == IntendedGridImage(barcodes, c).value.(borderColor := Red)
  {
  }

  /** Since its columns are counted between the margins, no barcode of the
      older copy's sheet reaches past the right margin whenever one fits
      between the margins at all. */
  lemma LibSheetFits(barcodes: seq<Generated>)
    requires LibCreateBarcodeGridImage(barcodes).Ok?
    ensures var s := LibCreateBarcodeGridImage(barcodes).value;
      s.cellWidth <= 2440 ==> forall i :: 0 <= i < |s.placed| ==> s.placed[i].cell.x + s.cellWidth <= 2460
  {
    var c := PdfExportConfig(true, false, A4);
    LibIsIntendedGrid(barcodes);
    IntendedSheetFits(barcodes, c);
  }
}

=== FILE: paper.dfy ===
/** Paper sizes for exports (src/generator/exporting/paper.rs). */
module Paper {
  import opened Ints
  import opened Calculator

  datatype Paper = A4

  /** `get_paper_dimensions_px`: a fixed pixel size, the A4 page at
      300 dpi, whatever resolution the export uses. */
  function PaperDimensionsPx(p: Paper): (dims: (u32, u32))
    ensures p == A4 ==> dims == (2480, 3508)
    ensures dims.0 < dims.1
  {
    match p
    case A4 => (2480, 3508)
  }

  /** `get_paper_dimensions_mm`: the pixel size read back at `dpi`. */
  function PaperDimensionsMm(p: Paper, dpi: real): (dims: (real, real))
    requires dpi != 0.0
    ensures dims.0 * dpi == PaperDimensionsPx(p).0 as real * MmPerInch
    ensures dims.1 * dpi == PaperDimensionsPx(p).1 as real * MmPerInch
  {
    match p
    case A4 => (PxToMm(2480, dpi), PxToMm(3508, dpi))
  }

  /** The fixed pixel size is the calculator's A4 size at 300 dpi, and the
      millimetre size converts back to it at any resolution. */
  lemma PaperAgreesWithCalculator(dpi: real)
    requires dpi != 0.0
    ensures PaperDimensionsPx(A4) == A4Px(300.0)
    ensures MmToPx(PaperDimensionsMm(A4, dpi).0, dpi) == PaperDimensionsPx(A4).0
    ensures MmToPx(PaperDimensionsMm(A4, dpi).1, dpi) == PaperDimensionsPx(A4).1
  {
    TestedValues();
    PxMmRoundTrip(2480, dpi);
    PxMmRoundTrip(3508, dpi);
  }

  /** At 300 dpi the page is 210 by about 297 millimetres. */
  lemma A4At300()
    ensures PaperDimensionsMm(A4, 300.0).0 * 300.0 == 2480.0 * 25.4
    ensures 296.9 < PaperDimensionsMm(A4, 300.0).1 < 297.1
  {
  }
}

=== FILE: pdf_exporter.dfy ===
/** `PdfExporter` (src/generator/exporting/pdf_exporter.rs): every barcode
    on one paper-sized sheet, in a grid whose cell is the first barcode's
    size, with no pagination. Despite the name the bytes are a PNG; the
    sheet is reduced to its grid and where each barcode goes. */
module PdfExporter {
  import opened Ints
  import opened Wrappers
  import opened Paper
  import opened TextLayout
  import opened Generator
  import opened Grid

  datatype PdfExportConfig = PdfExportConfig(useGrid: bool, autoMargin: bool, paper: Paper)

  datatype Rgb = Rgb(red: nat, green: nat, blue: nat)

  /** The border colour of this exporter. */
  const LightGray := Rgb(211, 211, 211)

  /** A sheet: its size, the grid, the border colour and each barcode's
      placement, in list order. */
  datatype Sheet = Sheet(width: u32, height: u32, cols: u32, marginX: u32, marginY: u32,
                         cellWidth: u32, cellHeight: u32, borderColor: Rgb, placed: seq<Placed>)

  /** The buffer sizes of the barcodes, in order. */
  function Sizes(barcodes: seq<Generated>): (s: seq<(u32, u32)>)
    ensures |s| == |barcodes|
    ensures forall i :: 0 <= i < |barcodes| ==> s[i] == (barcodes[i].buffer.width, barcodes[i].buffer.height)
  {
    seq(|barcodes|, i requires 0 <= i < |barcodes| => (barcodes[i].buffer.width, barcodes[i].buffer.height))
  }

  /** `create_barcode_grid_image`: the first barcode (a panic on an empty
      list) sets the cell; the columns divide the whole page width, with no
      margin; the margins are centring ones or 20 pixels; then every
      barcode goes to the cell of its index, unless a position overflows
      a `u32`. */
  function CreateBarcodeGridImage(barcodes: seq<Generated>, config: PdfExportConfig): (r: Result<Sheet, ExportPanic>)
    ensures |barcodes| == 0 ==> r == Err(EmptyInput)
    ensures |barcodes| > 0 && barcodes[0].buffer.width == 0 ==> r == Err(DivideByZero)
    ensures |barcodes| > 0 && barcodes[0].buffer.width > 0 && !config.autoMargin ==>
      (r.Ok? <==> PlacementsFit(PlaceAll(Sizes(barcodes), Columns(PaperDimensionsPx(config.paper).0, 0, barcodes[0].buffer.width).value,
                                         20, 20, barcodes[0].buffer.width, barcodes[0].buffer.height, config.useGrid)))
    ensures |barcodes| > 0 && barcodes[0].buffer.width > 0 && !config.autoMargin && r.Err? ==> r == Err(Overflow)
    ensures |barcodes| > 0 && barcodes[0].buffer.width > 0 && config.autoMargin ==>
      var (w, h) := PaperDimensionsPx(config.paper);
      var bw := barcodes[0].buffer.width; var bh := barcodes[0].buffer.height;
      var cols := Columns(w, 0, bw).value;
      var margins := AutoMargins(bw, bh, w, h, cols);
      (margins.Err? ==> r == Err(margins.error))
      && (margins.Ok? ==>
            (r.Ok? <==> PlacementsFit(PlaceAll(Sizes(barcodes), cols, margins.value.0, margins.value.1, bw, bh, config.useGrid)))
            && (r.Err? ==> r == Err(Overflow)))
    ensures r.Ok? ==> PlacementsFit(r.value.placed)
    ensures r.Ok? ==> (|barcodes| > 0 && r.value.cols >= 1 && r.value.cellWidth > 0
      && (r.value.width, r.value.height) == PaperDimensionsPx(config.paper)
      && r.value.cellWidth == barcodes[0].buffer.width && r.value.cellHeight == barcodes[0].buffer.height
      && Columns(r.value.width, 0, r.value.cellWidth) == Ok(r.value.cols)
      && r.value.borderColor == LightGray)
    ensures r.Ok? && !config.autoMargin ==> r.value.marginX == 20 && r.value.marginY == 20
    ensures r.Ok? && config.autoMargin ==>
      AutoMargins(r.value.cellWidth, r.value.cellHeight, r.value.width, r.value.height, r.value.cols)
        == Ok((r.value.marginX, r.value.marginY))
    ensures r.Ok? ==> r.value.placed == PlaceAll(Sizes(barcodes), r.value.cols, r.value.marginX, r.value.marginY,
                                                 r.value.cellWidth, r.value.cellHeight, config.useGrid)
  {
    if |barcodes| == 0 then Err(EmptyInput)
    else
      var (w, h) := PaperDimensionsPx(config.paper);
      var bw := barcodes[0].buffer.width;
      var bh := barcodes[0].buffer.height;
      var cols :- Columns(w, 0, bw);
      var (mx, my) :- if config.autoMargin then AutoMargins(bw, bh, w, h, cols) else Ok((20, 20));
      var placed := PlaceAll(Sizes(barcodes), cols, mx, my, bw, bh, config.useGrid);
      if !PlacementsFit(placed) then Err(Overflow)
      else Ok(Sheet(w, h, cols, mx, my, bw, bh, LightGray, placed))
  }

  /** `create_pdf` returns the grid image unchanged. */
  function CreatePdf(barcodes: seq<Generated>, config: PdfExportConfig): (r: Result<Sheet, ExportPanic>)
    ensures r == CreateBarcodeGridImage(barcodes, config)
  {
    CreateBarcodeGridImage(barcodes, config)
  }

  /** Every barcode of the list is on the sheet, in a cell of its own,
      shrunk to fit and centred in it; with the grid on, every barcode gets
      a bottom and a right border, a top one exactly on the first row and
      a left one exactly in the first column; with the grid off, none. */
  lemma SheetPlacesAll(barcodes: seq<Generated>, config: PdfExportConfig)
    requires CreateBarcodeGridImage(barcodes, config).Ok?
    ensures var s := CreateBarcodeGridImage(barcodes, config).value;
      |s.placed| == |barcodes|
      && (forall i :: 0 <= i < |s.placed| ==>
            s.placed[i].fitted.0 <= s.cellWidth && s.placed[i].fitted.1 <= s.cellHeight
            && s.placed[i].cell.x <= s.placed[i].offsetX
            && s.placed[i].offsetX + s.placed[i].fitted.0 <= s.placed[i].cell.x + s.cellWidth
            && s.placed[i].cell.y <= s.placed[i].offsetY
            && s.placed[i].offsetY + s.placed[i].fitted.1 <= s.placed[i].cell.y + s.cellHeight)
      && (forall i, j :: 0 <= i < j < |s.placed| ==>
            (s.placed[i].cell.row, s.placed[i].cell.col) != (s.placed[j].cell.row, s.placed[j].cell.col))
      && (forall i :: 0 <= i < |s.placed| ==>
            (config.useGrid <==> Bottom in s.placed[i].borders)
            && (config.useGrid <==> Right in s.placed[i].borders)
            && (Top in s.placed[i].borders <==> config.useGrid && s.placed[i].cell.row == 0)
            && (Left in s.placed[i].borders <==> config.useGrid && s.placed[i].cell.col == 0))
  {
    var s := CreateBarcodeGridImage(barcodes, config).value;
    forall i, j | 0 <= i < j < |s.placed|
      ensures (s.placed[i].cell.row, s.placed[i].cell.col) != (s.placed[j].cell.row, s.placed[j].cell.col)
    {
      CellsDistinct(i, j, s.cols, s.marginX, s.marginY, s.cellWidth, s.cellHeight);
    }
    forall i | 0 <= i < |s.placed|
      ensures (config.useGrid <==> Right in s.placed[i].borders)
    {
      RightAlways(i, s.cols, s.marginX, s.marginY, s.cellWidth, s.cellHeight);
    }
  }

  /** With automatic margins the columns are centred across the page:
      the side margins and the columns make up its width, up to the pixel
      lost in halving, and no cell reaches past the right margin. */
  lemma AutoSheetCentred(barcodes: seq<Generated>, config: PdfExportConfig)
    requires config.autoMargin && CreateBarcodeGridImage(barcodes, config).Ok?
    ensures var s := CreateBarcodeGridImage(barcodes, config).value;
      s.width - 1 <= 2 * s.marginX + s.cellWidth * s.cols <= s.width
      && forall i :: 0 <= i < |s.placed| ==> s.placed[i].cell.x + s.cellWidth <= s.width - s.marginX
  {
    var s := CreateBarcodeGridImage(barcodes, config).value;
    AutoMarginsCentre(s.cellWidth, s.cellHeight, s.width, s.height, s.cols);
    forall i | 0 <= i < |s.placed|
      ensures s.placed[i].cell.x + s.cellWidth <= s.width - s.marginX
    {
      CellWithinColumns(i, s.cols, s.marginX, s.marginY, s.cellWidth, s.cellHeight);
    }
  }

  /** With manual margins the sheet panics on a `u32` overflow as soon as
      the last barcode's top edge passes 2^32 - 1, and is drawn whenever the
      columns and the row below the last barcode end within `u32`. */
  lemma ManualSheetOverflow(barcodes: seq<Generated>, config: PdfExportConfig)
    requires |barcodes| > 0 && barcodes[0].buffer.width > 0 && !config.autoMargin
    ensures var bw := barcodes[0].buffer.width; var bh := barcodes[0].buffer.height;
      var cols := Columns(PaperDimensionsPx(config.paper).0, 0, bw).value;
      (!CornersFit(|barcodes|, cols, 20, bh) ==> CreateBarcodeGridImage(barcodes, config) == Err(Overflow))
      && (FitsU32(20 + cols * bw) && FitsU32(20 + ((|barcodes| - 1) / cols + 1) * bh) ==>
            CreateBarcodeGridImage(barcodes, config).Ok?)
  {
    var bw := barcodes[0].buffer.width;
    var cols := Columns(PaperDimensionsPx(config.paper).0, 0, bw).value;
    PlacementsFitBounds(Sizes(barcodes), cols, 20, 20, bw, barcodes[0].buffer.height, config.useGrid);
  }

  /** Under automatic margins, the default, a first barcode wider than the
      page gets one column, and the margin computation then subtracts the
      wider column from the page width: the sheet panics on the underflow. */
  lemma WideBarcodeUnderflows(barcodes: seq<Generated>, config: PdfExportConfig)
    requires |barcodes| > 0 && config.autoMargin
    requires barcodes[0].buffer.width > PaperDimensionsPx(config.paper).0 && barcodes[0].buffer.height > 0
    ensures CreateBarcodeGridImage(barcodes, config) == Err(Underflow)
  {
    var w := PaperDimensionsPx(config.paper).0;
    ColumnsFill(w, 0, barcodes[0].buffer.width);
  }

  /** Under automatic margins a barcode that fits the page gives a sheet
      whenever the positions fit: on A4, two barcodes of 1240 by 1754
      pixels fill two columns of one row. */
  lemma AutoSheetDrawn(barcodes: seq<Generated>, config: PdfExportConfig)
    requires |barcodes| == 2 && config.paper == A4 && config.autoMargin
    requires barcodes[0].buffer.width == 1240 && barcodes[0].buffer.height == 1754
    ensures CreateBarcodeGridImage(barcodes, config).Ok?
    ensures CreateBarcodeGridImage(barcodes, config).value.cols == 2
  {
    assert PaperDimensionsPx(config.paper) == (2480, 3508);
    assert Columns(2480, 0, 1240) == Ok(2);
    assert AutoMargins(1240, 1754, 2480, 3508, 2) == Ok((0, 0)) by {
      assert 3508 / 1754 == 2;
    }
    TwoHalfSheetsFit(Sizes(barcodes), config.useGrid);
  }

  /** Two barcodes of half an A4 page each, side by side, stay within `u32`. */
  lemma TwoHalfSheetsFit(sizes: seq<(u32, u32)>, withBorders: bool)
    requires |sizes| == 2
    ensures PlacementsFit(PlaceAll(sizes, 2, 0, 0, 1240, 1754, withBorders))
  {
    PlacementsFitBounds(sizes, 2, 0, 0, 1240, 1754, withBorders);
    assert (|sizes| - 1) / 2 + 1 == 1;
  }

  /** The columns as written ignore the fixed 20-pixel margin: with two
      or more barcodes, the first 1240 pixels wide, an A4 sheet gets two
      columns, and the second barcode's cell ends at 2500, past the right
      margin at 2460 and past the page edge at 2480, although one barcode
      plus both margins fits the width. */
  lemma ManualMarginColumnCut(barcodes: seq<Generated>, config: PdfExportConfig)
    requires |barcodes| >= 2 && barcodes[0].buffer.width == 1240 && !config.autoMargin
    requires FitsU32(20 + ((|barcodes| - 1) / 2 + 1) * barcodes[0].buffer.height)
    ensures CreateBarcodeGridImage(barcodes, config).Ok?
    ensures var s := CreateBarcodeGridImage(barcodes, config).value;
      2 * s.marginX + s.cellWidth <= s.width
      && s.placed[1].cell.x + s.cellWidth == 2500 > s.width
  {
    assert Columns(2480, 0, 1240) == Ok(2);
    PlacementsFitBounds(Sizes(barcodes), 2, 20, 20, 1240, barcodes[0].buffer.height, config.useGrid);
    var s := CreateBarcodeGridImage(barcodes, config).value;
    assert s.placed[1].cell == CellOf(1, 2, 20, 20, 1240, s.cellHeight);
  }

  /** The columns as evidently meant: the width left between the margins
      in use divided by the cell width, which is what the older copy does
      with its fixed margin. With automatic margins, which are computed from
      the columns, the whole width is divided as before. */
  function IntendedGridImage(barcodes: seq<Generated>, config: PdfExportConfig): (r: Result<Sheet, ExportPanic>)
    ensures |barcodes| == 0 ==> r == Err(EmptyInput)
    ensures config.autoMargin ==> r == CreateBarcodeGridImage(barcodes, config)
    ensures r.Ok? ==> r.value.cols >= 1 && r.value.cellWidth > 0
    ensures r.Ok? ==> PlacementsFit(r.value.placed)
    ensures r.Ok? && !config.autoMargin ==>
      r.value.marginX == 20 && r.value.marginY == 20 && Columns(r.value.width, 20, r.value.cellWidth) == Ok(r.value.cols)
    ensures r.Ok? ==> r.value.placed == PlaceAll(Sizes(barcodes), r.value.cols, r.value.marginX, r.value.marginY,
                                                 r.value.cellWidth, r.value.cellHeight, config.useGrid)
  {
    if config.autoMargin then CreateBarcodeGridImage(barcodes, config)
    else if |barcodes| == 0 then Err(EmptyInput)
    else
      var (w, h) := PaperDimensionsPx(config.paper);
      var bw := barcodes[0].buffer.width;
      var bh := barcodes[0].buffer.height;
      var cols :- Columns(w, 20, bw);
      var placed := PlaceAll(Sizes(barcodes), cols, 20, 20, bw, bh, config.useGrid);
      if !PlacementsFit(placed) then Err(Overflow)
      else Ok(Sheet(w, h, cols, 20, 20, bw, bh, LightGray, placed))
  }

  /** With the intended columns, whenever one barcode fits between the
      side margins, every barcode ends at or before the right margin. */
  lemma IntendedSheetFits(barcodes: seq<Generated>, config: PdfExportConfig)
    requires IntendedGridImage(barcodes, config).Ok?
    ensures var s := IntendedGridImage(barcodes, config).value;
      2 * s.marginX + s.cellWidth <= s.width ==>
        forall i :: 0 <= i < |s.placed| ==> s.placed[i].cell.x + s.cellWidth <= s.width - s.marginX
  {
    var s := IntendedGridImage(barcodes, config).value;
    if config.autoMargin {
      AutoSheetCentred(barcodes, config);
    } else if 2 * s.marginX + s.cellWidth <= s.width {
      ColumnsFill(s.width, 20, s.cellWidth);
      forall i | 0 <= i < |s.placed|
        ensures s.placed[i].cell.x + s.cellWidth <= s.width - s.marginX
      {
        CellWithinColumns(i, s.cols, s.marginX, s.marginY, s.cellWidth, s.cellHeight);
      }
    }
  }
}

=== FILE: png_exporter.dfy ===
/** `PngExporter` (src/generator/exporting/png_exporter.rs): barcodes laid
    out on paper-sized pages in a grid whose cell is the first barcode's
    size, one page per call from a cursor, and a full export that chains the
    cursors. Pages are reduced to the barcodes they use and where each one
    goes; the PNG encoding is left out. */
module PngExporter {
  import opened Ints
  import opened Wrappers
  import opened Paper
  import opened TextLayout
  import opened Generator
  import opened Grid

  /** The fields of `Layout` (src/generator/layout.rs) the exporter reads. */
  datatype ExportLayout = ExportLayout(paper: Paper, autoMargin: bool, gridBorders: bool)

  /** What every page of one export shares: computed from the paper and the
      first barcode only. */
  datatype Setup = Setup(pageWidth: u32, pageHeight: u32, cellWidth: u32, cellHeight: u32,
                         cols: u32, marginX: u32, marginY: u32, maxBarcodes: u32)

  /** The whole rows of `barcodeHeight` between the two vertical margins,
      as the `f32` quotient cast to `u32` gives them: the quotient is exact
      for page-sized values; a zero row height divides to infinity
      (saturating to `U32_MAX` rows) or, over no free height, to NaN (0
      rows). */
  function RowsThatFit(marginY: u32, barcodeHeight: u32, paperHeight: u32): (rows: nat)
    ensures rows <= U32_MAX
  {
    var free := paperHeight - 2 * marginY;
    if barcodeHeight == 0 then (if free > 0 then U32_MAX else 0)
    else if free <= 0 then 0
    else free / barcodeHeight
  }

  /** For a positive row height the rows are exactly the ones that fit:
      one more would cross the bottom margin. */
  lemma RowsFit(marginY: u32, barcodeHeight: u32, paperHeight: u32)
    requires barcodeHeight > 0 && 2 * marginY <= paperHeight
    ensures var rows := RowsThatFit(marginY, barcodeHeight, paperHeight);
      rows * barcodeHeight <= paperHeight - 2 * marginY < (rows + 1) * barcodeHeight
  {
    var free := paperHeight - 2 * marginY;
    var rows := RowsThatFit(marginY, barcodeHeight, paperHeight);
    assert free == rows * barcodeHeight + free % barcodeHeight;
    assert (rows + 1) * barcodeHeight == rows * barcodeHeight + barcodeHeight;
  }

  /** `calculate_max_barcodes` with no spacing: the rows that fit times the
      columns, an overflow panic when that leaves the `u32` range. */
  function MaxBarcodes(cols: u32, marginY: u32, barcodeHeight: u32, paperHeight: u32): (r: Result<u32, ExportPanic>)
    ensures r.Ok? <==> FitsU32(RowsThatFit(marginY, barcodeHeight, paperHeight) * cols)
    ensures r.Ok? ==> r.value == RowsThatFit(marginY, barcodeHeight, paperHeight) * cols
    ensures r.Err? ==> r.error == Overflow
  {
    var rows := RowsThatFit(marginY, barcodeHeight, paperHeight);
    if FitsU32(rows * cols) then Ok(rows * cols) else Err(Overflow)
  }

  /** The start of `create_export_image`, up to the first use of the
      cursor: the first barcode (a panic on an empty list), the columns, the
      margins and the page capacity. */
  function SetupFor(barcodes: seq<Generated>, layout: ExportLayout): (r: Result<Setup, ExportPanic>)
    ensures r.Ok? ==> |barcodes| > 0 && r.value.cols >= 1 && r.value.cellWidth > 0
    ensures r.Ok? ==> r.value.cellWidth == barcodes[0].buffer.width && r.value.cellHeight == barcodes[0].buffer.height
    ensures r.Ok? ==> (r.value.pageWidth, r.value.pageHeight) == PaperDimensionsPx(layout.paper)
    ensures r.Ok? ==> Consistent(r.value)
    ensures |barcodes| == 0 ==> r == Err(EmptyInput)
    ensures |barcodes| > 0 && barcodes[0].buffer.width == 0 ==> r == Err(DivideByZero)
    ensures r.Ok? && !layout.autoMargin ==> r.value.marginX == 20 && r.value.marginY == 20
    ensures r.Ok? && layout.autoMargin ==>
      AutoMargins(r.value.cellWidth, r.value.cellHeight, r.value.pageWidth, r.value.pageHeight, r.value.cols)
        == Ok((r.value.marginX, r.value.marginY))
    ensures r.Ok? ==> Ok(r.value.maxBarcodes) == MaxBarcodes(r.value.cols, r.value.marginY, r.value.cellHeight, r.value.pageHeight)
  {
    if |barcodes| == 0 then Err(EmptyInput)
    else
      var (w, h) := PaperDimensionsPx(layout.paper);
      var bw := barcodes[0].buffer.width;
      var bh := barcodes[0].buffer.height;
      var cols :- Columns(w, 0, bw);
      var (mx, my) :- if layout.autoMargin then AutoMargins(bw, bh, w, h, cols) else Ok((20, 20));
      var max :- MaxBarcodes(cols, my, bh, h);
      Ok(Setup(w, h, bw, bh, cols, mx, my, max))
  }

  /** `GenerationResult` with the image reduced to the barcodes drawn on
      it, in drawing order; where each goes is `Placements` of them. */
  datatype PageResult = PageResult(used: seq<Generated>, hasMore: bool, cursor: nat)

  function SizeOf(g: Generated): (u32, u32) {
    (g.buffer.width, g.buffer.height)
  }

  /** The page that starts at `cursor` and holds at most `capacity`
      barcodes: the next barcodes in order. */
  function PageAt(barcodes: seq<Generated>, cursor: nat, capacity: nat): (p: PageResult)
    requires cursor <= |barcodes|
    ensures |p.used| == Min(|barcodes| - cursor, capacity)
    ensures p.cursor == cursor + |p.used| && p.used == barcodes[cursor..p.cursor]
    ensures p.hasMore <==> p.cursor < |barcodes|
  {
    var n := Min(|barcodes| - cursor, capacity);
    PageResult(barcodes[cursor..cursor + n], cursor + n < |barcodes|, cursor + n)
  }

  /** Where the barcodes of a page go: the one at index `i` in cell `i`. */
  function Placements(st: Setup, used: seq<Generated>, borders: bool): (ps: seq<Placed>)
    requires st.cols >= 1 && st.cellWidth > 0
    ensures |ps| == |used|
    ensures forall i :: 0 <= i < |used| ==> ps[i] == PlaceAt(st, used[i], i, borders)
  {
    seq(|used|, i requires 0 <= i < |used| => PlaceAt(st, used[i], i, borders))
  }

  /** One barcode placed at index `i` of its page. */
  function PlaceAt(st: Setup, g: Generated, i: nat, borders: bool): Placed
    requires st.cols >= 1 && st.cellWidth > 0
  {
    Place(i, SizeOf(g), st.cols, st.marginX, st.marginY, st.cellWidth, st.cellHeight, borders)
  }

  /** `create_export_image`. The loop places barcodes from the cursor on
      and breaks after the one whose index on the page equals
      `max_barcodes`, so a page takes up to `max_barcodes + 1` of them. */
  method CreateExportImage(barcodes: seq<Generated>, layout: ExportLayout, cursor: nat)
    returns (r: Result<PageResult, ExportPanic>)
    ensures SetupFor(barcodes, layout).Err? ==> r == Err(SetupFor(barcodes, layout).error)
    ensures SetupFor(barcodes, layout).Ok? && cursor > |barcodes| ==> r == Err(SliceOutOfRange)
    ensures SetupFor(barcodes, layout).Ok? && cursor <= |barcodes| ==>
      var st := SetupFor(barcodes, layout).value;
      r == Ok(PageAt(barcodes, cursor, st.maxBarcodes + 1))
  {
    var setup := SetupFor(barcodes, layout);
    if setup.Err? {
      return Err(setup.error);
    }
    var st := setup.value;
    if cursor > |barcodes| {
      return Err(SliceOutOfRange);
    }
    var page := PlacePage(barcodes, cursor, st.maxBarcodes);
    return Ok(page);
  }

  /** The loop of `create_export_image`: barcodes from the cursor on, each
      drawn at its index on the page, breaking after the index
      `maxBarcodes`. */
  method PlacePage(barcodes: seq<Generated>, cursor: nat, maxBarcodes: nat) returns (page: PageResult)
    requires cursor <= |barcodes|
    ensures page == PageAt(barcodes, cursor, maxBarcodes + 1)
  {
    var current := cursor;
    var used: seq<Generated> := [];
    var index := 0;
    while cursor + index < |barcodes|
      invariant index <= maxBarcodes && cursor + index <= |barcodes|
      invariant current == cursor + index && |used| == index
      invariant used == barcodes[cursor..current]
      decreases |barcodes| - cursor - index
    {
      used := used + [barcodes[cursor + index]];
      current := current + 1;
      if index == maxBarcodes {
        break;
      }
      index := index + 1;
    }
    page := PageResult(used, current < |barcodes|, current);
  }

  /** `create_export_preview`: the page at cursor 0, which is the first
      page of the full export. */
  method CreateExportPreview(barcodes: seq<Generated>, layout: ExportLayout) returns (r: Result<PageResult, ExportPanic>)
    ensures r.Err? <==> SetupFor(barcodes, layout).Err?
    ensures |barcodes| == 0 ==> r == Err(EmptyInput)
    ensures r.Ok? ==> 1 <= |r.value.used| <= |barcodes| && r.value.used == barcodes[..|r.value.used|]
    ensures SetupFor(barcodes, layout).Ok? ==>
      r == Ok(PageAt(barcodes, 0, SetupFor(barcodes, layout).value.maxBarcodes + 1))
    ensures SetupFor(barcodes, layout).Ok? ==>
      |barcodes| > 0 && r.value == Pages(barcodes, 0, SetupFor(barcodes, layout).value.maxBarcodes + 1)[0]
  {
    r := CreateExportImage(barcodes, layout, 0);
  }

  /** The pages from `cursor` on: a page, then the rest while it says
      there are more. */
  function Pages(barcodes: seq<Generated>, cursor: nat, capacity: nat): seq<PageResult>
    requires cursor < |barcodes| && capacity >= 1
    decreases |barcodes| - cursor
  {
    var p := PageAt(barcodes, cursor, capacity);
    if p.hasMore then [p] + Pages(barcodes, p.cursor, capacity) else [p]
  }

  function UsedOf(pages: seq<PageResult>): seq<Generated> {
    if |pages| == 0 then [] else pages[0].used + UsedOf(pages[1..])
  }

  /** The pages cover the barcodes from the cursor on, in order and each
      once; every page but the last is full, the last is not empty, and the
      page count is the remaining count divided by the capacity, rounded up. */
  lemma {:induction false} PagesCover(barcodes: seq<Generated>, cursor: nat, capacity: nat)
    requires cursor < |barcodes| && capacity >= 1
    ensures var ps := Pages(barcodes, cursor, capacity);
      UsedOf(ps) == barcodes[cursor..]
      && |ps| == (|barcodes| - cursor + capacity - 1) / capacity
      && (forall k :: 0 <= k < |ps| - 1 ==> |ps[k].used| == capacity && ps[k].hasMore)
      && 1 <= |ps[|ps| - 1].used| && !ps[|ps| - 1].hasMore && ps[|ps| - 1].cursor == |barcodes|
    decreases |barcodes| - cursor
  {
    var p := PageAt(barcodes, cursor, capacity);
    var ps := Pages(barcodes, cursor, capacity);
    if p.hasMore {
      var rest := Pages(barcodes, p.cursor, capacity);
      PagesCover(barcodes, p.cursor, capacity);
      assert ps == [p] + rest;
      assert ps[1..] == rest;
      assert UsedOf(ps) == p.used + UsedOf(rest);
      assert barcodes[cursor..] == barcodes[cursor..p.cursor] + barcodes[p.cursor..];
      assert |p.used| == capacity;
      DivAddOne(|barcodes| - p.cursor + capacity - 1, capacity);
    } else {
      assert ps == [p];
      assert UsedOf(ps) == p.used + UsedOf([]);
      assert barcodes[cursor..] == barcodes[cursor..p.cursor];
      DivMulAdd(1, |barcodes| - cursor - 1, capacity);
    }
  }

  /** `create_full_export`: pages from cursor 0 until one reports no more.
      A page never returns an error (its failures are panics), so the loop's
      error branch is never taken. */
  method CreateFullExport(barcodes: seq<Generated>, layout: ExportLayout) returns (r: Result<seq<PageResult>, ExportPanic>)
    ensures SetupFor(barcodes, layout).Err? ==> r == Err(SetupFor(barcodes, layout).error)
    ensures SetupFor(barcodes, layout).Ok? ==>
      var st := SetupFor(barcodes, layout).value;
      r == Ok(Pages(barcodes, 0, st.maxBarcodes + 1))
  {
    var setup := SetupFor(barcodes, layout);
    if setup.Err? {
      var first := CreateExportImage(barcodes, layout, 0);
      return Err(first.error);
    }
    var st := setup.value;
    var capacity := st.maxBarcodes + 1;
    var hasMore := true;
    var cursor := 0;
    var pages: seq<PageResult> := [];
    while hasMore
      invariant cursor <= |barcodes|
      invariant hasMore ==> cursor < |barcodes|
      invariant hasMore ==> pages + Pages(barcodes, cursor, capacity)
                              == Pages(barcodes, 0, capacity)
      invariant !hasMore ==> pages == Pages(barcodes, 0, capacity)
      decreases |barcodes| - cursor + (if hasMore then 1 else 0)
    {
      var result := CreateExportImage(barcodes, layout, cursor);
      var page := result.value;
      assert Pages(barcodes, cursor, capacity)
          == [page] + (if page.hasMore then Pages(barcodes, page.cursor, capacity) else []);
      hasMore := page.hasMore;
      cursor := page.cursor;
      pages := pages + [page];
    }
    return Ok(pages);
  }

  /** The off-by-one as written: when a page is full, its last barcode
      sits in the row after the last whole row that fits, so it reaches
      past the bottom margin, and with automatic margins past the bottom
      edge of the page. The cursor moves past it all the same, so the next
      page does not repeat it. */
  lemma OverfullPageLastCut(barcodes: seq<Generated>, layout: ExportLayout, cursor: nat)
    requires SetupFor(barcodes, layout).Ok? && cursor <= |barcodes|
    requires var st := SetupFor(barcodes, layout).value;
      st.cellHeight > 0 && |barcodes| - cursor > st.maxBarcodes
    ensures var st := SetupFor(barcodes, layout).value;
      var ps := Placements(st, PageAt(barcodes, cursor, st.maxBarcodes + 1).used, layout.gridBorders);
      |ps| == st.maxBarcodes + 1
      && ps[st.maxBarcodes].cell.y + st.cellHeight > st.pageHeight - st.marginY
      && (layout.autoMargin ==> ps[st.maxBarcodes].cell.y + st.cellHeight > st.pageHeight)
  {
    var st := SetupFor(barcodes, layout).value;
    var ps := Placements(st, PageAt(barcodes, cursor, st.maxBarcodes + 1).used, layout.gridBorders);
    assert ps[st.maxBarcodes].cell == CellOf(st.maxBarcodes, st.cols, st.marginX, st.marginY, st.cellWidth, st.cellHeight);
    FullPageCell(st);
    if layout.autoMargin {
      AutoFullPageCell(st);
    }
  }

  /** The requirements a setup meets, spelled out for the lemmas below. */
  predicate Consistent(st: Setup) {
    st.cols >= 1 && st.cellWidth > 0 && 2 * st.marginY <= st.pageHeight
    && MaxBarcodes(st.cols, st.marginY, st.cellHeight, st.pageHeight) == Ok(st.maxBarcodes)
  }

  /** The cell of index `max_barcodes` starts a row below the rows that fit. */
  lemma FullPageCell(st: Setup)
    requires Consistent(st) && st.cellHeight > 0
    ensures CellOf(st.maxBarcodes, st.cols, st.marginX, st.marginY, st.cellWidth, st.cellHeight).y
            == st.marginY + RowsThatFit(st.marginY, st.cellHeight, st.pageHeight) * st.cellHeight
    ensures CellOf(st.maxBarcodes, st.cols, st.marginX, st.marginY, st.cellWidth, st.cellHeight).y + st.cellHeight
            > st.pageHeight - st.marginY
  {
    var rows := RowsThatFit(st.marginY, st.cellHeight, st.pageHeight);
    RowsFit(st.marginY, st.cellHeight, st.pageHeight);
    var c := CellOf(st.maxBarcodes, st.cols, st.marginX, st.marginY, st.cellWidth, st.cellHeight);
    CellFacts(st.maxBarcodes, st.cols, st.marginX, st.marginY, st.cellWidth, st.cellHeight);
    RowOfCapacity(c.row, c.col, rows, st.cols);
    assert (rows + 1) * st.cellHeight == rows * st.cellHeight + st.cellHeight;
  }

  /** With automatic margins the rows that fit are all the page's whole
      rows, so the next row ends below the page. */
  lemma AutoFullPageCell(st: Setup)
    requires Consistent(st) && st.cellHeight > 0
    requires AutoMargins(st.cellWidth, st.cellHeight, st.pageWidth, st.pageHeight, st.cols) == Ok((st.marginX, st.marginY))
    ensures CellOf(st.maxBarcodes, st.cols, st.marginX, st.marginY, st.cellWidth, st.cellHeight).y + st.cellHeight
            > st.pageHeight
  {
    var h, pageH := st.cellHeight, st.pageHeight;
    var rows := RowsThatFit(st.marginY, h, pageH);
    var whole := pageH / h;
    FullPageCell(st);
    RowsFit(st.marginY, h, pageH);
    AutoMarginsCentre(st.cellWidth, h, st.pageWidth, pageH, st.cols);
    WholeRowsCover(pageH, h);
    assert whole * h < (rows + 1) * h;
    LessMul(whole, rows + 1, h);
    MulMonotone(whole, rows, h);
  }

  /** The page's whole rows leave less than one row uncovered. */
  lemma WholeRowsCover(n: nat, h: nat)
    requires h > 0
    ensures n < (n / h) * h + h
  {
    assert n == (n / h) * h + n % h;
  }

  lemma RowOfCapacity(row: nat, col: nat, rows: nat, cols: nat)
    requires cols >= 1 && col < cols && row * cols + col == rows * cols
    ensures row == rows && col == 0
  {
    DivMulAdd(row, col, cols);
    DivMulAdd(rows, 0, cols);
  }

  /** The capacity the loop evidently means: `max_barcodes`, but at least
      one so that every page advances. */
  function IntendedCapacity(st: Setup): (c: nat)
    ensures c >= 1 && (st.maxBarcodes >= 1 ==> c == st.maxBarcodes)
  {
    if st.maxBarcodes >= 1 then st.maxBarcodes else 1
  }

  /** With that capacity every barcode of a page lies between the top and
      bottom margins whenever at least one row fits. */
  lemma IntendedPageFits(barcodes: seq<Generated>, layout: ExportLayout, cursor: nat)
    requires SetupFor(barcodes, layout).Ok? && cursor <= |barcodes|
    requires var st := SetupFor(barcodes, layout).value; st.cellHeight > 0 && st.maxBarcodes >= 1
    ensures var st := SetupFor(barcodes, layout).value;
      var ps := Placements(st, PageAt(barcodes, cursor, IntendedCapacity(st)).used, layout.gridBorders);
      forall i :: 0 <= i < |ps| ==>
        st.marginY <= ps[i].cell.y && ps[i].cell.y + st.cellHeight <= st.pageHeight - st.marginY
  {
    var st := SetupFor(barcodes, layout).value;
    var ps := Placements(st, PageAt(barcodes, cursor, IntendedCapacity(st)).used, layout.gridBorders);
    forall i | 0 <= i < |ps|
      ensures st.marginY <= ps[i].cell.y && ps[i].cell.y + st.cellHeight <= st.pageHeight - st.marginY
    {
      assert ps[i].cell == CellOf(i, st.cols, st.marginX, st.marginY, st.cellWidth, st.cellHeight);
      IntendedCellFits(st, i);
    }
  }

  /** A cell of index below `max_barcodes` lies in one of the rows that fit. */
  lemma IntendedCellFits(st: Setup, i: nat)
    requires Consistent(st) && st.cellHeight > 0 && i < st.maxBarcodes
    ensures var c := CellOf(i, st.cols, st.marginX, st.marginY, st.cellWidth, st.cellHeight);
      st.marginY <= c.y && c.y + st.cellHeight <= st.pageHeight - st.marginY
  {
    var rows := RowsThatFit(st.marginY, st.cellHeight, st.pageHeight);
    RowsFit(st.marginY, st.cellHeight, st.pageHeight);
    var c := CellOf(i, st.cols, st.marginX, st.marginY, st.cellWidth, st.cellHeight);
    CellFacts(i, st.cols, st.marginX, st.marginY, st.cellWidth, st.cellHeight);
    RowBelow(c.row, c.col, rows, st.cols);
    MulMonotone(c.row + 1, rows, st.cellHeight);
    assert (c.row + 1) * st.cellHeight == c.row * st.cellHeight + st.cellHeight;
  }

  lemma RowBelow(row: nat, col: nat, rows: nat, cols: nat)
    requires cols >= 1 && row * cols + col < rows * cols
    ensures row < rows
  {
    LessMul(row, rows, cols);
  }

  /** The intended pages still cover every barcode once, in order. */
  lemma IntendedExportCovers(barcodes: seq<Generated>, layout: ExportLayout)
    requires SetupFor(barcodes, layout).Ok?
    ensures var st := SetupFor(barcodes, layout).value;
      UsedOf(Pages(barcodes, 0, IntendedCapacity(st))) == barcodes
  {
    var st := SetupFor(barcodes, layout).value;
    PagesCover(barcodes, 0, IntendedCapacity(st));
  }
}

=== FILE: rust_templates.dfy ===
/** The backend's saved template (src/generator/templates.rs). Identifiers
    come from `Uuid::new_v4()`, which is a fresh-value parameter here. */
module RustTemplates {
  import GeneratorConfig

  datatype Template = Template(
    config: GeneratorConfig.BarcodeConfig,
    name: string,
    description: string,
    id: string)

  /** `Template::with_id`: every field as given. */
  function WithId(config: GeneratorConfig.BarcodeConfig, name: string, description: string, id: string): (t: Template)
    ensures t.config == config && t.name == name && t.description == description && t.id == id
  {
    Template(config, name, description, id)
  }

  /** `Template::new`: as `with_id`, with the identifier drawn by the caller. */
  function New(config: GeneratorConfig.BarcodeConfig, name: string, description: string, freshId: string): (t: Template)
    ensures t == WithId(config, name, description, freshId)
  {
    Template(config, name, description, freshId)
  }

  /** `from_config`: the configuration is replaced; name, description and
      identifier are kept. */
  function FromConfig(t: Template, config: GeneratorConfig.BarcodeConfig): (r: Template)
    ensures r.config == config
    ensures r.name == t.name && r.description == t.description && r.id == t.id
  {
    t.(config := config)
  }

  /** `generate_new_id`: only the identifier changes. */
  function GenerateNewId(t: Template, freshId: string): (r: Template)
    ensures r.id == freshId
    ensures r.config == t.config && r.name == t.name && r.description == t.description
  {
    t.(id := freshId)
  }

  /** The constructors and updates fit together: a template is rebuilt from
      its fields, replacing the configuration and renewing the identifier
      commute, and `new` followed by `from_config` is `new` of the other
      configuration. */
  lemma TemplateLaws(t: Template, c: GeneratorConfig.BarcodeConfig, d: GeneratorConfig.BarcodeConfig,
                     name: string, description: string, id: string)
    ensures WithId(t.config, t.name, t.description, t.id) == t
    ensures GenerateNewId(FromConfig(t, c), id) == FromConfig(GenerateNewId(t, id), c)
    ensures FromConfig(New(d, name, description, id), c) == New(c, name, description, id)
    ensures FromConfig(FromConfig(t, d), t.config) == t
  {
  }
}

=== FILE: strings.dfy ===
/** Text as the two runtimes see it. A Dafny `string` is a sequence of
    Unicode scalar values; JavaScript measures and matches strings in UTF-16
    code units, Rust's `str::len` counts UTF-8 bytes. */
module Strings {

  /** One UTF-16 code unit, the element of a JavaScript string. */
  type CodeUnit = x: int | 0 <= x < 0x1_0000

  /** The UTF-16 code units of one scalar value. */
  function Utf16Char(c: char): (units: seq<CodeUnit>)
    ensures c as int < 0x1_0000 ==> units == [c as int]
    ensures c as int >= 0x1_0000 ==> |units| == 2 && 0xD800 <= units[0] < 0xDC00 && 0xDC00 <= units[1] < 0xE000
  {
    if c as int < 0x1_0000 then [c as int]
    else
      var v := c as int - 0x1_0000;
      [0xD800 + v / 0x400, 0xDC00 + v % 0x400]
  }

  /** The UTF-16 encoding of a string: what JavaScript's `.length` counts and
      what a regular expression without the `u` flag matches against. */
  function Utf16(s: string): (units: seq<CodeUnit>)
    ensures |units| >= |s|
  {
    if |s| == 0 then [] else Utf16Char(s[0]) + Utf16(s[1..])
  }

  /** JavaScript's `s.length`. */
  function JsLength(s: string): nat {
    |Utf16(s)|
  }

  /** A string whose scalar values all lie in the Basic Multilingual Plane
      is its own UTF-16 encoding, unit for unit. */
  lemma {:induction false} Utf16OfBmp(s: string)
    requires forall i :: 0 <= i < |s| ==> s[i] as int < 0x1_0000
    ensures |Utf16(s)| == |s|
    ensures forall i :: 0 <= i < |s| ==> Utf16(s)[i] == s[i] as int
  {
    if |s| > 0 {
      Utf16OfBmp(s[1..]);
    }
  }

  /** For a bound at or below the first surrogate, every code unit of the
      encoding is below the bound exactly when every scalar value is: a
      scalar above 0xFFFF becomes two surrogate units, both above the bound. */
  lemma {:induction false} Utf16Below(s: string, bound: int)
    requires 0 < bound <= 0xD800
    ensures (forall i :: 0 <= i < |Utf16(s)| ==> Utf16(s)[i] < bound)
        <==> (forall i :: 0 <= i < |s| ==> s[i] as int < bound)
  {
    if |s| > 0 {
      Utf16Below(s[1..], bound);
      var head := Utf16Char(s[0]);
      var tail := Utf16(s[1..]);
      assert Utf16(s) == head + tail;
      if forall i :: 0 <= i < |Utf16(s)| ==> Utf16(s)[i] < bound {
        assert head[0] == Utf16(s)[0];
        forall j | 0 <= j < |tail| ensures tail[j] < bound {
          assert tail[j] == Utf16(s)[|head| + j];
        }
        forall i | 0 <= i < |s| ensures s[i] as int < bound {
          if i > 0 { assert s[i] == s[1..][i - 1]; }
        }
      }
      if forall i :: 0 <= i < |s| ==> s[i] as int < bound {
        assert forall i :: 0 <= i < |s[1..]| ==> s[1..][i] as int < bound;
        assert head == [s[0] as int];
      }
    }
  }

  /** Distinct strings have distinct encodings: a scalar value is never a
      surrogate, so the first unit tells a one-unit character from a pair. */
  lemma {:induction false} Utf16Injective(a: string, b: string)
    requires Utf16(a) == Utf16(b)
    ensures a == b
  {
    if |a| > 0 && |b| > 0 {
      var ha, hb := Utf16Char(a[0]), Utf16Char(b[0]);
      assert Utf16(a) == ha + Utf16(a[1..]);
      assert Utf16(b) == hb + Utf16(b[1..]);
      assert ha[0] == Utf16(a)[0] == Utf16(b)[0] == hb[0];
      if a[0] as int < 0x1_0000 {
        assert !(0xD800 <= a[0] as int < 0xE000);
        assert b[0] as int < 0x1_0000;
      } else {
        assert b[0] as int >= 0x1_0000 by {
          assert !(0xD800 <= b[0] as int < 0xE000);
        }
        assert ha[1] == Utf16(a)[1] == Utf16(b)[1] == hb[1];
        var va, vb := a[0] as int - 0x1_0000, b[0] as int - 0x1_0000;
        assert va == (va / 0x400) * 0x400 + va % 0x400;
        assert vb == (vb / 0x400) * 0x400 + vb % 0x400;
      }
      assert a[0] == b[0];
      assert |ha| == |hb|;
      assert Utf16(a[1..]) == Utf16(a)[|ha|..] == Utf16(b)[|hb|..] == Utf16(b[1..]);
      Utf16Injective(a[1..], b[1..]);
      assert a == [a[0]] + a[1..];
      assert b == [b[0]] + b[1..];
    }
  }

  /** JavaScript's `<` on strings: lexicographic on code units, a proper
      prefix sorting first. */
  predicate UnitsLess(a: seq<CodeUnit>, b: seq<CodeUnit>)
    decreases |a|
  {
    |b| > 0 && (|a| == 0 || a[0] < b[0] || (a[0] == b[0] && UnitsLess(a[1..], b[1..])))
  }

  lemma {:induction false} UnitsLessIrreflexive(a: seq<CodeUnit>)
    ensures !UnitsLess(a, a)
    decreases |a|
  {
    if |a| > 0 {
      UnitsLessIrreflexive(a[1..]);
    }
  }

  lemma {:induction false} UnitsLessTransitive(a: seq<CodeUnit>, b: seq<CodeUnit>, c: seq<CodeUnit>)
    requires UnitsLess(a, b) && UnitsLess(b, c)
    ensures UnitsLess(a, c)
    decreases |a|
  {
    if |a| > 0 && a[0] == b[0] && b[0] == c[0] {
      UnitsLessTransitive(a[1..], b[1..], c[1..]);
    }
  }

  /** Two different unit sequences are ordered one way or the other. */
  lemma {:induction false} UnitsLessTotal(a: seq<CodeUnit>, b: seq<CodeUnit>)
    requires a != b
    ensures UnitsLess(a, b) || UnitsLess(b, a)
    decreases |a|
  {
    if |a| > 0 && |b| > 0 && a[0] == b[0] {
      assert a == [a[0]] + a[1..] && b == [b[0]] + b[1..];
      UnitsLessTotal(a[1..], b[1..]);
    }
  }

  /** The order `Array.prototype.sort` uses without a comparator. */
  predicate StringLess(a: string, b: string) {
    UnitsLess(Utf16(a), Utf16(b))
  }

  /** `StringLess` is a strict total order on strings. */
  lemma StringLessOrder(a: string, b: string, c: string)
    ensures !StringLess(a, a)
    ensures StringLess(a, b) && StringLess(b, c) ==> StringLess(a, c)
    ensures a != b ==> StringLess(a, b) || StringLess(b, a)
  {
    UnitsLessIrreflexive(Utf16(a));
    if StringLess(a, b) && StringLess(b, c) {
      UnitsLessTransitive(Utf16(a), Utf16(b), Utf16(c));
    }
    if a != b {
      if Utf16(a) == Utf16(b) {
        Utf16Injective(a, b);
      }
      UnitsLessTotal(Utf16(a), Utf16(b));
    }
  }

  /** Bytes of one scalar value in UTF-8. */
  function Utf8Width(c: char): (n: nat)
    ensures 1 <= n <= 4
    ensures n == 1 <==> c as int < 0x80
  {
    if c as int < 0x80 then 1
    else if c as int < 0x800 then 2
    else if c as int < 0x1_0000 then 3
    else 4
  }

  /** Rust's `String::len`: the UTF-8 byte length. */
  function Utf8Len(s: string): (n: nat)
    ensures n >= |s|
    ensures n <= 4 * |s|
  {
    if |s| == 0 then 0 else Utf8Width(s[0]) + Utf8Len(s[1..])
  }

  /** The byte length equals the number of scalar values exactly for ASCII text. */
  lemma {:induction false} Utf8LenAscii(s: string)
    ensures Utf8Len(s) == |s| <==> forall i :: 0 <= i < |s| ==> s[i] as int < 0x80
  {
    if |s| > 0 {
      Utf8LenAscii(s[1..]);
      if Utf8Len(s) == |s| {
        assert Utf8Width(s[0]) == 1;
        forall i | 0 <= i < |s| ensures s[i] as int < 0x80 {
          if i > 0 { assert s[i] == s[1..][i - 1]; }
        }
      }
      if forall i :: 0 <= i < |s| ==> s[i] as int < 0x80 {
        assert forall i :: 0 <= i < |s[1..]| ==> s[1..][i] as int < 0x80;
      }
    }
  }

  /** JavaScript's white space and line terminators: the code units that
      `\s` matches and that `String.prototype.trim` strips. */
  predicate IsJsWhitespaceUnit(u: CodeUnit) {
    || u == 0x09 || u == 0x0A || u == 0x0B || u == 0x0C || u == 0x0D
    || u == 0x20 || u == 0xA0 || u == 0x1680
    || (0x2000 <= u <= 0x200A)
    || u == 0x2028 || u == 0x2029 || u == 0x202F || u == 0x205F
    || u == 0x3000 || u == 0xFEFF
  }

  /** A scalar value that `trim` strips (all of them lie in the BMP). */
  predicate IsJsWhitespace(c: char) {
    c as int < 0x1_0000 && IsJsWhitespaceUnit(c as int)
  }

  predicate IsBlank(s: string) {
    forall i :: 0 <= i < |s| ==> IsJsWhitespace(s[i])
  }

  /** Drops leading white space. */
  function TrimStart(s: string): (r: string)
    ensures |r| <= |s| && r == s[|s| - |r|..]
    ensures forall i :: 0 <= i < |s| - |r| ==> IsJsWhitespace(s[i])
    ensures |r| > 0 ==> !IsJsWhitespace(r[0])
  {
    if |s| > 0 && IsJsWhitespace(s[0]) then
      var r := TrimStart(s[1..]);
      assert s[1..][|s[1..]| - |r|..] == s[|s| - |r|..];
      r
    else s
  }

  /** Drops trailing white space. */
  function TrimEnd(s: string): (r: string)
    ensures |r| <= |s| && r == s[..|r|]
    ensures forall i :: |r| <= i < |s| ==> IsJsWhitespace(s[i])
    ensures |r| > 0 ==> !IsJsWhitespace(r[|r| - 1])
  {
    if |s| > 0 && IsJsWhitespace(s[|s| - 1]) then
      var r := TrimEnd(s[..|s| - 1]);
      assert s[..|s| - 1][..|r|] == s[..|r|];
      r
    else s
  }

  /** `String.prototype.trim`. */
  function Trim(s: string): (r: string)
    ensures |r| > 0 ==> !IsJsWhitespace(r[0]) && !IsJsWhitespace(r[|r| - 1])
  {
    TrimEnd(TrimStart(s))
  }

  /** `s.trim()` is falsy (empty) exactly when `s` is all white space. */
  lemma TrimEmptyIffBlank(s: string)
    ensures |Trim(s)| == 0 <==> IsBlank(s)
  {
    var t := TrimStart(s);
    if |Trim(s)| > 0 {
      var k := |s| - |t|;
      assert !IsJsWhitespace(t[0]) by {
        assert Trim(s)[0] == t[0];
      }
      assert s[k] == t[0];
    }
  }

  function DigitChar(d: nat): (c: char)
    requires d < 10
    ensures '0' <= c <= '9'
    ensures DigitValue(c) == d
  {
    ['0', '1', '2', '3', '4', '5', '6', '7', '8', '9'][d]
  }

  /** The value of one decimal digit. */
  function DigitValue(c: char): int {
    c as int - '0' as int
  }

  predicate IsDigits(s: string) {
    forall i :: 0 <= i < |s| ==> '0' <= s[i] <= '9'
  }

  /** What a string of decimal digits denotes, read left to right. */
  function DigitsValue(s: string): nat
    requires IsDigits(s)
  {
    if |s| == 0 then 0 else DigitsValue(s[..|s| - 1]) * 10 + DigitValue(s[|s| - 1])
  }

  /** A canonical decimal numeral: digits only, and no leading zero except
      in "0" itself. */
  predicate IsNumeral(s: string) {
    |s| >= 1 && IsDigits(s) && (s[0] == '0' ==> |s| == 1)
  }

  /** The decimal rendering of a natural number (`${n}` in a template
      literal): a canonical numeral that denotes `n`. */
  function Decimal(n: nat): (s: string)
    ensures |s| >= 1
    ensures forall i :: 0 <= i < |s| ==> '0' <= s[i] <= '9'
    ensures DigitsValue(s) == n
    ensures n > 0 ==> s[0] != '0'
    ensures IsNumeral(s)
  {
    if n < 10 then [DigitChar(n)]
    else
      var p := Decimal(n / 10);
      var s := p + [DigitChar(n % 10)];
      assert s[..|s| - 1] == p;
      s
  }

  /** Different numbers print differently, so two distinct timestamps
      give distinct ids. */
  lemma DecimalInjective(a: nat, b: nat)
    ensures Decimal(a) == Decimal(b) <==> a == b
  {
  }

  /** A numeral with a non-zero leading digit denotes a positive number. */
  lemma {:induction false} LeadingDigitPositive(s: string)
    requires |s| >= 1 && IsDigits(s) && s[0] != '0'
    ensures DigitsValue(s) > 0
    decreases |s|
  {
    if |s| > 1 {
      var p := s[..|s| - 1];
      assert p[0] == s[0];
      LeadingDigitPositive(p);
    }
  }

  /** Printing is the inverse of reading: every canonical numeral is the
      rendering of the number it denotes. */
  lemma {:induction false} DecimalOfValue(s: string)
    requires IsNumeral(s)
    ensures Decimal(DigitsValue(s)) == s
    decreases |s|
  {
    var p := s[..|s| - 1];
    var last := s[|s| - 1];
    assert s == p + [last];
    if |s| > 1 {
      assert p[0] == s[0];
      DecimalOfValue(p);
      DecimalAppendDigit(p, last);
    } else {
      DigitsValueSnoc(p, last);
      DigitCharOf(last);
    }
  }

  /** One more digit after a numeral that is printed back as itself is
      printed back too. */
  lemma DecimalAppendDigit(p: string, c: char)
    requires |p| >= 1 && IsDigits(p) && p[0] != '0' && '0' <= c <= '9'
    requires Decimal(DigitsValue(p)) == p
    ensures IsDigits(p + [c]) && Decimal(DigitsValue(p + [c])) == p + [c]
  {
    LeadingDigitPositive(p);
    DigitsValueSnoc(p, c);
    DigitCharOf(c);
    DecimalSnoc(DigitsValue(p), DigitValue(c));
  }

  /** Reading one more digit multiplies by ten and adds it. */
  lemma DigitsValueSnoc(p: string, c: char)
    requires IsDigits(p) && '0' <= c <= '9'
    ensures IsDigits(p + [c]) && DigitsValue(p + [c]) == DigitsValue(p) * 10 + DigitValue(c)
  {
    assert (p + [c])[..|p|] == p;
  }

  /** Printing a number of two or more digits prints its tens, then its last digit. */
  lemma DecimalSnoc(q: nat, d: nat)
    requires q > 0 && d < 10
    ensures Decimal(q * 10 + d) == Decimal(q) + [DigitChar(d)]
  {
    DivMod10(q, d);
  }

  /** Each digit is the rendering of its value. */
  lemma DigitCharOf(c: char)
    requires '0' <= c <= '9'
    ensures DigitChar(DigitValue(c)) == c
  {
    assert DigitChar(DigitValue(c)) as int == c as int;
  }

  lemma DivMod10(q: nat, d: nat)
    requires d < 10
    ensures (q * 10 + d) / 10 == q && (q * 10 + d) % 10 == d
  {
  }

  /** `Array.prototype.join(sep)`. */
  function Join(parts: seq<string>, sep: string): string {
    if |parts| == 0 then ""
    else if |parts| == 1 then parts[0]
    else parts[0] + sep + Join(parts[1..], sep)
  }
}

=== FILE: template_manager.dfy ===
/** The template panel of the editor
    (frontend/src/components/TemplateManager.tsx). Each remote call is one
    atomic step whose reply is an input; what the component hands to the
    outside world (remote calls, callbacks) is appended to a log. */
module TemplateManager {
  import opened Strings
  import opened Formats
  import opened Wrappers
  import opened Interfaces

  /** `templates.filter(t => t.config.format.format === name)`. */
  function FilterByFormat(ts: seq<Template>, name: string): (r: seq<Template>)
    ensures |r| <= |ts|
    ensures forall i :: 0 <= i < |r| ==> r[i].config.format.format == name
  {
    if |ts| == 0 then []
    else if ts[0].config.format.format == name then [ts[0]] + FilterByFormat(ts[1..], name)
    else FilterByFormat(ts[1..], name)
  }

  /** A template survives the filter exactly when it is in the list and has
      the format. */
  lemma {:induction false} FilterMembership(ts: seq<Template>, name: string, t: Template)
    ensures t in FilterByFormat(ts, name) <==> t in ts && t.config.format.format == name
  {
    if |ts| > 0 {
      FilterMembership(ts[1..], name, t);
      assert ts == [ts[0]] + ts[1..];
    }
  }

  /** The filter keeps the original order: filtering a concatenation
      concatenates the filtered parts. */
  lemma {:induction false} FilterAppend(a: seq<Template>, b: seq<Template>, name: string)
    ensures FilterByFormat(a + b, name) == FilterByFormat(a, name) + FilterByFormat(b, name)
  {
    if |a| > 0 {
      assert (a + b)[1..] == a[1..] + b;
      FilterAppend(a[1..], b, name);
    } else {
      assert a + b == b;
    }
  }

  /** A list whose templates all have the format passes unchanged. */
  lemma {:induction false} FilterKeepsAll(ts: seq<Template>, name: string)
    requires forall i :: 0 <= i < |ts| ==> ts[i].config.format.format == name
    ensures FilterByFormat(ts, name) == ts
  {
    if |ts| > 0 {
      FilterKeepsAll(ts[1..], name);
    }
  }

  /** What the component sends out, in order. */
  datatype Call =
    | GetTemplatesCall
    | SaveCall(template: Template)
    | DeleteCall(id: string)
    | TemplatesUpdated
    | LoadIntoEditor(config: BarcodeConfig)

  /** The `{ success, message, data }` envelope of a `LocalApi` call, or an
      exception. `data` is absent or an array (an empty array is truthy). */
  datatype Reply =
    | Replied(success: bool, message: string, data: Option<seq<Template>>)
    | Threw

  datatype ManagerState = ManagerState(
    templates: seq<Template>,
    error: Option<string>,
    showSaveDialog: bool,
    showLoadDialog: bool,
    templateName: string,
    templateDescription: string,
    log: seq<Call>)

  const NameRequired: string := "Template name is required"
  const LoadFailed: string := "Failed to load templates"
  const SaveFailed: string := "Failed to save template"
  const DeleteFailed: string := "Failed to delete template"

  /** `filteredTemplates` for the editor's current format. */
  function Filtered(st: ManagerState, currentFormat: BarcodeFormat): seq<Template> {
    FilterByFormat(st.templates, Name(currentFormat))
  }

  /** `loadTemplates()`: a reply that succeeded with data replaces the list
      wholesale and leaves no error; any other reply sets the error and keeps
      the list. Runs on mount and whenever the current format changes. */
  function LoadTemplates(st: ManagerState, reply: Reply): (r: ManagerState)
    ensures r.log == st.log + [GetTemplatesCall]
    ensures reply.Replied? && reply.success && reply.data.Some? ==>
      r.templates == reply.data.value && r.error == Option.None
    ensures reply.Replied? && !(reply.success && reply.data.Some?) ==>
      r.templates == st.templates && r.error == Some(reply.message)
    ensures reply.Threw? ==> r.templates == st.templates && r.error == Some(LoadFailed)
    ensures r.showSaveDialog == st.showSaveDialog && r.showLoadDialog == st.showLoadDialog
    ensures r.templateName == st.templateName && r.templateDescription == st.templateDescription
  {
    var st' := st.(error := Option.None, log := st.log + [GetTemplatesCall]);
    match reply
    case Threw => st'.(error := Some(LoadFailed))
    case Replied(success, message, data) =>
      if success && data.Some? then st'.(templates := data.value)
      else st'.(error := Some(message))
  }

  /** The effect on `[currentFormat]` when the editor's format changes:
      the list is fetched again, and the filter effect on
      `[templates, currentFormat]` then shows the new format's templates. */
  function FormatChanged(st: ManagerState, newFormat: BarcodeFormat, reply: Reply): (r: ManagerState)
    ensures r.log == st.log + [GetTemplatesCall]
    ensures reply.Replied? && reply.success && reply.data.Some? ==>
      Filtered(r, newFormat) == FilterByFormat(reply.data.value, Name(newFormat)) && r.error == Option.None
    ensures !(reply.Replied? && reply.success && reply.data.Some?) ==>
      Filtered(r, newFormat) == Filtered(st, newFormat) && r.error.Some?
  {
    LoadTemplates(st, reply)
  }

  /** Mounting runs both loading effects, the one on `[]` and the one on
      `[currentFormat]`, each fetching the whole list. The model takes their
      replies in effect order: the second one decides the list whenever it
      succeeds, and the first one's list stays when only it succeeds. */
  function Mount(st: ManagerState, first: Reply, second: Reply): (r: ManagerState)
    ensures r.log == st.log + [GetTemplatesCall, GetTemplatesCall]
    ensures second.Replied? && second.success && second.data.Some? ==>
      r.templates == second.data.value && r.error == Option.None
    ensures first.Replied? && first.success && first.data.Some? && !(second.Replied? && second.success && second.data.Some?) ==>
      r.templates == first.data.value && r.error.Some?
    ensures !(first.Replied? && first.success && first.data.Some?) && !(second.Replied? && second.success && second.data.Some?) ==>
      r.templates == st.templates && r.error.Some?
  {
    LoadTemplates(LoadTemplates(st, first), second)
  }

  /** The template a save submits: trimmed name and description, a copy of
      the current configuration, and the timestamp as its id. */
  function NewTemplate(st: ManagerState, currentConfig: BarcodeConfig, now: nat): (t: Template)
    ensures t.config == currentConfig && t.id == Decimal(now)
    ensures t.name == Trim(st.templateName) && t.description == Trim(st.templateDescription)
  {
    Template(currentConfig, Trim(st.templateName), Trim(st.templateDescription), Decimal(now))
  }

  /** The part of `handleSaveTemplate()` after the name check: the template
      is sent; on success the list is reloaded (with its own reply), the
      parent is notified when it listens, then the fields are cleared and the
      dialog closed; on failure the error is set and the dialog stays open. */
  function Submit(st: ManagerState, t: Template, notify: bool, saveReply: Reply, loadReply: Reply): (r: ManagerState)
    ensures saveReply.Replied? && saveReply.success ==>
      var loaded := LoadTemplates(st.(error := Option.None, log := st.log + [SaveCall(t)]), loadReply);
      r.templates == loaded.templates && r.error == loaded.error
      && r.log == st.log + [SaveCall(t), GetTemplatesCall] + (if notify then [TemplatesUpdated] else [])
      && r.templateName == "" && r.templateDescription == "" && !r.showSaveDialog
      && r.showLoadDialog == st.showLoadDialog
    ensures !(saveReply.Replied? && saveReply.success) ==>
      r == st.(error := Some(if saveReply.Threw? then SaveFailed else saveReply.message),
               log := st.log + [SaveCall(t)])
  {
    var st' := st.(error := Option.None, log := st.log + [SaveCall(t)]);
    match saveReply
    case Threw => st'.(error := Some(SaveFailed))
    case Replied(success, message, _) =>
      if success then
        var loaded := LoadTemplates(st', loadReply);
        loaded.(log := loaded.log + (if notify then [TemplatesUpdated] else []),
                templateName := "", templateDescription := "", showSaveDialog := false)
      else st'.(error := Some(message))
  }

  /** `handleSaveTemplate()`. A name that is only white space sets the error
      "Template name is required" and does nothing else: no call is made and
      the list is kept. Any other name submits `NewTemplate`. */
  function SaveTemplate(st: ManagerState, currentConfig: BarcodeConfig, now: nat,
                        notify: bool, saveReply: Reply, loadReply: Reply): (r: ManagerState)
    ensures IsBlank(st.templateName) ==> r == st.(error := Some(NameRequired))
    ensures !IsBlank(st.templateName) ==>
      r == Submit(st, NewTemplate(st, currentConfig, now), notify, saveReply, loadReply)
  {
    TrimEmptyIffBlank(st.templateName);
    if |Trim(st.templateName)| == 0 then st.(error := Some(NameRequired))
    else Submit(st, NewTemplate(st, currentConfig, now), notify, saveReply, loadReply)
  }

  /** `handleLoadTemplate(template)`: the template's configuration goes to
      the editor as it is, and the load dialog closes. */
  function LoadTemplate(st: ManagerState, t: Template): (r: ManagerState)
    ensures r.log == st.log + [LoadIntoEditor(t.config)]
    ensures !r.showLoadDialog
    ensures r == st.(log := r.log, showLoadDialog := false)
  {
    st.(log := st.log + [LoadIntoEditor(t.config)], showLoadDialog := false)
  }

  /** `handleDeleteTemplate(id)`. Without confirmation nothing happens. With
      it the delete is sent; on success the list is reloaded and then the
      parent notified; on failure only the error is set. */
  function DeleteTemplate(st: ManagerState, id: string, confirmed: bool, notify: bool,
                          deleteReply: Reply, loadReply: Reply): (r: ManagerState)
    ensures !confirmed ==> r == st
    ensures confirmed && deleteReply.Replied? && deleteReply.success ==>
      var loaded := LoadTemplates(st.(error := Option.None, log := st.log + [DeleteCall(id)]), loadReply);
      r == loaded.(log := loaded.log + (if notify then [TemplatesUpdated] else []))
    ensures confirmed && !(deleteReply.Replied? && deleteReply.success) ==>
      r == st.(error := Some(if deleteReply.Threw? then DeleteFailed else deleteReply.message),
               log := st.log + [DeleteCall(id)])
  {
    if !confirmed then st
    else
      var st' := st.(error := Option.None, log := st.log + [DeleteCall(id)]);
      match deleteReply
      case Threw => st'.(error := Some(DeleteFailed))
      case Replied(success, message, _) =>
        if success then
          var loaded := LoadTemplates(st', loadReply);
          loaded.(log := loaded.log + (if notify then [TemplatesUpdated] else []))
        else st'.(error := Some(message))
  }

  /** After a successful save whose reload also succeeds, the panel shows
      exactly the reloaded templates of the current format, and the reload
      precedes the notification in the log. */
  lemma SaveThenReload(st: ManagerState, currentConfig: BarcodeConfig, now: nat,
                       msg: string, reloaded: seq<Template>, currentFormat: BarcodeFormat)
    requires !IsBlank(st.templateName)
    ensures var r := SaveTemplate(st, currentConfig, now, true,
                                  Replied(true, msg, Option.None), Replied(true, msg, Some(reloaded)));
      Filtered(r, currentFormat) == FilterByFormat(reloaded, Name(currentFormat))
      && r.error == Option.None
      && r.log == st.log + [SaveCall(NewTemplate(st, currentConfig, now)), GetTemplatesCall, TemplatesUpdated]
  {
  }
}

=== FILE: templates_page.dfy ===
/** The template management page (frontend/src/pages/Templates.tsx): the
    format filter, the list of formats to filter by, loading and deleting. */
module TemplatesPage {
  import opened Strings
  import opened Wrappers
  import opened Interfaces
  import TM = TemplateManager

  /** `selectedFormat`: 'all' or one format's name. */
  datatype Selection = All | OnlyFormat(name: string)

  /** `filteredTemplates`: everything under 'all', otherwise the templates of
      the selected format in their original order. */
  function FilteredTemplates(ts: seq<Template>, sel: Selection): (r: seq<Template>)
    ensures sel.All? ==> r == ts
    ensures sel.OnlyFormat? ==> r == TM.FilterByFormat(ts, sel.name)
  {
    match sel
    case All => ts
    case OnlyFormat(name) => TM.FilterByFormat(ts, name)
  }

  /** Selecting a format shows exactly its templates, and no others. */
  lemma FilterShowsExactly(ts: seq<Template>, name: string, t: Template)
    ensures t in FilteredTemplates(ts, OnlyFormat(name)) <==> t in ts && t.config.format.format == name
    ensures |FilteredTemplates(ts, OnlyFormat(name))| <= |FilteredTemplates(ts, All)|
  {
    TM.FilterMembership(ts, name, t);
  }

  /** Strictly increasing in the default sort order, hence without duplicates. */
  predicate StrictlySorted(xs: seq<string>) {
    forall i, j :: 0 <= i < j < |xs| ==> StringLess(xs[i], xs[j])
  }

  /** Inserts `x` into a strictly sorted list unless it is already there. */
  function Insert(xs: seq<string>, x: string): (r: seq<string>)
    requires StrictlySorted(xs)
    ensures StrictlySorted(r)
    ensures forall y :: y in r <==> y in xs || y == x
  {
    if |xs| == 0 then [x]
    else if x == xs[0] then xs
    else if StringLess(x, xs[0]) then
      InsertHeadFacts(xs, x);
      [x] + xs
    else
      StringLessOrder(x, xs[0], x);
      var rest := Insert(xs[1..], x);
      InsertConsFacts(xs, x, rest);
      [xs[0]] + rest
  }

  lemma InsertHeadFacts(xs: seq<string>, x: string)
    requires StrictlySorted(xs) && |xs| > 0 && StringLess(x, xs[0])
    ensures StrictlySorted([x] + xs)
  {
    forall j | 0 < j < |xs| ensures StringLess(x, xs[j]) {
      StringLessOrder(x, xs[0], xs[j]);
    }
  }

  lemma InsertConsFacts(xs: seq<string>, x: string, rest: seq<string>)
    requires StrictlySorted(xs) && |xs| > 0 && x != xs[0] && !StringLess(x, xs[0])
    requires StrictlySorted(rest)
    requires forall y :: y in rest <==> y in xs[1..] || y == x
    ensures StrictlySorted([xs[0]] + rest)
  {
    StringLessOrder(x, xs[0], x);
    forall j | 0 <= j < |rest| ensures StringLess(xs[0], rest[j]) {
      assert rest[j] in rest;
      if rest[j] != x {
        var k :| 0 <= k < |xs[1..]| && xs[1..][k] == rest[j];
        assert xs[k + 1] == rest[j];
      }
    }
  }

  /** The format names of the templates, in list order. */
  function FormatNames(ts: seq<Template>): (names: seq<string>)
    ensures |names| == |ts|
    ensures forall i :: 0 <= i < |ts| ==> names[i] == ts[i].config.format.format
  {
    if |ts| == 0 then [] else [ts[0].config.format.format] + FormatNames(ts[1..])
  }

  /** `getAvailableFormats()`: the names go into a `Set` in list order and
      come out through `Array.from(...).sort()`. */
  function GetAvailableFormats(ts: seq<Template>): (r: seq<string>)
    ensures StrictlySorted(r)
  {
    SortDistinct(FormatNames(ts))
  }

  function SortDistinct(names: seq<string>): (r: seq<string>)
    ensures StrictlySorted(r)
    decreases |names|
  {
    if |names| == 0 then [] else Insert(SortDistinct(names[..|names| - 1]), names[|names| - 1])
  }

  /** The sorted list holds each name once and nothing else. */
  lemma {:induction false} SortDistinctMembers(names: seq<string>)
    ensures forall y :: y in SortDistinct(names) <==> y in names
    decreases |names|
  {
    if |names| > 0 {
      var init := names[..|names| - 1];
      SortDistinctMembers(init);
      assert names == init + [names[|names| - 1]];
    }
  }

  /** The formats offered by the filter are exactly the formats of the
      templates, each once, in sorted order. */
  lemma AvailableFormatsExact(ts: seq<Template>, name: string)
    ensures StrictlySorted(GetAvailableFormats(ts))
    ensures name in GetAvailableFormats(ts) <==> exists t :: t in ts && t.config.format.format == name
  {
    SortDistinctMembers(FormatNames(ts));
    var names := FormatNames(ts);
    if name in names {
      var i :| 0 <= i < |names| && names[i] == name;
      assert ts[i] in ts;
    }
    if exists t :: t in ts && t.config.format.format == name {
      var t :| t in ts && t.config.format.format == name;
      var i :| 0 <= i < |ts| && ts[i] == t;
      assert names[i] == name;
    }
  }

  /** A strictly sorted list is determined by its members: the list the page
      shows does not depend on the order the templates came in. */
  lemma {:induction false} SortedUnique(xs: seq<string>, ys: seq<string>)
    requires StrictlySorted(xs) && StrictlySorted(ys)
    requires forall y :: y in xs <==> y in ys
    ensures xs == ys
    decreases |xs|
  {
    if |xs| > 0 {
      assert xs[0] in ys;
    }
    if |ys| > 0 {
      assert ys[0] in xs;
    }
    if |xs| > 0 && |ys| > 0 {
      var i :| 0 <= i < |ys| && ys[i] == xs[0];
      var j :| 0 <= j < |xs| && xs[j] == ys[0];
      if i != 0 && j != 0 {
        StringLessOrder(xs[0], ys[0], xs[0]);
        assert false;
      }
      forall y ensures y in xs[1..] <==> y in ys[1..] {
        StringLessOrder(xs[0], xs[0], xs[0]);
        if y in xs[1..] {
          var k :| 0 <= k < |xs[1..]| && xs[1..][k] == y;
          assert StringLess(xs[0], xs[k + 1]);
          assert y in ys;
          assert y != ys[0];
        }
        if y in ys[1..] {
          var k :| 0 <= k < |ys[1..]| && ys[1..][k] == y;
          assert StringLess(ys[0], ys[k + 1]);
          assert y in xs;
          assert y != xs[0];
        }
      }
      SortedUnique(xs[1..], ys[1..]);
      assert xs == [xs[0]] + xs[1..];
      assert ys == [ys[0]] + ys[1..];
    }
  }

  /** Reordering the templates does not change the offered formats. */
  lemma AvailableFormatsOrderFree(ts: seq<Template>, us: seq<Template>)
    requires multiset(ts) == multiset(us)
    ensures GetAvailableFormats(ts) == GetAvailableFormats(us)
  {
    forall name ensures name in GetAvailableFormats(ts) <==> name in GetAvailableFormats(us) {
      AvailableFormatsExact(ts, name);
      AvailableFormatsExact(us, name);
      if exists t :: t in ts && t.config.format.format == name {
        var t :| t in ts && t.config.format.format == name;
        assert t in multiset(us);
      }
      if exists t :: t in us && t.config.format.format == name {
        var t :| t in us && t.config.format.format == name;
        assert t in multiset(ts);
      }
    }
    SortedUnique(GetAvailableFormats(ts), GetAvailableFormats(us));
  }

  datatype PageState = PageState(
    templates: seq<Template>,
    error: Option<string>,
    selected: Selection,
    log: seq<TM.Call>)

  /** `loadTemplates()`, the same protocol as the editor panel's. */
  function LoadTemplates(st: PageState, reply: TM.Reply): (r: PageState)
    ensures r.log == st.log + [TM.GetTemplatesCall] && r.selected == st.selected
    ensures reply.Replied? && reply.success && reply.data.Some? ==>
      r.templates == reply.data.value && r.error == Option.None
    ensures reply.Replied? && !(reply.success && reply.data.Some?) ==>
      r.templates == st.templates && r.error == Some(reply.message)
    ensures reply.Threw? ==> r.templates == st.templates && r.error == Some(TM.LoadFailed)
  {
    var st' := st.(error := Option.None, log := st.log + [TM.GetTemplatesCall]);
    match reply
    case Threw => st'.(error := Some(TM.LoadFailed))
    case Replied(success, message, data) =>
      if success && data.Some? then st'.(templates := data.value)
      else st'.(error := Some(message))
  }

  /** `handleDeleteTemplate(id)`: nothing without confirmation; a success
      reloads the whole list; a failure only sets the error. */
  function DeleteTemplate(st: PageState, id: string, confirmed: bool,
                          deleteReply: TM.Reply, loadReply: TM.Reply): (r: PageState)
    ensures !confirmed ==> r == st
    ensures confirmed && deleteReply.Replied? && deleteReply.success ==>
      r == LoadTemplates(st.(error := Option.None, log := st.log + [TM.DeleteCall(id)]), loadReply)
    ensures confirmed && !(deleteReply.Replied? && deleteReply.success) ==>
      r.templates == st.templates && r.selected == st.selected
      && r.log == st.log + [TM.DeleteCall(id)]
      && r.error == Some(if deleteReply.Threw? then TM.DeleteFailed else deleteReply.message)
  {
    if !confirmed then st
    else
      var st' := st.(error := Option.None, log := st.log + [TM.DeleteCall(id)]);
      match deleteReply
      case Threw => st'.(error := Some(TM.DeleteFailed))
      case Replied(success, message, _) =>
        if success then LoadTemplates(st', loadReply)
        else st'.(error := Some(message))
  }

  /** The selection changes the view only. */
  function Select(st: PageState, sel: Selection): (r: PageState)
    ensures r.templates == st.templates && r.log == st.log && r.error == st.error
    ensures FilteredTemplates(r.templates, r.selected) == FilteredTemplates(st.templates, sel)
  {
    st.(selected := sel)
  }
}

=== FILE: text_layout.dfy ===
/** The size arithmetic of `add_text_to_luma_image`, which both generator
    copies share (src/generator/generator.rs and src/lib/generator.rs): the
    canvas grows by a text band, the barcode is pasted above or below it,
    and the text is drawn at a fixed or centred position. An image is its
    size only; the text's rendered width comes from the font and is a
    parameter. Unsigned additions that would overflow are debug-build
    panics and are reported as such. */
module TextLayout {
  import opened Ints
  import opened Formats
  import opened Wrappers

  datatype Size = Size(width: u32, height: u32)

  /** Where the pieces go on the new canvas. */
  datatype Placement = Placement(size: Size, barcodeY: u32, textX: i32, textY: u32)

  datatype Panic = ArithmeticOverflow

  /** `text_size + 10`, the height of the text band. */
  function TextHeight(textSize: u32): Result<u32, Panic> {
    if FitsU32(textSize + 10) then Ok(textSize + 10) else Err(ArithmeticOverflow)
  }

  /** `((barcode_width as i32 - text_width as i32) / 2).max(0)`, with the
      text width already cast. */
  function CenterX(barcodeWidth: u32, textWidth: i32): (r: Result<i32, Panic>)
    ensures r.Ok? <==> FitsI32(AsI32(barcodeWidth) - textWidth)
    ensures r.Ok? ==> r.value >= 0
    ensures r.Ok? && barcodeWidth < 0x8000_0000 && 0 <= textWidth <= barcodeWidth ==>
      2 * r.value + textWidth <= barcodeWidth < 2 * r.value + textWidth + 2
    ensures r.Ok? && barcodeWidth < 0x8000_0000 && textWidth > barcodeWidth ==> r.value == 0
  {
    var diff := AsI32(barcodeWidth) - textWidth;
    if FitsI32(diff) then Ok(Max(TruncDiv(diff, 2), 0)) else Err(ArithmeticOverflow)
  }

  /** `add_text_to_luma_image` without the drawing: `None` for position
      `None`, which returns the barcode as it came; otherwise the canvas and
      positions of the table in the source. Both the band height and the
      centring are computed before the position is looked at. */
  function Layout(barcode: Size, textSize: u32, position: TextPosition, textWidth: i32): (r: Result<Option<Placement>, Panic>)
    ensures r.Ok? && position == TextPosition.None ==> r.value == Option.None
    ensures r.Ok? && position != TextPosition.None ==>
      r.value.Some? && r.value.value.size.width == barcode.width
      && r.value.value.size.height == barcode.height + textSize + 10
    ensures r.Ok? && (position == Upper || position == UpperCenter) ==>
      r.value.value.barcodeY == textSize + 10 && r.value.value.textY == 5
    ensures r.Ok? && (position == Lower || position == LowerCenter) ==>
      r.value.value.barcodeY == 0 && r.value.value.textY == barcode.height + 5
    ensures r.Ok? && (position == Upper || position == Lower) ==> r.value.value.textX == 10
    ensures r.Ok? && (position == UpperCenter || position == LowerCenter) ==>
      CenterX(barcode.width, textWidth).Ok? && r.value.value.textX == CenterX(barcode.width, textWidth).value
  {
    var th :- TextHeight(textSize);
    var center :- CenterX(barcode.width, textWidth);
    match position
    case None => Ok(Option.None)
    case Upper =>
      if FitsU32(barcode.height + th) then Ok(Some(Placement(Size(barcode.width, barcode.height + th), th, 10, 5)))
      else Err(ArithmeticOverflow)
    case Lower =>
      if FitsU32(barcode.height + th) then Ok(Some(Placement(Size(barcode.width, barcode.height + th), 0, 10, barcode.height + 5)))
      else Err(ArithmeticOverflow)
    case UpperCenter =>
      if FitsU32(barcode.height + th) then Ok(Some(Placement(Size(barcode.width, barcode.height + th), th, center, 5)))
      else Err(ArithmeticOverflow)
    case LowerCenter =>
      if FitsU32(barcode.height + th) then Ok(Some(Placement(Size(barcode.width, barcode.height + th), 0, center, barcode.height + 5)))
      else Err(ArithmeticOverflow)
  }

  /** The layout fails only on overflow: it succeeds whenever the grown
      height fits a `u32` and the centring subtraction fits an `i32`. */
  lemma LayoutSucceeds(barcode: Size, textSize: u32, position: TextPosition, textWidth: i32)
    ensures Layout(barcode, textSize, position, textWidth).Ok? <==>
      FitsU32(textSize + 10) && FitsI32(AsI32(barcode.width) - textWidth)
      && (position != TextPosition.None ==> FitsU32(barcode.height + textSize + 10))
  {
  }

  /** The pasted barcode lies inside the new canvas and the text starts in
      the band, outside the barcode's rows: above it for the upper
      positions, below its last row for the lower ones. */
  lemma TextBandDisjoint(barcode: Size, textSize: u32, position: TextPosition, textWidth: i32)
    requires Layout(barcode, textSize, position, textWidth).Ok?
    requires position != TextPosition.None
    ensures var p := Layout(barcode, textSize, position, textWidth).value.value;
      p.barcodeY + barcode.height <= p.size.height
      && (p.textY < p.barcodeY || p.barcodeY + barcode.height <= p.textY)
      && p.textY < p.size.height
  {
  }

  /** The size that comes out of one text step: the grown canvas, or the
      same size for position `None`. */
  function Grown(barcode: Size, p: Option<Placement>): Size {
    if p.Some? then p.value.size else barcode
  }

  /** A text as the layout sees it: size, position and rendered width. */
  datatype TextBox = TextBox(textSize: u32, position: TextPosition, textWidth: i32)

  /** The loop `for text_cfg in &config.texts { final_image = add_text_to_luma_image(...)? }`:
      the texts are applied in list order, each to the previous result, and
      the first failure ends the loop. */
  function ApplyTexts(s: Size, boxes: seq<TextBox>): Result<Size, Panic>
    decreases |boxes|
  {
    if |boxes| == 0 then Ok(s)
    else
      var p :- Layout(s, boxes[0].textSize, boxes[0].position, boxes[0].textWidth);
      ApplyTexts(Grown(s, p), boxes[1..])
  }

  /** The height all visible texts add: `text_size + 10` each. */
  function BandHeight(boxes: seq<TextBox>): nat
    decreases |boxes|
  {
    if |boxes| == 0 then 0
    else (if boxes[0].position != TextPosition.None then boxes[0].textSize + 10 else 0) + BandHeight(boxes[1..])
  }

  /** After all texts the width is unchanged and the height has grown by the
      bands of the texts with a position other than `None`. */
  lemma {:induction false} ApplyTextsSize(s: Size, boxes: seq<TextBox>)
    requires ApplyTexts(s, boxes).Ok?
    ensures ApplyTexts(s, boxes).value.width == s.width
    ensures ApplyTexts(s, boxes).value.height == s.height + BandHeight(boxes)
    decreases |boxes|
  {
    if |boxes| > 0 {
      var p := Layout(s, boxes[0].textSize, boxes[0].position, boxes[0].textWidth).value;
      ApplyTextsSize(Grown(s, p), boxes[1..]);
    }
  }

  /** No text fails when every addition fits: the canvas never gets taller
      than the final height, the widths stay below 2^31 and the text widths
      are at least zero. */
  lemma {:induction false} ApplyTextsSucceeds(s: Size, boxes: seq<TextBox>)
    requires s.width < 0x8000_0000
    requires s.height + BandHeight(boxes) < 0x1_0000_0000
    requires forall i :: 0 <= i < |boxes| ==> boxes[i].textSize + 10 < 0x1_0000_0000 && boxes[i].textWidth >= 0
    ensures ApplyTexts(s, boxes).Ok?
    decreases |boxes|
  {
    if |boxes| > 0 {
      var b := boxes[0];
      LayoutSucceeds(s, b.textSize, b.position, b.textWidth);
      var p := Layout(s, b.textSize, b.position, b.textWidth).value;
      assert forall i :: 0 <= i < |boxes[1..]| ==> boxes[1..][i] == boxes[i + 1];
      ApplyTextsSucceeds(Grown(s, p), boxes[1..]);
    }
  }
}

=== FILE: utils.dfy ===
/** `validateBarcodeData` (frontend/src/lib/utils.ts): checks a payload
    against the rule of its format and reports the failures as messages. */
module Utils {
  import opened Strings
  import opened Formats
  import opened Wrappers
  import opened ValidationRules
  import Interfaces

  /** One failure, before it is rendered as a message. */
  datatype ValidationError =
    | MinLengthError(format: BarcodeFormat, min: nat)
    | MaxLengthError(format: BarcodeFormat, max: nat)
    | CharsetError(format: BarcodeFormat, allowed: seq<string>)
    | InvalidCharactersError(format: BarcodeFormat)

  /** The position of a kind of failure in the report: length bounds first,
      the character check last. */
  function Rank(e: ValidationError): nat {
    match e
    case MinLengthError(_, _) => 0
    case MaxLengthError(_, _) => 1
    case CharsetError(_, _) => 2
    case InvalidCharactersError(_) => 2
  }

  predicate IsCharsetFailure(e: ValidationError) {
    e.CharsetError? || e.InvalidCharactersError?
  }

  /** The template literal that reports each failure. */
  function Message(e: ValidationError): string {
    match e
    case MinLengthError(f, min) => Name(f) + " requires at least " + Decimal(min) + " characters"
    case MaxLengthError(f, max) => Name(f) + " supports maximum " + Decimal(max) + " characters"
    case CharsetError(f, allowed) => Name(f) + " only supports: " + Join(allowed, ", ")
    case InvalidCharactersError(f) => Name(f) + " contains invalid characters"
  }

  /** The character failure a rule reports: the allowed characters when it
      lists any, a bare "invalid characters" otherwise. */
  function CharsetFailure(f: BarcodeFormat, rule: ValidationRule): (e: ValidationError)
    ensures IsCharsetFailure(e) && e.format == f
    ensures e.CharsetError? <==> |rule.allowedCharacters| > 0
  {
    if |rule.allowedCharacters| > 0 then CharsetError(f, rule.allowedCharacters)
    else InvalidCharactersError(f)
  }

  /** The failures for a payload of `len` code units, which the rule's
      pattern accepts or not, in report order: each failure is present
      exactly when its check fails, nothing else is reported, and the two
      length failures exclude each other. */
  function RuleErrors(f: BarcodeFormat, rule: ValidationRule, len: nat, accepted: bool): (errs: seq<ValidationError>)
    requires rule.minLength <= rule.maxLength
    ensures |errs| <= 3
    ensures forall i, j :: 0 <= i < j < |errs| ==> Rank(errs[i]) < Rank(errs[j])
    ensures MinLengthError(f, rule.minLength) in errs <==> len < rule.minLength
    ensures MaxLengthError(f, rule.maxLength) in errs <==> len > rule.maxLength
    ensures CharsetFailure(f, rule) in errs <==> !accepted
    ensures forall e :: e in errs ==>
      e == MinLengthError(f, rule.minLength) || e == MaxLengthError(f, rule.maxLength)
      || e == CharsetFailure(f, rule)
    ensures !(MinLengthError(f, rule.minLength) in errs && MaxLengthError(f, rule.maxLength) in errs)
  {
    var lengthErrs :=
      if len < rule.minLength then [MinLengthError(f, rule.minLength)]
      else if len > rule.maxLength then [MaxLengthError(f, rule.maxLength)]
      else [];
    var charErrs := if accepted then [] else [CharsetFailure(f, rule)];
    lengthErrs + charErrs
  }

  /** The failures of `data` against the rule of `f`, in report order; a
      format without a rule accepts everything. */
  function ValidationErrors(data: string, f: BarcodeFormat): (errs: seq<ValidationError>)
    ensures RuleFor(f).None? ==> errs == []
    ensures RuleFor(f).Some? ==> errs == RuleErrors(f, RuleFor(f).value, JsLength(data),
                                                    Test(RuleFor(f).value.allowedCharactersRegex, data))
  {
    match RuleFor(f)
    case None => []
    case Some(rule) =>
      RuleBoundsOrdered();
      RuleErrors(f, rule, JsLength(data), Test(rule.allowedCharactersRegex, data))
  }

  /** `validateBarcodeData(data, format)`: one message per failure, in
      report order. */
  function ValidateBarcodeData(data: string, f: BarcodeFormat): (msgs: seq<string>)
    ensures |msgs| == |ValidationErrors(data, f)|
    ensures forall i :: 0 <= i < |msgs| ==> msgs[i] == Message(ValidationErrors(data, f)[i])
  {
    var errs := ValidationErrors(data, f);
    seq(|errs|, i requires 0 <= i < |errs| => Message(errs[i]))
  }

  /** The payload passes exactly when its length lies within the rule's
      bounds and the pattern accepts it. */
  lemma ValidIff(data: string, f: BarcodeFormat)
    ensures ValidateBarcodeData(data, f) == [] <==>
      RuleFor(f).None? ||
      (var rule := RuleFor(f).value;
       rule.minLength <= JsLength(data) <= rule.maxLength
       && Test(rule.allowedCharactersRegex, data))
  {
    var errs := ValidationErrors(data, f);
    if errs != [] {
      assert errs[0] in errs;
    }
  }

  /** Empty data fails every ruled format twice: too short, and rejected by
      the pattern. */
  lemma EmptyDataFails(f: BarcodeFormat)
    requires RuleFor(f).Some?
    ensures var errs := ValidationErrors("", f);
      errs == [MinLengthError(f, RuleFor(f).value.minLength), CharsetFailure(f, RuleFor(f).value)]
  {
    RuleBoundsOrdered();
    NoRuleAcceptsEmpty();
    assert JsLength("") == 0;
  }

  /** A digit string of the wrong length for a fixed-length digit format
      fails twice: once on length, once on the pattern (which fixes the
      length too). EAN13 with "123456789012" is an instance. */
  lemma WrongLengthDigits(f: BarcodeFormat, n: nat, s: string)
    requires (f, n) in {(EAN13, 13), (EAN8, 8), (UPCA, 12), (UPCE, 8),
                        (DataBar, 14), (DataBarLimited, 14), (DXFilmEdge, 6)}
    requires |s| != n && forall i :: 0 <= i < |s| ==> '0' <= s[i] <= '9'
    ensures ValidationErrors(s, f)
         == [if |s| < n then MinLengthError(f, n) else MaxLengthError(f, n), CharsetError(f, DigitsOnly)]
  {
    DigitRuleShape(f, n);
    DigitsPattern(n, s);
    Utf16OfBmp(s);
    var rule := ValidationRule(f, n, n, DigitsOnly, Exactly(n, DigitChars), Rectangular);
    assert ValidationErrors(s, f) == RuleErrors(f, rule, |s|, false);
  }

  lemma Ean13TwelveDigits(s: string)
    requires s == "123456789012"
    ensures ValidationErrors(s, EAN13) == [MinLengthError(EAN13, 13), CharsetError(EAN13, DigitsOnly)]
  {
    WrongLengthDigits(EAN13, 13, s);
  }

  /** The editor's default configuration passes its own format's check. */
  lemma DefaultConfigValidates(now: int)
    ensures var c := Interfaces.CreateDefaultBarcodeConfig(now);
      c.format.format == Name(Code128)
      && ValidateBarcodeData(c.data, Code128) == []
  {
    var c := Interfaces.CreateDefaultBarcodeConfig(now);
    RuleAt(0, Code128Rule);
    DigitsPassCode128(c.data);
    assert ValidationErrors(c.data, Code128) == RuleErrors(Code128, Code128Rule, 9, true);
  }

  /** A non-empty digit string of at most 99 digits passes Code 128's check. */
  lemma DigitsPassCode128(s: string)
    requires 1 <= |s| <= 99 && forall i :: 0 <= i < |s| ==> '0' <= s[i] <= '9'
    ensures JsLength(s) == |s|
    ensures Test(OneOrMore(Code128Chars), s)
  {
    OneOrMoreDigitsPattern(s);
    Utf16OfBmp(s);
    DigitsAreCode128(Utf16(s));
  }

  /** Digits belong to Code 128's class. */
  lemma DigitsAreCode128(units: seq<CodeUnit>)
    requires Matches(OneOrMore(DigitChars), units)
    ensures Matches(OneOrMore(Code128Chars), units)
  {
  }
}

=== FILE: validation_rules.dfy ===
/** The frontend's static rule table (frontend/src/lib/validationRules.ts).
    Each rule's regular expression is one of two shapes, `^[class]+$` or
    `^[class]{n}$`; the character classes are written out as predicates over
    UTF-16 code units, the units a JavaScript `RegExp` without the `u` flag
    matches. */
module ValidationRules {
  import opened Strings
  import opened Formats
  import opened Wrappers
  import Interfaces

  predicate IsDigit(u: CodeUnit) { '0' as int <= u <= '9' as int }
  predicate IsUpperAscii(u: CodeUnit) { 'A' as int <= u <= 'Z' as int }
  predicate IsLowerAscii(u: CodeUnit) { 'a' as int <= u <= 'z' as int }

  /** The bracketed classes that occur in the table. */
  datatype CharClass =
    | Code128Chars   // [A-Za-z0-9\s\-\.\/\+\%]
    | Code39Chars    // [0-9A-Z\-\s\.\$\/\+\%]
    | Latin1Chars    // [\x00-\xFF]
    | DigitChars     // [0-9]
    | CodabarChars   // [0-9A-D\-\s\.\/\:\+\$]

  predicate InClass(cls: CharClass, u: CodeUnit) {
    match cls
    case Code128Chars =>
      IsUpperAscii(u) || IsLowerAscii(u) || IsDigit(u) || IsJsWhitespaceUnit(u)
      || u == '-' as int || u == '.' as int || u == '/' as int || u == '+' as int || u == '%' as int
    case Code39Chars =>
      IsDigit(u) || IsUpperAscii(u) || u == '-' as int || IsJsWhitespaceUnit(u)
      || u == '.' as int || u == '$' as int || u == '/' as int || u == '+' as int || u == '%' as int
    case Latin1Chars => u <= 0xFF
    case DigitChars => IsDigit(u)
    case CodabarChars =>
      IsDigit(u) || ('A' as int <= u <= 'D' as int) || u == '-' as int || IsJsWhitespaceUnit(u)
      || u == '.' as int || u == '/' as int || u == ':' as int || u == '+' as int || u == '$' as int
  }

  /** An anchored pattern: `^[cls]+$` or `^[cls]{count}$`. */
  datatype Pattern = OneOrMore(cls: CharClass) | Exactly(count: nat, cls: CharClass)

  /** Whole-input match of a pattern against a sequence of code units. */
  predicate Matches(p: Pattern, units: seq<CodeUnit>) {
    && (p.OneOrMore? ==> |units| >= 1)
    && (p.Exactly? ==> |units| == p.count)
    && forall i :: 0 <= i < |units| ==> InClass(p.cls, units[i])
  }

  /** `regex.test(s)`. */
  predicate Test(p: Pattern, s: string) {
    Matches(p, Utf16(s))
  }

  datatype DimensionClass = Square | Rectangular

  datatype ValidationRule = ValidationRule(
    format: BarcodeFormat,
    maxLength: nat,
    minLength: nat,
    allowedCharacters: seq<string>,
    allowedCharactersRegex: Pattern,
    dimensions: DimensionClass)

  const DigitsOnly: seq<string> := ["0-9"]
  const Code39Alphabet: seq<string> := ["0-9", "A-Z", "-", ".", " ", "$", "/", "+", "%"]
  const CodabarAlphabet: seq<string> := ["0-9", "A-D", "-", ".", "/", ":", "+", "$"]

  /** One entry of `validationRules` per format. */
  const Code128Rule: ValidationRule := ValidationRule(Code128, 99, 1, [], OneOrMore(Code128Chars), Rectangular)
  const Code39Rule: ValidationRule := ValidationRule(Code39, 43, 1, Code39Alphabet, OneOrMore(Code39Chars), Rectangular)
  const QRCodeRule: ValidationRule := ValidationRule(QRCode, 2953, 1, [], OneOrMore(Latin1Chars), Square)
  const EAN13Rule: ValidationRule := ValidationRule(EAN13, 13, 13, DigitsOnly, Exactly(13, DigitChars), Rectangular)
  const EAN8Rule: ValidationRule := ValidationRule(EAN8, 8, 8, DigitsOnly, Exactly(8, DigitChars), Rectangular)
  const UPCARule: ValidationRule := ValidationRule(UPCA, 12, 12, DigitsOnly, Exactly(12, DigitChars), Rectangular)
  const UPCERule: ValidationRule := ValidationRule(UPCE, 8, 8, DigitsOnly, Exactly(8, DigitChars), Rectangular)
  const DataMatrixRule: ValidationRule := ValidationRule(DataMatrix, 2335, 1, [], OneOrMore(Latin1Chars), Square)
  const PDF417Rule: ValidationRule := ValidationRule(PDF417, 1850, 1, [], OneOrMore(Latin1Chars), Rectangular)
  const AztecRule: ValidationRule := ValidationRule(Aztec, 3832, 1, [], OneOrMore(Latin1Chars), Square)
  const CodabarRule: ValidationRule := ValidationRule(Codabar, 20, 4, CodabarAlphabet, OneOrMore(CodabarChars), Rectangular)
  const Code93Rule: ValidationRule := ValidationRule(Code93, 48, 1, Code39Alphabet, OneOrMore(Code39Chars), Rectangular)
  const DataBarRule: ValidationRule := ValidationRule(DataBar, 14, 14, DigitsOnly, Exactly(14, DigitChars), Rectangular)
  const DataBarExpandedRule: ValidationRule := ValidationRule(DataBarExpanded, 74, 4, Code39Alphabet, OneOrMore(Code39Chars), Rectangular)
  const DataBarLimitedRule: ValidationRule := ValidationRule(DataBarLimited, 14, 14, DigitsOnly, Exactly(14, DigitChars), Rectangular)
  const ITFRule: ValidationRule := ValidationRule(ITF, 14, 2, DigitsOnly, OneOrMore(DigitChars), Rectangular)
  const MaxiCodeRule: ValidationRule := ValidationRule(MaxiCode, 150, 1, [], OneOrMore(Latin1Chars), Square)
  const MicroQRCodeRule: ValidationRule := ValidationRule(MicroQRCode, 35, 1, [], OneOrMore(Latin1Chars), Square)
  const RMQRCodeRule: ValidationRule := ValidationRule(RMQRCode, 3617, 1, [], OneOrMore(Latin1Chars), Rectangular)
  const DXFilmEdgeRule: ValidationRule := ValidationRule(DXFilmEdge, 6, 6, DigitsOnly, Exactly(6, DigitChars), Rectangular)

  /** `validationRules`, in the order of the source. */
  const Rules: seq<ValidationRule> := [
    Code128Rule, Code39Rule, QRCodeRule, EAN13Rule, EAN8Rule,
    UPCARule, UPCERule, DataMatrixRule, PDF417Rule, AztecRule,
    CodabarRule, Code93Rule, DataBarRule, DataBarExpandedRule, DataBarLimitedRule,
    ITFRule, MaxiCodeRule, MicroQRCodeRule, RMQRCodeRule, DXFilmEdgeRule
  ]

  /** `Array.prototype.findIndex` from position `from` on: the first index
      whose rule is for `f`, or -1 when there is none. */
  function FindIndex(rules: seq<ValidationRule>, f: BarcodeFormat, from: nat): (k: int)
    requires from <= |rules|
    ensures k == -1 || (from <= k < |rules| && rules[k].format == f)
    ensures forall j :: from <= j < |rules| && (k == -1 || j < k) ==> rules[j].format != f
    decreases |rules| - from
  {
    if from == |rules| then -1
    else if rules[from].format == f then from
    else FindIndex(rules, f, from + 1)
  }

  /** `Array.prototype.find`: the first rule for the format, if any. */
  function Find(rules: seq<ValidationRule>, f: BarcodeFormat): (r: Option<ValidationRule>)
    ensures r.Some? ==> r.value in rules && r.value.format == f
    ensures r.None? <==> forall i :: 0 <= i < |rules| ==> rules[i].format != f
  {
    var k := FindIndex(rules, f, 0);
    if k == -1 then Option.None else Some(rules[k])
  }

  /** `find` returns the rule at the first index whose format matches. */
  lemma FindFirst(rules: seq<ValidationRule>, f: BarcodeFormat, k: nat)
    requires k < |rules| && rules[k].format == f
    requires forall j :: 0 <= j < k ==> rules[j].format != f
    ensures Find(rules, f) == Some(rules[k])
  {
    var i := FindIndex(rules, f, 0);
    assert i == k;
  }

  /** The table lists the first twenty formats in declaration order, one
      rule each: so its formats are pairwise distinct and `find` is
      unambiguous. */
  lemma RulesFollowDeclaration()
    ensures |Rules| == 20
    ensures forall i :: 0 <= i < |Rules| ==> Rules[i].format == AllFormats[i]
    ensures forall i :: 0 <= i < |Rules| ==> Ordinal(Rules[i].format) == i
    ensures forall i, j :: 0 <= i < j < |Rules| ==> Rules[i].format != Rules[j].format
  {
    RuleOrdinals();
    forall i | 0 <= i < |Rules| ensures Rules[i].format == AllFormats[i] {
      assert AllFormats[Ordinal(Rules[i].format)] == Rules[i].format;
    }
    forall i, j | 0 <= i < j < |Rules| ensures Rules[i].format != Rules[j].format {
      assert Ordinal(Rules[i].format) == i;
    }
  }

  lemma RuleOrdinals()
    ensures |Rules| == 20
    ensures forall i :: 0 <= i < |Rules| ==> Ordinal(Rules[i].format) == i
  {
    RuleOrdinalsBelow(0, 5);
    RuleOrdinalsBelow(5, 10);
    RuleOrdinalsBelow(10, 15);
    RuleOrdinalsBelow(15, 20);
  }

  lemma RuleOrdinalsBelow(lo: nat, hi: nat)
    requires lo <= hi <= |Rules| && hi - lo <= 5
    ensures forall i :: lo <= i < hi ==> Ordinal(Rules[i].format) == i
  {
  }

  /** The rule for a format: the entry at its ordinal among the first twenty,
      none for LinearCodes, MatrixCodes, Any and None. */
  function RuleFor(f: BarcodeFormat): (r: Option<ValidationRule>)
    ensures Ordinal(f) < 20 <==> r.Some?
    ensures r.Some? ==> r.value == Rules[Ordinal(f)] && r.value.format == f
  {
    FindAtOrdinal(f);
    Find(Rules, f)
  }

  lemma FindAtOrdinal(f: BarcodeFormat)
    ensures Ordinal(f) < 20 ==> Find(Rules, f) == Some(Rules[Ordinal(f)])
    ensures Ordinal(f) >= 20 ==> Find(Rules, f) == Option.None
  {
    RulesFollowDeclaration();
    var k := Ordinal(f);
    if k < 20 {
      forall j | 0 <= j < k ensures Rules[j].format != f {
        assert Ordinal(Rules[j].format) == j;
      }
      FindFirst(Rules, f, k);
    } else {
      forall j | 0 <= j < |Rules| ensures Rules[j].format != f {
        assert Ordinal(Rules[j].format) == j;
      }
    }
  }

  /** A format's rule is the table entry that names it. */
  lemma RuleAt(k: nat, r: ValidationRule)
    requires k < |Rules| && Rules[k] == r
    ensures RuleFor(r.format) == Some(r)
  {
    RulesFollowDeclaration();
  }

  /** Every rule has 1 <= minLength <= maxLength. */
  lemma RuleBoundsOrdered()
    ensures forall i :: 0 <= i < |Rules| ==> 1 <= Rules[i].minLength <= Rules[i].maxLength
  {
  }

  /** A rule is square exactly for QRCode, DataMatrix, Aztec, MaxiCode and
      MicroQRCode. */
  lemma SquareFormats()
    ensures forall i :: 0 <= i < |Rules| ==> (Rules[i].dimensions == Square
        <==> Rules[i].format in {QRCode, DataMatrix, Aztec, MaxiCode, MicroQRCode})
  {
  }

  /** No rule's pattern accepts the empty string. */
  lemma NoRuleAcceptsEmpty()
    ensures forall i :: 0 <= i < |Rules| ==> !Test(Rules[i].allowedCharactersRegex, "")
  {
    forall i | 0 <= i < |Rules| ensures !Test(Rules[i].allowedCharactersRegex, "") {
      assert Utf16("") == [];
    }
  }

  /** `^[0-9]{n}$` accepts exactly the strings of n ASCII digits. */
  lemma {:induction false} DigitsPattern(n: nat, s: string)
    ensures Test(Exactly(n, DigitChars), s) <==> |s| == n && forall i :: 0 <= i < |s| ==> '0' <= s[i] <= '9'
  {
    if Test(Exactly(n, DigitChars), s) {
      AllDigitUnits(s);
    }
    if |s| == n && forall i :: 0 <= i < |s| ==> '0' <= s[i] <= '9' {
      Utf16OfBmp(s);
    }
  }

  /** `^[0-9]+$` accepts exactly the non-empty strings of ASCII digits. */
  lemma {:induction false} OneOrMoreDigitsPattern(s: string)
    ensures Test(OneOrMore(DigitChars), s) <==> |s| >= 1 && forall i :: 0 <= i < |s| ==> '0' <= s[i] <= '9'
  {
    if Test(OneOrMore(DigitChars), s) {
      AllDigitUnits(s);
    }
    if |s| >= 1 && forall i :: 0 <= i < |s| ==> '0' <= s[i] <= '9' {
      Utf16OfBmp(s);
    }
  }

  /** A string whose code units are all digits is a string of digits. */
  lemma AllDigitUnits(s: string)
    requires forall i :: 0 <= i < |Utf16(s)| ==> IsDigit(Utf16(s)[i])
    ensures |Utf16(s)| == |s|
    ensures forall i :: 0 <= i < |s| ==> '0' <= s[i] <= '9'
  {
    Utf16Below(s, 0x80);
    Utf16OfBmp(s);
    forall i | 0 <= i < |s| ensures '0' <= s[i] <= '9' {
      assert IsDigit(Utf16(s)[i]);
    }
  }

  /** `^[\x00-\xFF]+$` accepts exactly the non-empty strings whose code
      units, equivalently whose characters, are all at most 0xFF. */
  lemma Latin1Pattern(s: string)
    ensures Test(OneOrMore(Latin1Chars), s)
        <==> |Utf16(s)| >= 1 && forall i :: 0 <= i < |Utf16(s)| ==> Utf16(s)[i] <= 0xFF
    ensures Test(OneOrMore(Latin1Chars), s)
        <==> |s| >= 1 && forall i :: 0 <= i < |s| ==> s[i] as int <= 0xFF
  {
    Utf16Below(s, 0x100);
    if |s| == 0 {
      assert Utf16(s) == [];
    }
  }

  /** Seven formats take exactly N ASCII digits: min = max = N and the
      pattern accepts exactly the strings of N digits. */
  lemma FixedLengthDigitFormats(f: BarcodeFormat, n: nat, s: string)
    requires (f, n) in {(EAN13, 13), (EAN8, 8), (UPCA, 12), (UPCE, 8),
                        (DataBar, 14), (DataBarLimited, 14), (DXFilmEdge, 6)}
    ensures RuleFor(f).Some?
    ensures RuleFor(f).value.minLength == n == RuleFor(f).value.maxLength
    ensures Test(RuleFor(f).value.allowedCharactersRegex, s)
        <==> |s| == n && forall i :: 0 <= i < |s| ==> '0' <= s[i] <= '9'
  {
    DigitRuleShape(f, n);
    DigitsPattern(n, s);
  }

  lemma DigitRuleShape(f: BarcodeFormat, n: nat)
    requires (f, n) in {(EAN13, 13), (EAN8, 8), (UPCA, 12), (UPCE, 8),
                        (DataBar, 14), (DataBarLimited, 14), (DXFilmEdge, 6)}
    ensures RuleFor(f) == Some(ValidationRule(f, n, n, DigitsOnly, Exactly(n, DigitChars), Rectangular))
  {
    if f == EAN13 {
      RuleAt(3, EAN13Rule);
    } else if f == EAN8 {
      RuleAt(4, EAN8Rule);
    } else if f == UPCA {
      RuleAt(5, UPCARule);
    } else if f == UPCE {
      RuleAt(6, UPCERule);
    } else if f == DataBar {
      RuleAt(12, DataBarRule);
    } else if f == DataBarLimited {
      RuleAt(14, DataBarLimitedRule);
    } else {
      RuleAt(19, DXFilmEdgeRule);
    }
  }

  /** The `[\x00-\xFF]+` formats accept a string exactly when it is non-empty
      and every code unit is at most 0xFF, that is, every character is. */
  lemma Latin1Formats(f: BarcodeFormat, s: string)
    requires f in {QRCode, DataMatrix, PDF417, Aztec, MaxiCode, MicroQRCode, RMQRCode}
    ensures RuleFor(f).Some?
    ensures Test(RuleFor(f).value.allowedCharactersRegex, s)
        <==> |Utf16(s)| >= 1 && forall i :: 0 <= i < |Utf16(s)| ==> Utf16(s)[i] <= 0xFF
    ensures Test(RuleFor(f).value.allowedCharactersRegex, s)
        <==> |s| >= 1 && forall i :: 0 <= i < |s| ==> s[i] as int <= 0xFF
  {
    Latin1RuleShape(f);
    Latin1Pattern(s);
  }

  lemma Latin1RuleShape(f: BarcodeFormat)
    requires f in {QRCode, DataMatrix, PDF417, Aztec, MaxiCode, MicroQRCode, RMQRCode}
    ensures RuleFor(f).Some? && RuleFor(f).value.allowedCharactersRegex == OneOrMore(Latin1Chars)
  {
    if f == QRCode {
      RuleAt(2, QRCodeRule);
    } else if f == DataMatrix {
      RuleAt(7, DataMatrixRule);
    } else if f == PDF417 {
      RuleAt(8, PDF417Rule);
    } else if f == Aztec {
      RuleAt(9, AztecRule);
    } else if f == MaxiCode {
      RuleAt(16, MaxiCodeRule);
    } else if f == MicroQRCode {
      RuleAt(17, MicroQRCodeRule);
    } else {
      RuleAt(18, RMQRCodeRule);
    }
  }

  /** Code39, Code93 and DataBarExpanded share one alphabet: digits, upper
      case letters, `- . $ / + %` and JavaScript white space. */
  lemma SharedCode39Alphabet(f: BarcodeFormat, u: CodeUnit)
    requires f in {Code39, Code93, DataBarExpanded}
    ensures RuleFor(f).Some?
    ensures RuleFor(f).value.allowedCharactersRegex == OneOrMore(Code39Chars)
    ensures RuleFor(f).value.allowedCharacters == Code39Alphabet
    ensures InClass(Code39Chars, u) <==>
      IsDigit(u) || IsUpperAscii(u) || IsJsWhitespaceUnit(u)
      || u in {'-' as int, '.' as int, '$' as int, '/' as int, '+' as int, '%' as int}
  {
    if f == Code39 {
      RuleAt(1, Code39Rule);
    } else if f == Code93 {
      RuleAt(11, Code93Rule);
    } else {
      RuleAt(13, DataBarExpandedRule);
    }
  }

  /** Codabar's pattern admits white space although its displayed alphabet
      lists no space. */
  lemma CodabarAdmitsWhitespace()
    ensures RuleFor(Codabar).Some?
    ensures Test(RuleFor(Codabar).value.allowedCharactersRegex, "A1 B")
    ensures " " !in RuleFor(Codabar).value.allowedCharacters
  {
    RuleAt(10, CodabarRule);
    CodabarSample();
  }

  lemma CodabarSample()
    ensures Test(OneOrMore(CodabarChars), "A1 B")
    ensures " " !in CodabarAlphabet
  {
    var s := "A1 B";
    Utf16OfBmp(s);
  }

  /** ITF takes one or more digits, between 2 and 14 of them. */
  lemma ItfRule(s: string)
    ensures RuleFor(ITF).Some?
    ensures RuleFor(ITF).value.minLength == 2 && RuleFor(ITF).value.maxLength == 14
    ensures Test(RuleFor(ITF).value.allowedCharactersRegex, s)
        <==> |s| >= 1 && forall i :: 0 <= i < |s| ==> '0' <= s[i] <= '9'
  {
    RuleAt(15, ITFRule);
    OneOrMoreDigitsPattern(s);
  }

  /** Every format the editor offers has a rule. */
  lemma OfferedFormatsHaveRules()
    ensures forall f :: f in Interfaces.GetAvailableBarcodeFormats() ==> RuleFor(f).Some?
  {
  }
}

=== FILE: validator.dfy ===
/** The backend's configuration checks (src/generator/validator.rs). Rust's
    `String::len` counts UTF-8 bytes, while `.chars()` yields scalar values.
    Only `validate_barcode_config` is public; the five format checks are
    private and nothing calls them. */
module Validator {
  import opened Strings
  import opened Formats
  import opened Wrappers
  import opened GeneratorConfig

  type Check = Result<(), string>

  const NoTexts: string := "No texts provided"
  const CodabarTooLong: string := "Codabar barcode can only have 16 characters"
  const DataBarTooLong: string := "DataBar barcode can only have 99 characters"
  const DataBarExpandedCharset: string :=
    "Invalid character in DataBar Expanded data: only ISO/IEC 8859-1 characters are supported."
  const Code39TooLong: string := "Code39 barcode can only have 99 characters"
  const UpceTooLong: string := "UPCE barcode can only have 8 characters"

  /** `validate_barcode_config`: fails exactly when there is no text; the
      format and the data are not looked at. */
  function ValidateBarcodeConfig(c: BarcodeConfigInternal): (r: Check)
    ensures r.Err? <==> |c.texts| == 0
    ensures r.Err? ==> r.error == NoTexts
  {
    if |c.texts| == 0 then Err(NoTexts) else Ok(())
  }

  /** The shape of four of the checks: a byte-length bound that applies to
      one format only. */
  function LengthCheck(c: BarcodeConfigInternal, f: BarcodeFormat, max: nat, msg: string): (r: Check)
    ensures r.Err? <==> c.format == f && Utf8Len(c.data) > max
    ensures r.Err? ==> r.error == msg
  {
    if c.format == f && Utf8Len(c.data) > max then Err(msg) else Ok(())
  }

  /** `validate_code_bar_config`: at most 16 bytes of Codabar data. */
  function ValidateCodabar(c: BarcodeConfigInternal): (r: Check)
    ensures r.Err? <==> c.format == Codabar && Utf8Len(c.data) > 16
    ensures r.Err? ==> r.error == CodabarTooLong
  {
    LengthCheck(c, Codabar, 16, CodabarTooLong)
  }

  /** `validate_databar_config`: at most 99 bytes of DataBar data. */
  function ValidateDataBar(c: BarcodeConfigInternal): (r: Check)
    ensures r.Err? <==> c.format == DataBar && Utf8Len(c.data) > 99
    ensures r.Err? ==> r.error == DataBarTooLong
  {
    LengthCheck(c, DataBar, 99, DataBarTooLong)
  }

  /** `validate_code39_config`: at most 99 bytes of Code 39 data. */
  function ValidateCode39(c: BarcodeConfigInternal): (r: Check)
    ensures r.Err? <==> c.format == Code39 && Utf8Len(c.data) > 99
    ensures r.Err? ==> r.error == Code39TooLong
  {
    LengthCheck(c, Code39, 99, Code39TooLong)
  }

  /** `validate_upce_config`: at most 8 bytes of UPC-E data. */
  function ValidateUpce(c: BarcodeConfigInternal): (r: Check)
    ensures r.Err? <==> c.format == UPCE && Utf8Len(c.data) > 8
    ensures r.Err? ==> r.error == UpceTooLong
  {
    LengthCheck(c, UPCE, 8, UpceTooLong)
  }

  /** `config.data.chars().any(|c| c as u32 > 255)`, as a scan. */
  function AnyAbove255(s: string): (b: bool)
    ensures b <==> exists i :: 0 <= i < |s| && s[i] as int > 255
    decreases |s|
  {
    if |s| == 0 then false
    else if s[0] as int > 255 then true
    else
      var rest := AnyAbove255(s[1..]);
      assert forall i :: 1 <= i < |s| ==> s[i] == s[1..][i - 1];
      rest
  }

  /** `validate_databar_expanded_config`: DataBar Expanded data may only
      hold characters up to U+00FF; this counts characters, not bytes. */
  function ValidateDataBarExpanded(c: BarcodeConfigInternal): (r: Check)
    ensures r.Err? <==> c.format == DataBarExpanded && exists i :: 0 <= i < |c.data| && c.data[i] as int > 255
    ensures r.Err? ==> r.error == DataBarExpandedCharset
  {
    if c.format == DataBarExpanded && AnyAbove255(c.data) then Err(DataBarExpandedCharset) else Ok(())
  }

  /** Each format check passes every configuration of another format. */
  lemma ChecksAreFormatSpecific(c: BarcodeConfigInternal)
    ensures c.format != Codabar ==> ValidateCodabar(c).Ok?
    ensures c.format != DataBar ==> ValidateDataBar(c).Ok?
    ensures c.format != DataBarExpanded ==> ValidateDataBarExpanded(c).Ok?
    ensures c.format != Code39 ==> ValidateCode39(c).Ok?
    ensures c.format != UPCE ==> ValidateUpce(c).Ok?
  {
  }

  /** Two-byte characters count twice toward the length checks: the limits
      are in bytes, so a Code 39 payload of 50 characters from U+0080 to
      U+07FF is 100 bytes and fails. */
  lemma {:induction false} TwoByteCharsCountTwice(s: string)
    requires forall i :: 0 <= i < |s| ==> 0x80 <= s[i] as int < 0x800
    ensures Utf8Len(s) == 2 * |s|
    decreases |s|
  {
    if |s| > 0 {
      assert forall i :: 0 <= i < |s[1..]| ==> s[1..][i] == s[i + 1];
      TwoByteCharsCountTwice(s[1..]);
    }
  }

  /** For ASCII data the byte limits are character limits. */
  lemma AsciiLengthCheck(c: BarcodeConfigInternal, f: BarcodeFormat, max: nat, msg: string)
    requires forall i :: 0 <= i < |c.data| ==> c.data[i] as int < 0x80
    ensures LengthCheck(c, f, max, msg).Err? <==> c.format == f && |c.data| > max
  {
    Utf8LenAscii(c.data);
  }
}

=== FILE: wrappers.dfy ===
/** Failure-compatible wrappers shared by every module of the model. */
module Wrappers {

  /** An optional value: the JS `undefined`/`null` and Rust `Option` of the source. */
  datatype Option<+T> = None | Some(value: T)

  /** A value or an error: Rust's `Result` and the JS try/catch outcomes. */
  datatype Result<+T, +E> = Ok(value: T) | Err(error: E) {
    predicate IsFailure() { Err? }

    function PropagateFailure<U>(): Result<U, E>
      requires Err?
    {
      Err(error)
    }

    function Extract(): T
      requires Ok?
    {
      value
    }
  }
}
